=== FILE: README.md ===
# geventy — a verified model of the live-event core

geventy is a web app for running a live party or company event. An organiser builds the
evening's **program**: a table of blocks, each with a status (pending, active, completed) and an
integer sort order. The organiser then runs the program live. Guests join on their phones with
a six-digit live code. A projector shows the current block, a leaderboard, the guest roster and
a social wall. Two mini-games run on top: *Who am I* (guess whose fact this is) and *Two truths
and a lie*.

This project models that core in Dafny, file by file, and proves what the code promises and
where it falls short.

- **Server actions as methods on `Db.Database`.** The actions are program, timeline,
  attendees, achievements, social and events. `Database` holds the tables as sequence fields.
  Each action checks the owner first, reads, then writes.
- **The client store as `GameStore.Store`.** It is a class whose methods overwrite its fields.
  `State()` reads all the fields at once.
- **The realtime channel as `EventChannel.Channel`.** Broadcast messages are appended to a log.
  An inbound command is dispatched onto the store.
- **Controllers and screens.** Moderator controls, voting screens, the timeline editor and the
  six-box code entry are classes whose methods follow the React handlers step by step.
- **Pure helpers as functions.** Slugs, nickname hashing, route protection, tiers, roster
  ordering, badges and counts are functions with lemmas stating their properties.

Clocks, identifiers the database generates, random shuffles and the answers of storage and
database calls are parameters of the operations.

## Model

| member | source | states |
|---|---|---|
| Db.OwnerCheck | src/app/actions/program.ts:6-26 | no user gives "Neautorizovany pristup", a user who is not the event's creator gives "Event nenalezen", and nothing is refused otherwise |
| Db.FindAttendee | src/components/games/who-am-i/ModeratorControls.tsx:57 | the first attendee with the id, or none exactly when no attendee has it |
| Db.EventBlocks | src/app/actions/program.ts:107-110 | the rows of one event: exactly the table's rows with that event id |
| Db.Ordered | src/app/actions/program.ts:107-110 | `order("sort_order")`: a permutation of the rows in ascending sort order |
| Db.OrderedMembers | src/app/actions/program.ts:107-110 | a row is in the event's ordered list exactly when it is in the table with that event id |
| Db.MaxSortOrder | src/app/actions/program.ts:29-35 | none exactly when the event has no block; otherwise an upper bound that some block of the event reaches |
| Db.NextSortOrder | src/app/actions/program.ts:29-35 | 0 for an event with no block; otherwise one more than the highest sort order of the event (above every order, and equal to some order plus one) |
| Db.IndexOf | src/app/actions/program.ts:80-85 | the row matching both id and event, or -1 exactly when there is none |
| Db.CompleteById | src/app/actions/program.ts:119-121 | the update by id alone: every row with the id is completed at the given time and every other row is unchanged; ids and events are kept |
| Db.ActivateById | src/app/actions/program.ts:134-138 | the update by id alone: every row with the id becomes active, started at the given time, and every other row is unchanged; ids and events are kept |
| ProgramActions.StartGame | src/app/actions/program.ts:19-52 | the owner guard with no write; an insert error returned with no write; success exactly when neither, appending one active game block at the next sort order and returning its id; ids stay unique |
| ProgramActions.StartGameCanLeaveTwoActive | src/app/actions/program.ts:37-46 | starting a game while a block is active leaves the event with two active blocks |
| ProgramActions.StartGameAppendsLast | src/app/actions/program.ts:28-45 | the started game block sorts after every existing block of the event |
| ProgramActions.ActiveIds | src/app/actions/program.ts:64-67 | the ids selected are exactly those of the event's active blocks |
| ProgramActions.CompleteActive | src/app/actions/program.ts:69-77 | every active block of the event is completed, no active block of the event remains, and every other row is unchanged |
| ProgramActions.ProgramIdOf | src/app/actions/program.ts:89-94 | a program id is returned exactly for a game block with a non-empty game id, and it is the block's id |
| ProgramActions.ActivateBlock | src/app/actions/program.ts:54-95 | the owner guard with no write; then the active blocks are completed, unless their read fails (no data), which writes no completion; a target missing from the event, or an error of the activating update, is returned after the completions were written, with nothing activated; otherwise the target is activated whatever its status and returned with its program id |
| ProgramActions.ActivateLeavesOnlyTarget | src/app/actions/program.ts:63-85 | when the completions ran, after activation the target is the only active block of its event, and other events' rows are unchanged |
| ProgramActions.FailedReadCanLeaveTwoActive | src/app/actions/program.ts:63-86 | when the read of the active blocks fails, an active block of the event stays active beside the activated target |
| ProgramActions.FirstWithStatus | src/app/actions/program.ts:115-126 | `findIndex` from a start position: the first row with the status, or -1 when no row from there has it |
| ProgramActions.AdvanceProgram | src/app/actions/program.ts:97-143 | the owner guard with no write; otherwise the outcome of AdvanceOwned: "Zadne bloky" with no write for a failed read of the blocks (no data) or an event without blocks; `finished` exactly when no pending block follows the first active one; an activation error after the completion was written; otherwise the activated block returned |
| ProgramActions.AdvanceOwned | src/app/actions/program.ts:106-142 | "Zadne bloky" with no write when the read of the blocks fails (no data) or the program is empty; otherwise the first active block in sort order is completed; `finished` exactly when no pending block follows it, with nothing activated; an activation error leaves only the completion; otherwise the first pending block after it is activated and returned |
| ProgramActions.ActivateNext | src/app/actions/program.ts:133-142 | the activating update is applied to the completed table and the row returned is the next pending block, activated at the given time |
| ProgramActions.AdvanceEffect | src/app/actions/program.ts:114-138 | row by row: the first active block of the schedule is completed, the first pending block after it is activated, and every other row, of this event or another, is left as it was |
| ProgramActions.AdvanceLeavesSecondActive | src/app/actions/program.ts:115-121 | only the first active block is completed: any other active block of the event stays active |
| ProgramActions.AdvanceSkipsEarlierPending | src/app/actions/program.ts:124-126 | the search starts after the active block: a pending block sorted before it is left unchanged |
| ProgramActions.ActivateByIdFromNone | src/app/actions/program.ts:133-138 | activating one block in an event with no active block leaves at most one active block |
| ProgramActions.AdvanceKeepsAtMostOneActive | src/app/actions/program.ts:114-142 | advancing preserves "at most one active block per event" |
| ProgramActions.DeactivateProgram | src/app/actions/program.ts:145-163 | the owner guard with no write; an update error returned with no write; success exactly when neither, completing every active block of the event and leaving every other row unchanged |
| TimelineActions.AddedRow | src/app/actions/timeline.ts:36-46 | the inserted row is pending, has the given type, title and minutes, a game id only when one was given, and sorts after every existing block |
| TimelineActions.AddBlock | src/app/actions/timeline.ts:17-54 | the owner guard with no write; an insert error returned with no write; success exactly when neither, appending exactly the added row (a game block without a game id is not refused) |
| TimelineActions.Without | src/app/actions/timeline.ts:65-68 | the delete keeps exactly the rows not matching both id and event, and changes nothing when no row matches both |
| TimelineActions.RemoveBlock | src/app/actions/timeline.ts:56-74 | the owner guard with no write; a delete error returned with no write; success exactly when neither, deleting only the row matching both ids |
| TimelineActions.RemoveKeepsSortOrders | src/app/actions/timeline.ts:65-68 | the remaining blocks are not renumbered: every surviving row of the event is an original row, unchanged, and every row not removed survives |
| TimelineActions.PositionOf | src/app/actions/timeline.ts:97 | the first ordered row with the id, or -1 exactly when there is none |
| TimelineActions.SwapPair | src/app/actions/timeline.ts:97-101 | "Blok nenalezen" or "Nelze presunout" are the only errors; when each comes and which neighbour is paired is stated by SwapPairRows and SwapPairEnds |
| TimelineActions.NeighbourPair | src/app/actions/timeline.ts:97-101 | on any list: the only errors are "Blok nenalezen" and "Nelze presunout" |
| TimelineActions.NeighbourPairEnds | src/app/actions/timeline.ts:97-105 | "Nelze presunout" exactly for the first block moved up or the last moved down; otherwise the pair is the block at its position and the row just before it (up) or just after it (down) |
| TimelineActions.SwapPairEnds | src/app/actions/timeline.ts:89-105 | the same for the event's blocks in sort order: only the first block cannot move up and only the last cannot move down, and the neighbour is the adjacent block |
| TimelineActions.SwapPairRows | src/app/actions/timeline.ts:97-105 | "Blok nenalezen" exactly when the event has no block with the id; otherwise two different rows of the event, the first being the moved block |
| TimelineActions.SetOrderById | src/app/actions/timeline.ts:107-113 | the update by id changes only the sort order of the rows with that id |
| TimelineActions.ReorderBlock | src/app/actions/timeline.ts:76-117 | the owner guard with no write; "Nelze nacist bloky" with no write when the blocks cannot be read; an error from the pair with no write; otherwise the two updates of the swap |
| TimelineActions.SwapRows | src/app/actions/timeline.ts:103-113 | exchanging two rows' sort orders touches only those rows and keeps the multiset of sort orders |
| TimelineActions.SwapExchangesOrders | src/app/actions/timeline.ts:103-113 | a successful move exchanges the block's and its neighbour's sort orders, leaves every other row unchanged and keeps the multiset of sort orders |
| TimelineActions.Edited | src/app/actions/timeline.ts:122-133 | only the supplied title and duration change, and nothing else in the block |
| TimelineActions.UpdateBlock | src/app/actions/timeline.ts:119-141 | the owner guard with no write; an update error returned with no write; success exactly when neither, editing only the block matching id and event |
| TimelineActions.LastIndexOf | src/app/actions/timeline.ts:156-163 | the last position of a value in the list, or -1 exactly when it is absent |
| TimelineActions.Writes | src/app/actions/timeline.ts:156-164 | update k writes its id exactly when it reports no error, and writes nothing when it does |
| TimelineActions.Renumbered | src/app/actions/timeline.ts:156-161 | the bulk renumbering changes at most the sort order of each row |
| TimelineActions.SetOrderWhere | src/app/actions/timeline.ts:157-160 | the update matching id and event sets only the sort order of the matching rows |
| TimelineActions.FirstError | src/app/actions/timeline.ts:163-165 | no error exactly when no update failed; otherwise the error of the first failed update in list order |
| TimelineActions.ReorderBulk | src/app/actions/timeline.ts:143-169 | the owner guard with no write; otherwise every update runs, a failed one writing nothing, the table is renumbered by the successful ones, and the first error in list order is returned (success exactly when none failed) |
| TimelineActions.BulkAssignsPositions | src/app/actions/timeline.ts:155-161 | with no id written twice, a block of the event written at position k gets sort order k; blocks not written (unlisted, or whose update failed) and other events are unaffected, and coverage of the event is not checked |
| TimelineActions.LastGameIndex | src/app/actions/timeline.ts:194-196 | the last games-library row with the slug, or -1 |
| TimelineActions.ResolveSlug | src/app/actions/timeline.ts:188-208 | no game id exactly when no library row has the slug; otherwise the id of a row with the slug after which no row has it (the last one wins in the map) |
| TimelineActions.TemplateRows | src/app/actions/timeline.ts:205-212 | the i-th inserted row has the i-th new id, the event, sort order i, pending status, and the template block's type, title and minutes |
| TimelineActions.OtherEvents | src/app/actions/timeline.ts:199-202 | the delete keeps exactly the other events' rows |
| TimelineActions.OtherEventsUnique | src/app/actions/timeline.ts:199-202 | deleting an event's rows keeps the remaining ids unique |
| TimelineActions.ApplyTemplate | src/app/actions/timeline.ts:171-220 | the owner guard with no write; "Sablona je prazdna" for an empty template with no write; an insert error after the unchecked delete leaves the event with no block and other events' rows kept; success exactly when none of these, the event's rows replaced by the template rows; ids stay unique |
| TimelineActions.TemplateReplacesProgram | src/app/actions/timeline.ts:199-214 | after a template is applied the event's blocks are exactly the template's rows in order: the i-th is pending with sort order i, the template's type and title, and a game id exactly when its slug is in the games library |
| TimelineTemplates.TemplateShape | src/lib/timeline-templates.ts:28-57 | only the custom event type has an empty template; every other has five blocks; a block names a game slug exactly when it is a game block, and every duration is positive |
| TimelineTemplates.TemplateTotals | src/lib/timeline-templates.ts:29-57 | the templates last 75, 80, 75, 80 and 0 minutes |
| TimelineTemplates.EventTypeLabelsDistinct | src/lib/timeline-templates.ts:12-18 | every event type has a non-empty label, and different types have different labels |
| TimelineTemplates.SeriousnessLevels | src/lib/timeline-templates.ts:20-26 | a seriousness entry exists exactly for the levels 1 to 5 |
| GameStore.ScoreConsistentPreserved | src/stores/game-store.ts:86-140 | the initial state's score is the sum of its achievements' points, and appending an achievement while adding its points keeps it so |
| GameStore.Store.constructor | src/stores/game-store.ts:103-104 | the store starts in the initial state |
| GameStore.Store.SetEventContext | src/stores/game-store.ts:106 | only the event and program ids change |
| GameStore.Store.SetActiveBlock | src/stores/game-store.ts:108 | the block is set and the phase goes back to the lobby; nothing else changes |
| GameStore.Store.ClearActiveBlock | src/stores/game-store.ts:110 | only the active block is cleared |
| GameStore.Store.SetPhase | src/stores/game-store.ts:112 | the phase is set and this client's vote forgotten; nothing else changes |
| GameStore.Store.ShowFact | src/stores/game-store.ts:114-122 | voting opens on the new fact and round with an empty tally and no vote of ours; scores and everything else stay |
| GameStore.Store.CastVote | src/stores/game-store.ts:124 | only this client's vote changes |
| GameStore.Store.UpdateVotes | src/stores/game-store.ts:126 | only the tally changes |
| GameStore.Store.ShowResults | src/stores/game-store.ts:128 | the phase becomes results and the tally is replaced; the correct id is not stored |
| GameStore.Store.UpdateScores | src/stores/game-store.ts:130 | only the scores change |
| GameStore.Store.SetOnlinePlayers | src/stores/game-store.ts:132 | only the online players change |
| GameStore.Store.SetMyFactSubmitted | src/stores/game-store.ts:134 | only the fact-submitted flag changes |
| GameStore.Store.AddAchievement | src/stores/game-store.ts:136-140 | the achievement is appended and its points added to the score in one update, which keeps a consistent score consistent |
| GameStore.Store.SetAchievements | src/stores/game-store.ts:142 | the list and score are taken as given; the result is consistent exactly when the score is the list's sum |
| GameStore.Store.Reset | src/stores/game-store.ts:144 | every field, event context and achievements included, returns to the initial state |
| EventChannel.Roster | src/hooks/useEventChannel.ts:40-47 | one player per presence entry, in order, with its id, name and display flag, and an avatar seed that is the id's first eight characters |
| EventChannel.OnPresenceSync | src/hooks/useEventChannel.ts:32-50 | a presence sync replaces only the store's online players, with the roster |
| EventChannel.Dispatch | src/hooks/useEventChannel.ts:53-108 | each of the eight routed commands makes exactly its store update ("block_deactivate" resets the store to the initial state); any other action changes nothing |
| EventChannel.Tally | src/hooks/useEventChannel.ts:115-118 | the voted-for count goes up by one (a missing count read as 0) and every other count stays |
| EventChannel.TallyAddsOne | src/hooks/useEventChannel.ts:115-118 | a counted vote keeps the tally's keys distinct and raises the total by exactly one |
| EventChannel.OnVoteCast | src/hooks/useEventChannel.ts:111-120 | moderator and display clients count the vote; player clients change nothing |
| EventChannel.Emit | src/hooks/useEventChannel.ts:144-148 | a connected channel appends exactly one broadcast, on the "game_command" event, carrying `{action, data}`; a closed one sends nothing |
| EventChannel.Channel.constructor | src/hooks/useEventChannel.ts:23 | a new handle is not connected and has sent nothing |
| EventChannel.Channel.Open | src/hooks/useEventChannel.ts:122-134 | the handle is connected and nothing is sent |
| EventChannel.Channel.Close | src/hooks/useEventChannel.ts:136-139 | the handle is disconnected and nothing is sent |
| EventChannel.Channel.SendCommand | src/hooks/useEventChannel.ts:142-151 | the log grows as `Emit` says; the connection is unchanged |
| EventChannel.Channel.SendVote | src/hooks/useEventChannel.ts:153-162 | a connected channel appends one `vote_cast` broadcast naming the choice and this client as voter; a closed one sends nothing |
| TimelineTab.Footer | src/components/dashboard/TimelineTab.tsx:315-318 | the hours-and-minutes part is shown exactly from 60 minutes, with at least one hour, minutes below 60 and hours × 60 + minutes equal to the total |
| TimelineTab.TotalMinutes | src/components/dashboard/TimelineTab.tsx:57 | no durations give 0, and with no negative duration the total is never negative |
| TimelineTab.TotalMinutesAppend | src/components/dashboard/TimelineTab.tsx:57 | the total duration adds up over concatenation, so adding a block adds its duration |
| TimelineTab.WithoutId | src/components/dashboard/TimelineTab.tsx:103-111 | the filter keeps exactly the blocks with another id |
| TimelineTab.ReplaceId | src/components/dashboard/TimelineTab.tsx:105 | the map replaces every block with the id and keeps every other block at its position |
| TimelineTab.TempBlock | src/components/dashboard/TimelineTab.tsx:69-90 | the optimistic row is pending, numbered by the list length, titled by the given title or the type's label, and lasts the given minutes or 10 |
| TimelineTab.AddRoundTrip | src/components/dashboard/TimelineTab.tsx:91-106 | a failed add leaves the list as it was before; a successful one leaves it with the server's row appended |
| TimelineTab.SwapAt | src/components/dashboard/TimelineTab.tsx:121-123 | exchanging two positions is a permutation that swaps exactly those two entries |
| TimelineTab.PositionOfId | src/components/dashboard/TimelineTab.tsx:118 | `findIndex`: the first block with the id, or -1 exactly when there is none |
| TimelineTab.Editor.constructor | src/components/dashboard/TimelineTab.tsx:51 | the editor starts with the blocks it is given |
| TimelineTab.Editor.BeginAdd | src/components/dashboard/TimelineTab.tsx:69-99 | the temporary row is appended at once and the request carries the same type, game, title and duration |
| TimelineTab.Editor.FinishAdd | src/components/dashboard/TimelineTab.tsx:101-106 | the list settles as `SettleAdd` says: rolled back on error, the temporary row replaced by the server's row otherwise |
| TimelineTab.Editor.BeginRemove | src/components/dashboard/TimelineTab.tsx:109-111 | the block is filtered out at once and the previous list returned for rollback |
| TimelineTab.Editor.FinishRemove | src/components/dashboard/TimelineTab.tsx:113-114 | an error restores the previous list; success keeps the current one |
| TimelineTab.Editor.BeginReorder | src/components/dashboard/TimelineTab.tsx:117-126 | the block is swapped with its neighbour in the direction and the request sent, exactly when that neighbour exists; otherwise nothing changes |
| TimelineTab.Editor.FinishReorder | src/components/dashboard/TimelineTab.tsx:128-129 | an error restores the list the handler started from |
| TimelineTab.Editor.SaveTitle | src/components/dashboard/TimelineTab.tsx:131-140 | a blank title changes nothing and sends nothing; otherwise every block with the id shows the trimmed title, nothing else changes, and the trimmed title is sent |
| TimelineTab.Editor.ChangeDuration | src/components/dashboard/TimelineTab.tsx:142-151 | text that parses to no number or one below 1 changes nothing; otherwise every block with the id gets that duration and it is sent |
| WhoAmIModerator.ToSubmission | src/components/games/who-am-i/ModeratorControls.tsx:46-53 | a row keeps its author id and fact; the author's name is the first attendee with that id, or "Neznamy" when no attendee has it |
| WhoAmIModerator.FactRows | src/components/games/who-am-i/ModeratorControls.tsx:38-53 | membership: a fact is loaded exactly when it is the mapped row of one of this program's round-0 fact submissions, and there are no more facts than rows (multiplicity and order: FactRowsAppend, FactRowsOne) |
| WhoAmIModerator.FactRowsAppend | src/components/games/who-am-i/ModeratorControls.tsx:38-53 | the filter distributes over concatenation: every fact row is kept as often as it occurs, in row order |
| WhoAmIModerator.FactRowsOne | src/components/games/who-am-i/ModeratorControls.tsx:38-53 | a single row is kept, as its mapped submission, exactly when it is a round-0 fact of this program |
| WhoAmIModerator.CorrectOption | src/components/games/who-am-i/ModeratorControls.tsx:67-74 | the author's option carries the author's id; its name is the first attendee's display name with that id when there is one, and "???" exactly when no attendee has it |
| WhoAmIModerator.Others | src/components/games/who-am-i/ModeratorControls.tsx:68-69 | the candidates are exactly the attendees other than the author |
| WhoAmIModerator.ChosenAreOthers | src/components/games/who-am-i/ModeratorControls.tsx:68-75 | every option built from a selection of the candidates names an attendee who is not the author |
| WhoAmIModerator.ShuffledOptionsValid | src/components/games/who-am-i/ModeratorControls.tsx:66-78 | the author's option plus up to three candidates' options, in any order, is a valid option list: the author once, at most three others, every other option an attendee's |
| WhoAmIModerator.PickOptions | src/components/games/who-am-i/ModeratorControls.tsx:66-78 | the options are valid: the author's option exactly once and one option for each of min(3, candidates) other attendees |
| WhoAmIModerator.Controls.constructor | src/components/games/who-am-i/ModeratorControls.tsx:29-30 | no facts and the first index |
| WhoAmIModerator.Controls.LoadFacts | src/components/games/who-am-i/ModeratorControls.tsx:36-56 | a failed query (no data) keeps the facts loaded before; otherwise the facts become a shuffle (a permutation) of the loaded facts; the index is kept |
| WhoAmIModerator.Controls.StartCollecting | src/components/games/who-am-i/ModeratorControls.tsx:81-84 | "start_collecting" is sent and the store moves to collecting |
| WhoAmIModerator.Controls.ShowFactAt | src/components/games/who-am-i/ModeratorControls.tsx:93-113 | an index outside the list does nothing; otherwise round idx+1 of the list's length is broadcast and mirrored in the store with valid options, and voting opens on an empty tally |
| WhoAmIModerator.Controls.StartPlaying | src/components/games/who-am-i/ModeratorControls.tsx:86-91 | the facts are reloaded (kept on a failed query), but the continuation uses the list the handler was rendered with: empty stops and changes nothing else; otherwise its first fact is broadcast as "show_fact" round 1 of the list's length with valid options, and the store opens voting on it with an empty tally and no vote, every other field unchanged; an enabled button always reaches voting |
| WhoAmIModerator.Controls.StartEnabled | src/components/games/who-am-i/ModeratorControls.tsx:166-174 | the start button is enabled from two loaded facts, so an enabled start always has a first fact to show |
| WhoAmIModerator.Controls.ShowResults | src/components/games/who-am-i/ModeratorControls.tsx:115-125 | without a current fact nothing happens; otherwise the author is revealed with the current tally and the store moves to results |
| WhoAmIModerator.Controls.Finish | src/components/games/who-am-i/ModeratorControls.tsx:137-140 | "finish" is sent and the store moves to finished |
| WhoAmIModerator.Controls.NextRound | src/components/games/who-am-i/ModeratorControls.tsx:127-135 | while a fact remains, the index moves on and the store and broadcast are exactly those of ShowFactAt for it (voting on round index+1 with an empty tally, valid options, "show_fact" sent); after the last, "finish" is sent and the store moves to finished |
| TwoTruthsModerator.ToSubmission | src/components/games/two-truths/ModeratorControls.tsx:44-52 | a row keeps its author, statements and lie index; the author's name is the attendee's or "Neznamy" |
| TwoTruthsModerator.SubmissionRows | src/components/games/two-truths/ModeratorControls.tsx:33-52 | membership: a submission is loaded exactly when it is the mapped row of one of this program's round-0 statement submissions, and there are no more than rows (multiplicity and order: SubmissionRowsAppend, SubmissionRowsOne) |
| TwoTruthsModerator.SubmissionRowsAppend | src/components/games/two-truths/ModeratorControls.tsx:33-52 | the filter distributes over concatenation: every statement row is kept as often as it occurs, in row order |
| TwoTruthsModerator.SubmissionRowsOne | src/components/games/two-truths/ModeratorControls.tsx:33-52 | a single row is kept, as its mapped submission, exactly when it is a round-0 statement submission of this program |
| TwoTruthsModerator.RoundOf | src/components/games/two-truths/ModeratorControls.tsx:83-90 | the round carries the submission's statements, lie index, name and id, its number idx+1 and the list's length |
| TwoTruthsModerator.Hidden | src/components/games/two-truths/ModeratorControls.tsx:93-97 | players receive the same round with the lie index replaced by -1 and nothing else changed |
| TwoTruthsModerator.RoundStore | src/components/games/two-truths/ModeratorControls.tsx:99-101 | as intended, a round opens voting with an empty tally and forgets this client's vote |
| TwoTruthsModerator.RoundStoreAsWritten | src/components/games/two-truths/ModeratorControls.tsx:99 | as written, the store's phase and tally stay as they were |
| TwoTruthsModerator.AsWrittenNeverOpensVoting | src/components/games/two-truths/ModeratorControls.tsx:99-101 | from the collecting phase, the code as written never opens voting, while the intended code does |
| TwoTruthsModerator.Controls.constructor | src/components/games/two-truths/ModeratorControls.tsx:25-26 | no submissions, the first index and no round data |
| TwoTruthsModerator.Controls.LoadSubmissions | src/components/games/two-truths/ModeratorControls.tsx:31-56 | a failed query (no data) keeps the submissions loaded before; otherwise they become a permutation of the loaded ones; index and round stay |
| TwoTruthsModerator.Controls.StartCollecting | src/components/games/two-truths/ModeratorControls.tsx:65-68 | "start_collecting" is sent and the store moves to collecting |
| TwoTruthsModerator.Controls.ShowRoundAsWritten | src/components/games/two-truths/ModeratorControls.tsx:77-102 | as written: an index outside the list does nothing; otherwise the index moves, the hidden round is broadcast, and the call to the missing store action throws before the store changes |
| TwoTruthsModerator.Controls.ShowRound | src/components/games/two-truths/ModeratorControls.tsx:77-102 | as intended: an index outside the list does nothing; otherwise the hidden round is broadcast with "voting", the full round kept, and voting opens on an empty tally |
| TwoTruthsModerator.Controls.StartPlaying | src/components/games/two-truths/ModeratorControls.tsx:70-75 | as intended: reloads (kept on a failed query), then uses the list the handler was rendered with; empty stops, otherwise its first round is kept with the lie, broadcast hidden as "game_round", and voting opens; an enabled button always reaches voting |
| TwoTruthsModerator.Controls.StartEnabled | src/components/games/two-truths/ModeratorControls.tsx:165-173 | the start button is enabled from two loaded submissions, so an enabled start always has a first round to show |
| TwoTruthsModerator.Controls.StartPlayingAsWritten | src/components/games/two-truths/ModeratorControls.tsx:70-99 | as written: reloads (kept on a failed query); with a non-empty rendered list the first round is broadcast hidden, then the call throws, the store stays where it was and no round is kept; an enabled button always ends in the throw |
| TwoTruthsModerator.Controls.ShowResultsAsWritten | src/components/games/two-truths/ModeratorControls.tsx:104-124 | as written: without a current submission nothing happens; otherwise the results with the true lie index and the tally are broadcast and the missing store action throws |
| TwoTruthsModerator.Controls.ShowResults | src/components/games/two-truths/ModeratorControls.tsx:104-124 | as intended: the true lie index is revealed with the current tally, the round kept and the store moved to results |
| TwoTruthsModerator.Controls.Finish | src/components/games/two-truths/ModeratorControls.tsx:136-139 | "finish" is sent and the store moves to finished |
| TwoTruthsModerator.Controls.NextRound | src/components/games/two-truths/ModeratorControls.tsx:126-134 | as intended: while a submission remains, the next round is kept, broadcast hidden as "game_round", and voting opens; after the last, "finish" is sent and the store moves to finished |
| TwoTruthsModerator.Controls.NextRoundAsWritten | src/components/games/two-truths/ModeratorControls.tsx:77-134 | as written: while a submission remains, its round is broadcast hidden and the call throws, the store staying as it was; after the last, "finish" is sent and the store moves to finished |
| WhoAmIViews.ClickVote | src/components/games/who-am-i/VotingScreen.tsx:44-48 | a click sends the option's attendee id, and only while this client has not voted |
| WhoAmIViews.VotingScreen | src/components/games/who-am-i/VotingScreen.tsx:16-50 | nothing without a fact; otherwise round, total and fact, and one button per option in order, selected exactly when it is our vote and disabled exactly once we voted |
| WhoAmIViews.VoteOnce | src/components/games/who-am-i/VotingScreen.tsx:38-49 | after one vote no click sends another, every button is disabled, and the buttons shown selected are exactly those of the voted attendee |
| WhoAmIViews.SortedOptions | src/components/games/who-am-i/ResultsScreen.tsx:15-17 | the options are permuted into descending vote count |
| WhoAmIViews.CorrectName | src/components/games/who-am-i/ResultsScreen.tsx:29-31 | the name of the first option with the correct id, or "???" exactly when no option has it |
| WhoAmIViews.ResultRows | src/components/games/who-am-i/ResultsScreen.tsx:36-41 | one row per option in order, with its count (0 when missing), its rounded share of the total and whether it is the answer |
| WhoAmIViews.ResultsScreen | src/components/games/who-am-i/ResultsScreen.tsx:11-41 | nothing without a fact; otherwise the correct name and a row for every option (a permutation), most votes first, each with count, share and answer flag |
| WhoAmIViews.FactResponse | src/components/games/who-am-i/FactCollection.tsx:27-33 | the inserted row is this player's trimmed fact as a round-0 fact submission of the program |
| WhoAmIViews.FactForm.constructor | src/components/games/who-am-i/FactCollection.tsx:15-16 | an empty fact and no submit in flight |
| WhoAmIViews.FactForm.SetFact | src/components/games/who-am-i/FactCollection.tsx:65 | only the text changes |
| WhoAmIViews.FactForm.BeginSubmit | src/components/games/who-am-i/FactCollection.tsx:20-35 | a blank fact or a submit in flight is ignored; otherwise the insert of the trimmed fact starts and the form is marked submitting |
| WhoAmIViews.FactForm.FinishSubmit | src/components/games/who-am-i/FactCollection.tsx:27-40 | the row is stored and the store's submitted flag set only when the insert succeeded, and the form then shows the confirmation; the in-flight flag is cleared either way |
| TwoTruthsViews.ClickVote | src/components/games/two-truths/LieVoting.tsx:43-47 | a click sends the statement's index in decimal, and only while this client has not voted |
| TwoTruthsViews.LieVoting | src/components/games/two-truths/LieVoting.tsx:18-49 | nothing without round data; otherwise one button per statement in order, selected exactly when our vote is its index, disabled once we voted |
| TwoTruthsViews.OneSelectedStatement | src/components/games/two-truths/LieVoting.tsx:37 | at most one statement is shown selected, and after clicking statement k exactly k is |
| TwoTruthsViews.LieResults | src/components/games/two-truths/LieResults.tsx:11-30 | nothing without round data; otherwise the statements in order, the one at the lie index marked, each with its votes and rounded share |
| TwoTruthsViews.RevealMarksTheLie | src/components/games/two-truths/LieResults.tsx:28 | revealed results mark exactly the submitted lie, while the hidden index -1 of the broadcast marks none |
| TwoTruthsViews.VotingPanel | src/components/games/two-truths/ProjectorScreen.tsx:97-108 | the projector's live counts show exactly while voting with round data, one count per statement |
| TwoTruthsViews.Ranked | src/components/games/two-truths/ProjectorScreen.tsx:151-152 | the scores permuted into descending order |
| TwoTruthsViews.Leaderboard | src/components/games/two-truths/ProjectorScreen.tsx:148-153 | no board exactly when there are no scores; otherwise the top min(5, n) entries, drawn from the scores, highest first |
| TwoTruthsViews.LeaderboardKeepsTheBest | src/components/games/two-truths/ProjectorScreen.tsx:151-153 | no entry left off the board outscores one on it |
| TwoTruthsViews.AllFilled | src/components/games/two-truths/StatementCollection.tsx:29 | true exactly when every statement is non-blank after trimming |
| TwoTruthsViews.TrimAll | src/components/games/two-truths/StatementCollection.tsx:44 | each statement trimmed, in place |
| TwoTruthsViews.StatementForm.constructor | src/components/games/two-truths/StatementCollection.tsx:15-17 | three empty statements, no lie chosen, no submit in flight |
| TwoTruthsViews.StatementForm.UpdateStatement | src/components/games/two-truths/StatementCollection.tsx:21-27 | only the statement at the index changes |
| TwoTruthsViews.StatementForm.ChooseLie | src/components/games/two-truths/StatementCollection.tsx:83 | the lie index is set; the statements stay |
| TwoTruthsViews.StatementForm.BeginSubmit | src/components/games/two-truths/StatementCollection.tsx:29-47 | without three non-blank statements, a chosen lie and no submit in flight nothing happens; otherwise the insert of the three trimmed, non-empty statements and the lie index starts |
| TwoTruthsViews.StatementForm.FinishSubmit | src/components/games/two-truths/StatementCollection.tsx:39-55 | the row is stored and the store's submitted flag set only on success; the in-flight flag is cleared either way |
| PlayerView.FirstOpen | src/components/event/PlayerView.tsx:37-41 | the first pending or active block of a list, or -1 exactly when there is none |
| PlayerView.ProgramToPlayNone | src/components/event/PlayerView.tsx:34-41 | nothing is chosen exactly when the event has no pending or active block |
| PlayerView.FirstOpenIsLowest | src/components/event/PlayerView.tsx:37-39 | in a list sorted by sort order, the first open block has the lowest sort order of all open blocks |
| PlayerView.ProgramToPlayFirst | src/components/event/PlayerView.tsx:34-41 | the block chosen is a pending or active block of the event with the lowest sort order |
| PlayerView.ScreenFor | src/components/event/PlayerView.tsx:89-117 | the fact form shows exactly while collecting with a known program; nothing shows while playing or while collecting without a program |
| PlayerView.Player.constructor | src/components/event/PlayerView.tsx:27 | no program id yet |
| PlayerView.Player.LoadProgram | src/components/event/PlayerView.tsx:31-48 | with a block to play and a non-empty id, the program id and the store's event context are set; otherwise, and when the query fails (no row), nothing changes |
| PlayerView.Player.HandleVote | src/components/event/PlayerView.tsx:56-72 | the vote is recorded in the store and broadcast, and stored as a vote row of the current round exactly when the program id is known and non-empty |
| ModeratorView.Moderator.constructor | src/components/event/ModeratorView.tsx:25-28 | the program id starts as given, and the game slug is "who-am-i" exactly when that id is present |
| ModeratorView.Moderator.Render | src/components/event/ModeratorView.tsx:31-33 | every render with a present initial program id sets the store's event context to it; otherwise the store is untouched |
| ModeratorView.Moderator.StartGame | src/components/event/ModeratorView.tsx:42-50 | a refused start changes nothing; otherwise the new game block is written, its id and the game's slug kept, and the store ends in its initial state because `reset` wipes the context just set |
| DisplayView.NonDisplayPlayers | src/components/event/DisplayView.tsx:92 | membership: a player is kept exactly when present and not flagged as a display, and no more players than given (the count: NonDisplayPlayersAppend, NonDisplayPlayersOne) |
| DisplayView.NonDisplayPlayersAppend | src/components/event/DisplayView.tsx:92 | the filter distributes over concatenation: every non-display player is counted as often as present |
| DisplayView.NonDisplayPlayersOne | src/components/event/DisplayView.tsx:92 | a single player is kept exactly when it is not flagged as a display |
| DisplayView.DisplayAttendeeId | src/components/event/DisplayView.tsx:82 | "display-" followed by the first eight characters of the event id |
| DisplayView.HydrateAchievements | src/components/event/DisplayView.tsx:62-66 | the initial achievements and score (0 when missing) are written only when the list is non-empty; otherwise the store is untouched |
| DisplayView.ScreenFor | src/components/event/DisplayView.tsx:87-115 | the welcome screen, counting non-display players, exactly without an active block; otherwise the screen of its type, any unknown type falling back to the custom screen |
| GameDisplay.GameScreenFor | src/components/display/GameDisplay.tsx:12-29 | the projector screen exactly for the "who-am-i" slug; every other slug, or none, shows the block's title |
| GameRegistry.LoadGameModule | src/lib/game-modules/registry.ts:43-49 | the module of a registered slug, and nothing exactly for a slug that is not one of the registry's own keys |
| GameRegistry.HasGameModule | src/lib/game-modules/registry.ts:51-53 | true exactly when the slug loads a module |
| GameRegistry.RegisteredGames | src/lib/game-modules/registry.ts:36-41 | exactly "who-am-i" and "two-truths" are registered, each with its own module |
| LegendaryDisplay.ThresholdsIncrease | src/components/display/LegendaryDisplay.tsx:9-15 | five tiers whose thresholds start at 0 and strictly increase |
| LegendaryDisplay.ScanDown | src/components/display/LegendaryDisplay.tsx:18-21 | the backward scan from index i stops at the first tier whose threshold the score reaches, every tier it passed is above the score, and it falls back to the first tier |
| LegendaryDisplay.TierIndex | src/components/display/LegendaryDisplay.tsx:17-22 | the index of the tier returned is within the five tiers |
| LegendaryDisplay.GetTier | src/components/display/LegendaryDisplay.tsx:17-22 | the tier returned is one of the five tiers (which one is stated by GetTierIsHighestReached and NegativeScoreFirstTier) |
| LegendaryDisplay.FindTier | src/components/display/LegendaryDisplay.tsx:17-22 | the loop of `getTier` returns the tier the scan specifies |
| LegendaryDisplay.GetTierIsHighestReached | src/components/display/LegendaryDisplay.tsx:17-22 | for a non-negative score, the tier returned is reached and no higher tier is |
| LegendaryDisplay.NegativeScoreFirstTier | src/components/display/LegendaryDisplay.tsx:21 | a negative score reaches no threshold and gets the first tier |
| LegendaryDisplay.TierMonotone | src/components/display/LegendaryDisplay.tsx:17-22 | a higher score never gets a lower tier |
| LegendaryDisplay.OnlineCount | src/components/display/LegendaryDisplay.tsx:117 | exactly the number of players that are not displays (the `!is_display` filter's length); 0 exactly when every player is a display |
| LegendaryDisplay.Leaderboard | src/components/display/LegendaryDisplay.tsx:148-153 | no panel exactly when no non-display player is online; otherwise the first min(5, n) non-display players in presence order |
| AttendeeRoster.Matching | src/components/display/AttendeeRosterDisplay.tsx:26-28 | true exactly when a non-display player is online under the guest's display name |
| AttendeeRoster.GuestStateOf | src/components/display/AttendeeRosterDisplay.tsx:22-32 | online when matched; otherwise confirmed exactly for the status "confirmed", and invited for every other status |
| AttendeeRoster.Rank | src/components/display/AttendeeRosterDisplay.tsx:67-71 | 0 exactly for online, 2 exactly for invited, 1 for confirmed |
| AttendeeRoster.Sorted | src/components/display/AttendeeRosterDisplay.tsx:66-76 | the cards are a permutation of the guests in non-decreasing state rank |
| AttendeeRoster.OnlineFirst | src/components/display/AttendeeRosterDisplay.tsx:65-76 | every online guest is listed before every guest who is not |
| AttendeeRoster.Halves | src/components/display/AttendeeRosterDisplay.tsx:96-127 | the cards before and after the QR code join back into the list, the first half taking the odd card |
| AttendeeRoster.Counter | src/components/display/AttendeeRosterDisplay.tsx:148 | the counter shows exactly the number of non-display players over the number of guests; its first number is non-zero exactly when a non-display player is online |
| AttendeeRoster.OnlineGuestCounted | src/components/display/AttendeeRosterDisplay.tsx:26-63 | a guest shown as online implies a non-zero online counter |
| SocialWall.ShuffleArray | src/components/display/SocialWallSlide.tsx:15-22 | the shuffle returns a fresh array that is a permutation of the input, which is left untouched |
| SocialWall.TimeAgo | src/components/display/SocialWallSlide.tsx:24-30 | below one minute "prave ted"; otherwise "pred " and a number ending in "m" below an hour and in "h" from then on |
| SocialWall.TimeAgoReadsBack | src/components/display/SocialWallSlide.tsx:26-29 | the number shown reads back as the whole minutes below an hour and as the whole hours from then on |
| SocialWall.LastMessages | src/components/display/SocialWallSlide.tsx:54 | the last four messages (or all, when fewer), newest first |
| SocialWall.Reversed | src/components/display/SocialWallSlide.tsx:54 | the sequence read backwards |
| SocialWall.PhotoGrid.constructor | src/components/display/SocialWallSlide.tsx:38 | the grid starts empty |
| SocialWall.PhotoGrid.PhotosChanged | src/components/display/SocialWallSlide.tsx:41-52 | an empty photo list keeps the old grid; otherwise min(3, n) photos drawn from the list; a periodic reshuffle is scheduled exactly for more than nine photos |
| SocialWall.PhotoGrid.Reshuffle | src/components/display/SocialWallSlide.tsx:43-48 | min(3, n) photos of a shuffled copy, each drawn from the list no more often than it occurs there |
| SocialWall.ScoreBadge | src/components/display/SocialWallSlide.tsx:92-97 | the badge appears exactly for a positive score, showing that score |
| Dashboard.GetBadge | src/components/dashboard/DashboardTabs.tsx:21-25 | guests on "hoste" and blocks on "program", each only when positive; never a badge on "priprava" |
| Dashboard.NoBadgeForZero | src/components/dashboard/DashboardTabs.tsx:22-24 | a zero count gives no badge on any tab |
| Dashboard.AttendeeEventIds | src/app/dashboard/page.tsx:16-21 | no rows when no event is listed; every row's event id is a listed event |
| Dashboard.QueryCountsEachEvent | src/app/dashboard/page.tsx:17-21 | for each listed event the query returns exactly one row per attendee of that event |
| Dashboard.CountByEvent | src/app/dashboard/page.tsx:23-26 | the loop builds a record with distinct keys counting each event id's rows |
| Dashboard.CountBounds | src/app/dashboard/page.tsx:23-26 | the count of an event is at most the number of rows, zero exactly when no row names it, and all of them exactly when every row does |
| Dashboard.EventCardCounts | src/app/dashboard/page.tsx:16-26 | each listed event's card shows exactly its number of attendees; when the attendee read fails (no data) every card shows 0 |
| Social.CheckMessage | src/app/actions/social.ts:17-20 | accepted exactly when the trimmed text has 1 to 280 characters, and then it is the trimmed text; otherwise "Zprava musi mit 1-280 znaku" |
| Social.StoredMessageIsTrimmed | src/app/actions/social.ts:17-36 | the stored text is already trimmed: trimming it again changes nothing |
| Social.UsersAttendee | src/app/actions/social.ts:23-29 | an attendee row with both the id and the signed-in user, or none exactly when no row has both |
| Social.SendMessage | src/app/actions/social.ts:6-43 | "Neautorizovany pristup", the length error and "Neplatny ucastnik" in that order, then the insert's error, all with no write; success exactly when all pass, storing one message with the attendee's display name and the trimmed text |
| Social.CheckPhoto | src/app/actions/social.ts:56-66 | "Zadny soubor", the format error and the size error in that order; a file passes exactly when its type is one of the four allowed and it has at most 5 MB |
| Social.AfterLastDot | src/app/actions/social.ts:77 | the text after the last dot, a suffix of the name with no dot, preceded by a dot when shorter than the name |
| Social.Extension | src/app/actions/social.ts:77 | never empty and never with a dot; the text after the last dot when that is non-empty |
| Social.ExtensionCases | src/app/actions/social.ts:77 | a name without a dot is its own extension; a name ending in a dot gets "jpg" |
| Social.StoragePathReadsBack | src/app/actions/social.ts:78 | the path starts with the event and attendee folders, and its file name reads back as the timestamp, a dot and the extension |
| Social.UploadPhoto | src/app/actions/social.ts:45-103 | the sign-in, file and attendee checks in order, then the upload's error and the row insert's error, all with no row written; success exactly when all pass, storing one photo at the storage path with the attendee's display name |
| Achievements.Award | src/app/actions/achievements.ts:6-40 | the owner guard with no write; the insert's error with no write; success exactly when neither, appending one row with the given type, title, points and time, metadata defaulting to empty |
| Achievements.EventRows | src/app/actions/achievements.ts:49 | membership: a row is listed exactly when it is stored and belongs to the event, and no more rows than stored (multiplicity: EventRowsAppend, EventRowsOne, EventRowsCount) |
| Achievements.EventRowsAppend | src/app/actions/achievements.ts:46-49 | the filter distributes over concatenation, so each row of the event is listed as often as it is stored, in table order |
| Achievements.EventRowsOne | src/app/actions/achievements.ts:49 | a single row is kept exactly when it belongs to the event |
| Achievements.EventRowsCount | src/app/actions/achievements.ts:46-54 | each row is listed as many times as it is stored when it belongs to the event, and never otherwise |
| Achievements.ListAchievements | src/app/actions/achievements.ts:42-57 | "Neautorizovany pristup" without a user (no ownership check), then the query's error; otherwise a permutation of the event's rows, oldest first, and the sum of their points |
| Achievements.SumRowPointsPermutation | src/app/actions/achievements.ts:54 | the sum of points does not depend on the order of the rows |
| Achievements.SumRowPointsRemove | src/app/actions/achievements.ts:54 | taking one row out lowers the sum by that row's points |
| Achievements.TotalScoreOfEvent | src/app/actions/achievements.ts:47-56 | the listed total is the points of the event's rows in table order, and 0 for an event without achievements |
| Attendees.InsertErrorText | src/app/actions/attendees.ts:33-36 | a unique violation ("23505") reads "Tento email uz je pozvan"; any other error its own message |
| Attendees.Invite | src/app/actions/attendees.ts:7-40 | sign-in, both trimmed fields non-empty, ownership and the insert's error, in that order, with no write on failure; success appends one invited guest with the trimmed email and name |
| Attendees.WithoutGuest | src/app/actions/attendees.ts:47-50 | the delete keeps exactly the rows not matching both the guest id and the event |
| Attendees.WithoutGuestKeepsOtherEvents | src/app/actions/attendees.ts:47-50 | the delete leaves every other event's guest list unchanged, in order |
| Attendees.Remove | src/app/actions/attendees.ts:42-56 | refused without a user, with no ownership check, then the delete's error, both with no write; success exactly when neither, deleting the matching row |
| Attendees.AcceptInvite | src/app/actions/attendees.ts:58-68 | "Musis byt prihlasen" without a user; otherwise exactly what the invitation procedure answers |
| Events.LowerAscii | src/app/actions/events.ts:10 | same length; each ASCII capital becomes its small letter, every other character is kept, and no capital remains |
| Events.CollapseRuns | src/app/actions/events.ts:13 | only `[a-z0-9]` and hyphens, never two hyphens in a row; a leading separator run becomes one hyphen and the result is empty exactly for empty input |
| Events.TrimHyphens | src/app/actions/events.ts:14 | at most one hyphen off each end: the result is the input minus a leading hyphen if any and then a trailing hyphen if any; on text with no double hyphen it neither starts nor ends with one; text without edge hyphens is kept |
| Events.Slugify | src/app/actions/events.ts:8-16 | at most 60 characters of `[a-z0-9-]`, no double hyphen, and no leading hyphen |
| Events.SlugShapeKept | src/app/actions/events.ts:14 | stripping the edge hyphens keeps the alphabet and the single hyphens, and leaves no leading hyphen |
| Events.SlugFixedPoint | src/app/actions/events.ts:8-16 | a text already in slug form, at most 60 characters, is its own slug |
| Events.CollapseKeepsSlug | src/app/actions/events.ts:13 | collapsing runs changes nothing in a text already made of `[a-z0-9]` and single hyphens |
| Events.CutCanEndInHyphen | src/app/actions/events.ts:14-15 | the cut to 60 characters comes after the hyphen trimming, so 59 letters, a space and a letter give a slug ending in a hyphen |
| Events.CollapsePrefix | src/app/actions/events.ts:13 | a prefix of `[a-z0-9]` passes through the collapsing unchanged |
| Events.Base36 | src/app/actions/events.ts:29 | `toString(36)` of a whole number: non-empty, digits and small letters only |
| Events.Base36RoundTrip | src/app/actions/events.ts:29 | the base-36 text reads back as the number |
| Events.EventSlug | src/app/actions/events.ts:29 | the title's slug, a hyphen, then a base-36 text that reads back as the creation time |
| Events.TrimmedOrNull | src/app/actions/events.ts:24 | null exactly for an absent or blank text, otherwise the trimmed text |
| Events.EmptyAsNull | src/app/actions/events.ts:25 | null exactly for an absent or empty text, otherwise the text untrimmed |
| Events.CreateEvent | src/app/actions/events.ts:18-45 | "Neautorizovany pristup", then "Nazev je povinny" for a blank title, then the insert's error, all with no write; otherwise one inactive event owned by the user with the trimmed title, the description trimmed or null, the date or null and the slug, and the dashboard path of its id |
| Events.UpdateEvent | src/app/actions/events.ts:47-68 | the same two refusals, then the update's error, all with no write; otherwise exactly the rows with this id and this creator take the new title, description and date, and no row is added or removed |
| Events.WithoutOwned | src/app/actions/events.ts:75-78 | the delete keeps exactly the rows not matching both the id and the creator |
| Events.DeleteEvent | src/app/actions/events.ts:70-83 | refused without a user, then the delete's error, both with no write; otherwise the user's event with the id is deleted, other users' events all stay, and the answer is the redirect to the dashboard |
| Nicknames.ToInt32 | src/lib/nicknames.ts:53 | the bitwise or with 0: the value wrapped into the signed 32-bit range, congruent to the input modulo 2^32 |
| Nicknames.CodeUnits | src/lib/nicknames.ts:52-53 | `charCodeAt` walks UTF-16 code units, each below 2^16, at least one per character |
| Nicknames.Fold | src/lib/nicknames.ts:51-54 | the hash before `Math.abs` stays a signed 32-bit value |
| Nicknames.Abs | src/lib/nicknames.ts:55 | `Math.abs`: the value or its negation, never negative |
| Nicknames.HashString | src/lib/nicknames.ts:50-56 | the loop computes the fold over the code units, and its absolute value, at most 2^31 |
| Nicknames.FirstToken | src/lib/nicknames.ts:67 | the longest prefix without white space, ended by white space or the end of the text |
| Nicknames.AdjectiveIndex | src/lib/nicknames.ts:68 | an index into the 40 adjectives congruent to the hash |
| Nicknames.Nickname | src/lib/nicknames.ts:63-70 | "Tajemny Host" exactly for a blank name; otherwise one of the adjectives, a space and the first word of the trimmed name |
| Nicknames.FirstNameNotEmpty | src/lib/nicknames.ts:64-67 | the first word of a non-blank trimmed name is never empty |
| Nicknames.SameTrimmedSameNickname | src/lib/nicknames.ts:63-70 | names that agree after trimming get the same nickname |
| Nicknames.AdjectivesShape | src/lib/nicknames.ts:3-44 | forty adjectives, none empty |
| Common.TrimStart | src/components/dashboard/TimelineTab.tsx:133 | the result is a suffix of the input, everything cut off is JavaScript white space, and it does not start with white space |
| Common.TrimEnd | src/components/dashboard/TimelineTab.tsx:133 | the result is a prefix of the input, everything cut off is JavaScript white space, and it does not end with white space |
| Common.Trim | src/components/dashboard/TimelineTab.tsx:136 | `trim()`: the contiguous middle of the input left after removing leading and trailing white space, with no white space at either end |
| Common.BlankIffAllSpace | src/components/dashboard/TimelineTab.tsx:133 | the `!s.trim()` test is true exactly when every character is white space |
| Common.TrimIdempotent | src/components/games/two-truths/StatementCollection.tsx:44 | trimming twice is trimming once |
| Common.DigitChar | src/components/games/two-truths/LieResults.tsx:29 | the character of a decimal digit is an ASCII digit with that value |
| Common.NatToString | src/components/games/two-truths/LieResults.tsx:29 | `String(i)` of a natural number: one or more ASCII digits, two or more exactly from 10 upwards |
| Common.LeadingDigitCount | src/components/dashboard/TimelineTab.tsx:143 | the length of the run of digits `parseInt` reads: digits up to it and a non-digit (or the end) after it |
| Common.ParseIntReads | src/components/dashboard/TimelineTab.tsx:143 | a number is read exactly when, after leading white space and an optional sign, a digit follows; it is negative only after a minus sign |
| Common.ParseIntStopsAtNonDigit | src/components/dashboard/TimelineTab.tsx:143 | reading stops at the first non-digit: digits followed by anything else read as their value |
| Common.ParseIntSignedStopsAtNonDigit | src/components/dashboard/TimelineTab.tsx:143 | the same after a sign: a minus negates the value and a plus keeps it |
| Common.DigitsValueOfNatString | src/components/games/two-truths/LieResults.tsx:29 | the decimal rendering of n has the value n |
| Common.ParseIntOfNatString | src/components/dashboard/TimelineTab.tsx:143 | `parseInt(String(n), 10)` gives back n |
| Common.NatToStringInjective | src/components/games/two-truths/LieResults.tsx:29 | different statement indexes are different vote keys |
| Common.InsertByKey | src/components/display/AttendeeRosterDisplay.tsx:66 | inserting adds exactly the element and keeps a key-sorted list sorted |
| Common.SortedCons | src/components/display/AttendeeRosterDisplay.tsx:66 | an element whose key is at most every key of a sorted list can be put in front of it |
| Common.SortByKey | src/components/display/AttendeeRosterDisplay.tsx:66 | `sort` with a key comparator: a permutation of the input, ordered by the key |
| Common.Shuffle | src/components/games/who-am-i/ModeratorControls.tsx:76 | `sort(() => Math.random() - 0.5)`: some permutation of the input |
| Common.ChooseSome | src/components/games/who-am-i/ModeratorControls.tsx:68-71 | shuffling then `slice(0, k)`: k elements of the input, or all of them when there are fewer, each drawn from the input |
| Common.Take | src/components/display/LegendaryDisplay.tsx:152 | `slice(0, n)`: the first n elements, or the whole list when shorter |
| Common.Get | src/components/games/two-truths/LieResults.tsx:29 | `r[k]` is absent exactly when no entry has key k, and otherwise is the value of an entry with key k |
| Common.Put | src/hooks/useEventChannel.ts:115-118 | `{ ...r, [k]: v }`: k now maps to v, every other key is unchanged, an existing key keeps its place and a new one is appended |
| Common.PutKeepsKeysDistinct | src/hooks/useEventChannel.ts:115-118 | writing a key keeps the record's keys distinct |
| Common.SumAfterPut | src/hooks/useEventChannel.ts:115-118 | writing v at k changes the total of the values by v minus the old value at k |
| Common.ValueAtMostSum | src/components/games/who-am-i/ResultsScreen.tsx:13 | with no negative count, every single count is between 0 and the total |
| Common.TotalVotes | src/components/games/who-am-i/ResultsScreen.tsx:13 | the sum of the tally, read as 1 when it is 0, so never zero |
| Common.Percent | src/components/games/who-am-i/ResultsScreen.tsx:38 | `Math.round(count / total * 100)` for a positive total: the integer nearest to 100·count/total, halves rounded up |
| Common.PercentBounds | src/components/games/who-am-i/ResultsScreen.tsx:38 | a count between 0 and the total gives a share between 0 and 100 |
| Common.ShareInRange | src/components/games/who-am-i/ResultsScreen.tsx:13-38 | for a tally with no negative count, every option's shown share lies between 0 and 100 |
| LiveLookup.FirstActiveWithCode | src/app/live/actions.ts:14-19 | `events?.[0]` of the query: an active event with the code, the earliest such in table order, and absent exactly when there is none |
| LiveLookup.Lookup | src/app/live/actions.ts:7-26 | "Neplatny kod" for anything but six ASCII digits, before any lookup; "Kod nenalezen" when the query fails (no row) or no active event has the code; otherwise the redirect to `/event/<slug>/live` of the first match, and success exactly when the query succeeds and such an event exists |
| LiveLookup.OnlyActiveMatchesCount | src/app/live/actions.ts:14-17 | an inactive event, or one with another code, added before or after the others never changes the outcome |
| LiveLookup.FirstIgnoresNonMatching | src/app/live/actions.ts:16-19 | a non-matching event appended at the end never changes which event is found |
| LiveCodeEntry.LastChar | src/app/live/LiveCodeEntry.tsx:24 | `value.slice(-1)`: at most one character, empty only for empty input, and otherwise the last character |
| LiveCodeEntry.Join | src/app/live/LiveCodeEntry.tsx:37 | `join("")` of one-character boxes has one character per box |
| LiveCodeEntry.JoinOfDigitCells | src/app/live/LiveCodeEntry.tsx:36-37 | filled digit boxes join into a string whose k-th character is the k-th box's digit |
| LiveCodeEntry.DigitsOnly | src/app/live/LiveCodeEntry.tsx:51 | `replace(/[^0-9]/g, "")`: only ASCII digits, no longer than the input, empty exactly when the input has no digit |
| LiveCodeEntry.DigitsOnlyConcat | src/app/live/LiveCodeEntry.tsx:51 | stripping a concatenation is concatenating the stripped parts |
| LiveCodeEntry.DigitsOnlyKeepsDigits | src/app/live/LiveCodeEntry.tsx:51 | a string of digits passes unchanged |
| LiveCodeEntry.PastedDigits | src/app/live/LiveCodeEntry.tsx:49-52 | at most six digits, a prefix of the clipboard's digits, and all of them when there are six or fewer |
| LiveCodeEntry.PastedCells | src/app/live/LiveCodeEntry.tsx:55-58 | the pasted boxes are always six |
| LiveCodeEntry.PastedCellsReadBack | src/app/live/LiveCodeEntry.tsx:55-63 | six pasted digits fill every box and the boxes join back into the pasted code |
| LiveCodeEntry.Entry.constructor | src/app/live/LiveCodeEntry.tsx:9-10 | six empty boxes, no message, focus on the first box |
| LiveCodeEntry.Entry.HandleChange | src/app/live/LiveCodeEntry.tsx:23-39 | a non-digit changes nothing; otherwise the box takes the last character, the message is cleared, a digit moves the focus to the next box, and the joined code is submitted exactly when a digit lands in the last box with every box filled, that code then being six digits |
| LiveCodeEntry.Entry.HandleKeyDown | src/app/live/LiveCodeEntry.tsx:41-45 | Backspace in an empty box other than the first moves the focus back one box; nothing else changes it |
| LiveCodeEntry.Entry.HandlePaste | src/app/live/LiveCodeEntry.tsx:47-67 | text without digits changes nothing; otherwise the boxes hold the first six digits from the left, the message is cleared, and the code is submitted exactly when six digits were pasted, the focus then staying where it was and otherwise going to the first empty box |
| LiveCodeEntry.Entry.Submit | src/app/live/LiveCodeEntry.tsx:69-77 | a refusal becomes the message under the boxes; a found event gives the redirect target and leaves the message alone |
| LiveCodeEntry.SubmittedCodeOnlyMissesEvents | src/app/live/actions.ts:8-10 | a code the boxes submit is never refused as malformed |
| Middleware.SegmentLength | src/lib/supabase/middleware.ts:5 | the `[^/]+` run: characters up to it are not slashes and the one after it, if any, is |
| Middleware.ModeratorPathSplit | src/lib/supabase/middleware.ts:5 | every path the moderator pattern matches is "/event/", a non-empty slash-free segment, "/moderator" and anything |
| Middleware.ModeratorPathOf | src/lib/supabase/middleware.ts:5 | every such path is matched by the pattern |
| Middleware.SegmentOfJoin | src/lib/supabase/middleware.ts:5 | the segment run stops at the first slash after a slash-free segment |
| Middleware.NoBoundaryChecks | src/lib/supabase/middleware.ts:4-5 | "/dashboardX" and "/event/a/moderatorX" are protected, since neither test checks a segment boundary |
| Middleware.NestedModeratorPathIsOpen | src/lib/supabase/middleware.ts:5 | "/event/a/b/moderator" is not protected |
| Middleware.Decide | src/lib/supabase/middleware.ts:37-55 | redirect to "/login" with the original path as `next` exactly for a signed-out visitor to a protected path; redirect to "/dashboard" exactly for a signed-in user on "/login" or "/signup"; otherwise pass through |
| Middleware.RedirectsSettle | src/lib/supabase/middleware.ts:41-53 | the page a redirect leads to is let through for the same visitor, so redirects never loop |

## Left out

- The database, Supabase authentication, Next.js routing and React rendering are not modelled as such. Tables are sequences in one `Db.Database` object. The signed-in user is an optional parameter. A generated id (uuid) is a fresh-id parameter. A query or write error that the code checks and returns is an optional error parameter of the operation (`insertError`, `updateError`, `deleteError`, `queryError`, `activateError`, `uploadError`, one error per update of the bulk reorder, `loadFailed` for the reorder's read, `readFailed` for the reads of active blocks and of all blocks in src/app/actions/program.ts:63-67 and :106-111 and for the dashboard's attendee counts in src/app/dashboard/page.tsx:16-26, all checked through their data rather than their error, and `queryFailed` for the moderator controls' polls of submitted facts and statements, the player's program read and the live-code lookup, where a failed read keeps the old list or reads as no row); a failed write writes nothing.
- Reads and writes whose result the code does not check are modelled as succeeding: the completion updates of src/app/actions/program.ts:70-76 and :119-121, the two swap updates of src/app/actions/timeline.ts:107-113, the games-library read and the delete before a template insert (src/app/actions/timeline.ts:190-202), the next-sort-order reads (src/app/actions/program.ts:29-35, src/app/actions/timeline.ts:30-36), and the player's fire-and-forget vote insert (src/components/event/PlayerView.tsx:60-71), which `PlayerView.Player.HandleVote` always applies. A failure of one of those is not modelled.
- Clocks (`Date.now`, `new Date().toISOString()`) are an integer `now` parameter. Timers (the projector rotation, the shake animation, the photo reshuffle interval) are left out; only what one tick does is modelled.
- Randomness (`Math.random` shuffles and picks) is a nondeterministic choice. The model states only that the result is a permutation, or a choice of elements of the input.
- Concurrency is not modelled. Awaited calls run one after another, and each `Promise.all` batch is a sequential loop. A race between two clients, or between an optimistic update and a broadcast, is not captured.
- Floating point is not modelled. `Math.round` shares are computed exactly by `Common.Percent`. The legendary progress bar's fractional width (src/components/display/LegendaryDisplay.tsx) is not modelled.
- Focus, shake and animation effects of the pages are only partly modelled. The code entry keeps a focused-box index; every other visual effect is left out.
- The middleware's cookie refresh, response object and login query string are left out. `Middleware.Decide` returns the decision and the `next` path.
- Events.Slugify: lower-cases ASCII letters only and does no Unicode decomposition. In the model an accented letter is a separator, while the source first strips the accent ("č" becomes "c"). Strings are otherwise plain sequences of characters.
- Social.CheckMessage: counts characters, while JavaScript's `length` counts UTF-16 code units. A text with characters outside the Basic Multilingual Plane can therefore be accepted here and refused by the source.
- Social.UsersAttendee: `.single()` reports an error when more than one row matches. The model returns the first matching row instead.
- Social.SendMessage: like the source, it does not check that the attendee belongs to the event the message is posted to. The model keeps this gap.
- GameRegistry.HasGameModule: JavaScript's `in` also finds inherited keys such as "toString". The model looks only at the registry's own slugs.
- GameRegistry.LoadGameModule: the lookup `GAME_MODULES[slug]` also finds inherited keys, so for a slug such as "constructor" the source calls `Object` and returns a non-null object. The model returns nothing for every slug that is not one of the registry's own keys.
- TimelineTab.Editor.BeginReorder: requires the block to be in the list. For a missing id, the source computes the index -1 and writes to index -1 of the copy; that case is not modelled.
- SocialWall.TimeAgo: its contract gives the shape of the text. The number in it is stated separately by `SocialWall.TimeAgoReadsBack`.
- SocialWall.PhotoGrid.PhotosChanged: as in the source, an empty photo list keeps the previous grid.
- Common.SortByKey: states a sorted permutation, not the stability of JavaScript's `sort`. Ties are kept in table order, and no property depends on it.
- LiveLookup.FirstActiveWithCode: the query has no `order by`, so the database may return matches in any order. The model takes table order.
- Database column defaults (a new guest is invited, a new event is inactive with no live code) are written out explicitly by the operations.
- The dashboard's template application reloads the page (src/components/dashboard/TimelineTab.tsx); the reload is left out.
- EventChannel.Dispatch: requires the command's payload to have the shape its action expects (`WellFormed`). The source stores whatever the payload carries, so a malformed payload (a missing field read as `undefined`) is not modelled.
- TwoTruthsViews.LieVoting, LieResults and VotingPanel take the round data as a parameter. As written nothing ever stores that data (`setGameRoundData` does not exist, see Findings), so on a real client those screens render nothing; the model shows what they would render once the data is there.
- The broadcast dispatcher routes only its eight commands. Other `game_command` actions ("game_round", "game_results") change nothing in the store. This is modelled as written.
- `setSocialMessages` and `setSocialPhotos` are called by src/components/event/DisplayView.tsx but do not exist in the game store, so those effects throw whenever there are initial messages or photos. The social wall's messages and photos are therefore not kept in the store model.
- `playerMentions` in src/components/display/LegendaryDisplay.tsx is computed but never used. It is left out.
- Record keys: JavaScript lists integer-like keys of an object in ascending order, ahead of the others. The model keeps insertion order; no modelled property depends on the order.
- A `formData` field that is missing (and so `null`, whose `trim` throws) is not modelled. Form fields are strings.

## Findings

| source | as written | input that shows it | evidently intended | confidence | as-written member | corrected member |
|---|---|---|---|---|---|---|
| src/components/games/two-truths/ModeratorControls.tsx:99 | `showRound` (and `showResults` at line 122) call `setGameRoundData`, which the game store does not define; the call throws after the broadcast, so the moderator's own store never moves to voting or results | any `showRound` from the collecting phase: the broadcast goes out, but the moderator's phase stays "collecting" | the round data is kept, voting opens with an empty tally, and the results phase shows the revealed lie | not executed | TwoTruthsModerator.Controls.ShowRoundAsWritten, TwoTruthsModerator.Controls.StartPlayingAsWritten, TwoTruthsModerator.Controls.NextRoundAsWritten, TwoTruthsModerator.Controls.ShowResultsAsWritten, TwoTruthsModerator.AsWrittenNeverOpensVoting | TwoTruthsModerator.Controls.ShowRound, TwoTruthsModerator.Controls.StartPlaying, TwoTruthsModerator.Controls.NextRound |

=== FILE: achievements.dfy ===
/** Event achievements on the server (`src/app/actions/achievements.ts`): the organiser awards
    one, and anyone signed in lists an event's achievements with their total score. */
module Achievements {
  import opened Common
  import opened Db

  /** awardAchievementAction: the owner guard, then one inserted row whose metadata defaults to
      an empty object. `insertError` is the error the insert reports, if any; a failed insert
      stores nothing. */
  method Award(db: Database, user: Option<string>, eventId: string, achievementType: string,
               title: string, points: int, metadata: Option<Metadata>, newId: string, now: int,
               insertError: Option<string>)
    returns (r: Outcome<AchievementRow>)
    modifies db`achievements
    ensures OwnerCheck(db.events, user, eventId).Some? ==>
      r == Err(OwnerCheck(db.events, user, eventId).value) && db.achievements == old(db.achievements)
    ensures OwnerCheck(db.events, user, eventId).None? && insertError.Some? ==>
      r == Err(insertError.value) && db.achievements == old(db.achievements)
    ensures r.Ok? <==> OwnerCheck(db.events, user, eventId).None? && insertError.None?
    ensures r.Ok? ==> r.value.eventId == eventId && r.value.achievementType == achievementType
    ensures r.Ok? ==> r.value.title == title && r.value.points == points && r.value.awardedAt == now
    ensures r.Ok? ==> r.value.metadata == (if metadata.Some? then metadata.value else [])
    ensures r.Ok? ==> db.achievements == old(db.achievements) + [r.value]
  {
    var guard := OwnerCheck(db.events, user, eventId);
    if guard.Some? {
      return Err(guard.value);
    }
    if insertError.Some? {
      return Err(insertError.value);
    }
    var row := AchievementRow(newId, eventId, achievementType, title, points,
                              if metadata.Some? then metadata.value else [], now);
    db.achievements := db.achievements + [row];
    r := Ok(row);
  }

  function SumRowPoints(rows: seq<AchievementRow>): int {
    if rows == [] then 0 else SumRowPoints(rows[..|rows| - 1]) + rows[|rows| - 1].points
  }

  /** The achievements of one event, in table order. */
  function EventRows(rows: seq<AchievementRow>, e: string): (r: seq<AchievementRow>)
    ensures forall a :: a in r <==> a in rows && a.eventId == e
    ensures |r| <= |rows|
  {
    if rows == [] then []
    else
      var last := rows[|rows| - 1];
      EventRows(rows[..|rows| - 1], e) + (if last.eventId == e then [last] else [])
  }

  /** The filter distributes over concatenation, so every kept row is kept as often as it
      occurs, in order. */
  lemma {:induction false} EventRowsAppend(a: seq<AchievementRow>, b: seq<AchievementRow>, e: string)
    ensures EventRows(a + b, e) == EventRows(a, e) + EventRows(b, e)
    decreases |b|
  {
    if b == [] {
      assert a + b == a;
    } else {
      var last := b[|b| - 1];
      var tail := if last.eventId == e then [last] else [];
      assert (a + b)[..|a + b| - 1] == a + b[..|b| - 1] && (a + b)[|a + b| - 1] == last;
      assert EventRows(a + b, e) == EventRows(a + b[..|b| - 1], e) + tail;
      EventRowsAppend(a, b[..|b| - 1], e);
    }
  }

  /** A single row is kept exactly when it belongs to the event. */
  lemma EventRowsOne(x: AchievementRow, e: string)
    ensures EventRows([x], e) == if x.eventId == e then [x] else []
  {
    assert [x][..0] == [];
  }

  /** How many times a row is listed for the event is how many times it is stored, when it
      belongs to the event, and zero otherwise. */
  lemma {:induction false} EventRowsCount(rows: seq<AchievementRow>, e: string, x: AchievementRow)
    ensures multiset(EventRows(rows, e))[x] == if x.eventId == e then multiset(rows)[x] else 0
    decreases |rows|
  {
    if rows != [] {
      EventRowsCount(rows[..|rows| - 1], e, x);
      assert rows == rows[..|rows| - 1] + [rows[|rows| - 1]];
    }
  }

  datatype Listing = Listing(achievements: seq<AchievementRow>, totalScore: int)

  function AwardedAtKey(a: AchievementRow): int { a.awardedAt }

  /** getEventAchievementsAction: any signed-in user (no ownership check) gets the event's
      achievements, oldest first, and the sum of their points. `queryError` is the error the
      query reports, if any. */
  function ListAchievements(rows: seq<AchievementRow>, user: Option<string>, eventId: string,
                            queryError: Option<string>): (r: Outcome<Listing>)
    ensures r.Err? <==> user.None? || queryError.Some?
    ensures user.None? ==> r == Err(Unauthorized)
    ensures user.Some? && queryError.Some? ==> r == Err(queryError.value)
    ensures r.Ok? ==> multiset(r.value.achievements) == multiset(EventRows(rows, eventId))
    ensures r.Ok? ==> forall i, j :: 0 <= i < j < |r.value.achievements| ==>
      r.value.achievements[i].awardedAt <= r.value.achievements[j].awardedAt
    ensures r.Ok? ==> r.value.totalScore == SumRowPoints(r.value.achievements)
  {
    if user.None? then Err(Unauthorized)
    else if queryError.Some? then Err(queryError.value)
    else
      var listed := SortByKey(EventRows(rows, eventId), AwardedAtKey);
      assert forall i, j :: 0 <= i < j < |listed| ==> AwardedAtKey(listed[i]) <= AwardedAtKey(listed[j]);
      Ok(Listing(listed, SumRowPoints(listed)))
  }

  /** The total is the sum over the event's rows whatever order they are listed in: it does not
      depend on the sort. */
  lemma {:induction false} SumRowPointsPermutation(a: seq<AchievementRow>, b: seq<AchievementRow>)
    requires multiset(a) == multiset(b)
    ensures SumRowPoints(a) == SumRowPoints(b)
    decreases |a|
  {
    if a != [] {
      var a' := a[..|a| - 1];
      var x := a[|a| - 1];
      assert a == a' + [x];
      assert x in multiset(b) by { assert x in multiset(a); }
      var k :| 0 <= k < |b| && b[k] == x;
      MultisetWithout(b, k);
      assert multiset(a') == multiset(b[..k] + b[k + 1..]);
      SumRowPointsPermutation(a', b[..k] + b[k + 1..]);
      SumRowPointsRemove(b, k);
    }
  }

  /** Taking out the element at `k` takes one occurrence of it out of the multiset. */
  lemma MultisetWithout<T>(b: seq<T>, k: int)
    requires 0 <= k < |b|
    ensures multiset(b[..k] + b[k + 1..]) == multiset(b) - multiset{b[k]}
  {
    assert b == b[..k] + [b[k]] + b[k + 1..];
  }

  /** Taking row `k` out of a list lowers its sum by that row's points. */
  lemma {:induction false} SumRowPointsRemove(b: seq<AchievementRow>, k: int)
    requires 0 <= k < |b|
    ensures SumRowPoints(b) == SumRowPoints(b[..k] + b[k + 1..]) + b[k].points
    decreases |b|
  {
    if k < |b| - 1 {
      var c := b[..|b| - 1];
      SumRowPointsRemove(c, k);
      assert c[..k] + c[k + 1..] == (b[..k] + b[k + 1..])[..|b| - 2];
    } else {
      assert b[..k] + b[k + 1..] == b[..|b| - 1];
    }
  }

  /** The listed total equals the points of the event's achievements, and is 0 when it has
      none. */
  lemma TotalScoreOfEvent(rows: seq<AchievementRow>, user: string, eventId: string)
    ensures ListAchievements(rows, Some(user), eventId, None).value.totalScore == SumRowPoints(EventRows(rows, eventId))
    ensures EventRows(rows, eventId) == [] ==> ListAchievements(rows, Some(user), eventId, None).value.totalScore == 0
  {
    var r := ListAchievements(rows, Some(user), eventId, None);
    SumRowPointsPermutation(r.value.achievements, EventRows(rows, eventId));
  }
}

=== FILE: attendee_roster.dfy ===
/** The "who is coming" projector screen (`src/components/display/AttendeeRosterDisplay.tsx`):
    each invited guest's state, the state-ordered card list split around the QR code, and the
    online counter. */
module AttendeeRoster {
  import opened Common
  import opened GameStore
  import opened DisplayView

  /** The roster row the screen receives; `status` is the raw column text. */
  datatype Guest = Guest(id: string, displayName: string, status: string, userId: Option<string>)

  datatype GuestState = Online | Confirmed | Invited

  /** Some non-display player is present under the guest's display name. */
  predicate IsOnline(g: Guest, players: seq<OnlinePlayer>) {
    exists p :: p in players && p.isDisplay != Some(true) && p.displayName == g.displayName
  }

  function Matching(g: Guest, players: seq<OnlinePlayer>): (b: bool)
    ensures b <==> IsOnline(g, players)
  {
    if players == [] then false
    else
      var p := players[0];
      assert players == [p] + players[1..];
      (p.isDisplay != Some(true) && p.displayName == g.displayName) || Matching(g, players[1..])
  }

  function GuestStateOf(g: Guest, players: seq<OnlinePlayer>): (st: GuestState)
    ensures st == Online <==> IsOnline(g, players)
    ensures st == Confirmed <==> !IsOnline(g, players) && g.status == "confirmed"
    ensures st == Invited <==> !IsOnline(g, players) && g.status != "confirmed"
  {
    if Matching(g, players) then Online
    else if g.status == "confirmed" then Confirmed
    else Invited
  }

  /** The badge text of each state. */
  function Badge(st: GuestState): string {
    match st
    case Online => "ONLINE"
    case Confirmed => "CEKA"
    case Invited => "POZVAN"
  }

  function Rank(st: GuestState): (n: int)
    ensures 0 <= n <= 2
    ensures st == Online <==> n == 0
    ensures st == Invited <==> n == 2
  {
    match st
    case Online => 0
    case Confirmed => 1
    case Invited => 2
  }

  /** The cards in display order: a stable sort of the guests by state rank. */
  function Sorted(guests: seq<Guest>, players: seq<OnlinePlayer>): (r: seq<Guest>)
    ensures |r| == |guests| && multiset(r) == multiset(guests)
    ensures forall i, j :: 0 <= i < j < |r| ==>
      Rank(GuestStateOf(r[i], players)) <= Rank(GuestStateOf(r[j], players))
  {
    var key := (g: Guest) => Rank(GuestStateOf(g, players));
    var r := SortByKey(guests, key);
    assert forall i, j :: 0 <= i < j < |r| ==> key(r[i]) <= key(r[j]);
    r
  }

  /** Every online guest is listed before every guest who is not. */
  lemma OnlineFirst(guests: seq<Guest>, players: seq<OnlinePlayer>, i: int, j: int)
    requires 0 <= i < |guests| && 0 <= j < |guests|
    requires GuestStateOf(Sorted(guests, players)[j], players) == Online
    requires GuestStateOf(Sorted(guests, players)[i], players) != Online
    ensures j < i
  {
  }

  /** The cards before the QR code (`ceil(n/2)` of them) and after it. */
  function Halves(sorted: seq<Guest>): (h: (seq<Guest>, seq<Guest>))
    ensures h.0 + h.1 == sorted
    ensures |h.0| == |h.1| || |h.0| == |h.1| + 1
  {
    var half := (|sorted| + 1) / 2;
    (sorted[..half], sorted[half..])
  }

  /** The "online / total" counter: non-display players over all invited guests. */
  function Counter(guests: seq<Guest>, players: seq<OnlinePlayer>): (c: (nat, nat))
    ensures c.0 == |NonDisplayPlayers(players)| && c.1 == |guests|
    ensures c.0 <= |players|
    ensures c.0 > 0 <==> exists p :: p in players && p.isDisplay != Some(true)
  {
    var online := NonDisplayPlayers(players);
    assert online != [] ==> online[0] in online;
    (|online|, |guests|)
  }

  /** A guest shown as online implies a non-zero counter. */
  lemma OnlineGuestCounted(g: Guest, guests: seq<Guest>, players: seq<OnlinePlayer>)
    requires GuestStateOf(g, players) == Online
    ensures Counter(guests, players).0 >= 1
  {
  }
}

=== FILE: attendees.dfy ===
/** Guest list server actions (`src/app/actions/attendees.ts`): invite a guest, remove one,
    and accept an invitation. */
module Attendees {
  import opened Common
  import opened Db

  const MissingFields := "Email a jmeno jsou povinne"
  const AlreadyInvited := "Tento email uz je pozvan"
  const MustSignIn := "Musis byt prihlasen"
  /** Postgres' unique-violation code. */
  const UniqueViolation := "23505"

  /** An error the database reports for the insert. */
  datatype DbError = DbError(code: string, message: string)

  /** The text the invite returns for a failed insert. */
  function InsertErrorText(e: DbError): (text: string)
    ensures e.code == UniqueViolation ==> text == AlreadyInvited
    ensures e.code != UniqueViolation ==> text == e.message
  {
    if e.code == UniqueViolation then AlreadyInvited else e.message
  }

  /** inviteAttendeeAction: sign-in, then both trimmed fields non-empty, then ownership, then
      the insert of a guest row with the trimmed email and name; `insertError` is what the
      database reports for that insert (a duplicate email shows as a unique violation). */
  method Invite(db: Database, user: Option<string>, eventId: string, email: string, displayName: string,
                newId: string, insertError: Option<DbError>)
    returns (r: Outcome<()>)
    modifies db`attendees
    ensures user.None? ==> r == Err(Unauthorized)
    ensures user.Some? && (Trim(email) == [] || Trim(displayName) == []) ==> r == Err(MissingFields)
    ensures user.Some? && Trim(email) != [] && Trim(displayName) != [] && !Owns(db.events, eventId, user.value) ==>
      r == Err(EventNotFound)
    ensures r.Ok? <==> (user.Some? && Trim(email) != [] && Trim(displayName) != [] &&
                        Owns(db.events, eventId, user.value) && insertError.None?)
    ensures insertError.Some? && user.Some? && Trim(email) != [] && Trim(displayName) != [] &&
            Owns(db.events, eventId, user.value) ==>
      r == Err(InsertErrorText(insertError.value))
    ensures r.Err? ==> db.attendees == old(db.attendees)
    ensures r.Ok? ==> db.attendees == old(db.attendees) + [Attendee(newId, eventId, Trim(email), Trim(displayName), Invited, None)]
  {
    if user.None? {
      return Err(Unauthorized);
    }
    var e, name := Trim(email), Trim(displayName);
    if e == [] || name == [] {
      return Err(MissingFields);
    }
    if !Owns(db.events, eventId, user.value) {
      return Err(EventNotFound);
    }
    if insertError.Some? {
      return Err(InsertErrorText(insertError.value));
    }
    db.attendees := db.attendees + [Attendee(newId, eventId, e, name, Invited, None)];
    r := Ok(());
  }

  /** The rows left after deleting the one matching both ids. */
  function WithoutGuest(rows: seq<Attendee>, attendeeId: string, eventId: string): (r: seq<Attendee>)
    ensures forall a :: a in r <==> a in rows && !(a.id == attendeeId && a.eventId == eventId)
    ensures |r| <= |rows|
  {
    if rows == [] then []
    else
      var rest := WithoutGuest(rows[1..], attendeeId, eventId);
      assert rows == [rows[0]] + rows[1..];
      if rows[0].id == attendeeId && rows[0].eventId == eventId then rest else [rows[0]] + rest
  }

  /** The delete keeps every row of another event, and the order of what it keeps. */
  lemma {:induction false} WithoutGuestKeepsOtherEvents(rows: seq<Attendee>, attendeeId: string, eventId: string, other: string)
    requires other != eventId
    ensures OfEvent(WithoutGuest(rows, attendeeId, eventId), other) == OfEvent(rows, other)
  {
    if rows != [] {
      WithoutGuestKeepsOtherEvents(rows[1..], attendeeId, eventId, other);
      var rest := WithoutGuest(rows[1..], attendeeId, eventId);
      if !(rows[0].id == attendeeId && rows[0].eventId == eventId) {
        assert ([rows[0]] + rest)[1..] == rest;
      }
    }
  }

  /** The rows of event `e`, in table order. */
  function OfEvent(rows: seq<Attendee>, e: string): seq<Attendee> {
    if rows == [] then []
    else (if rows[0].eventId == e then [rows[0]] else []) + OfEvent(rows[1..], e)
  }

  /** removeAttendeeAction: any signed-in user (no ownership check) deletes the row matching
      both the attendee id and the event id. */
  method Remove(db: Database, user: Option<string>, eventId: string, attendeeId: string,
                deleteError: Option<string>)
    returns (r: Outcome<()>)
    modifies db`attendees
    ensures r.Err? <==> user.None? || deleteError.Some?
    ensures user.None? ==> r == Err(Unauthorized)
    ensures user.Some? && deleteError.Some? ==> r == Err(deleteError.value)
    ensures r.Err? ==> db.attendees == old(db.attendees)
    ensures r.Ok? ==> db.attendees == WithoutGuest(old(db.attendees), attendeeId, eventId)
  {
    if user.None? {
      return Err(Unauthorized);
    }
    if deleteError.Some? {
      return Err(deleteError.value);
    }
    db.attendees := WithoutGuest(db.attendees, attendeeId, eventId);
    r := Ok(());
  }

  /** acceptInviteAction: sign-in, then whatever the `accept_invite` procedure returns
      (`rpcResult`), its value as the attendee id. */
  function AcceptInvite(user: Option<string>, rpcResult: Outcome<string>): (r: Outcome<string>)
    ensures user.None? ==> r == Err(MustSignIn)
    ensures user.Some? ==> r == rpcResult
  {
    if user.None? then Err(MustSignIn) else rpcResult
  }
}

=== FILE: common.dfy ===
/** Shared vocabulary of the model: optional values, JavaScript string trimming,
    decimal rendering, a stable sort by an integer key, and string-keyed records
    (the JavaScript objects `Record<string, number>` used for vote and score tallies). */
module Common {

  datatype Option<+T> = None | Some(value: T)

  /** What a server action returns: a payload, or the `{ error: message }` object. */
  datatype Outcome<+T> = Ok(value: T) | Err(message: string)

  // ---------------------------------------------------------------------------
  // JavaScript white space, `String.prototype.trim`
  // ---------------------------------------------------------------------------

  /** The characters that JavaScript's `trim` and the regular-expression class `\s`
      treat as white space (WhiteSpace and LineTerminator code points). */
  predicate IsJsSpace(c: char) {
    || c == '\t' || c == '\n' || c == '\U{B}' || c == '\U{C}' || c == '\r' || c == ' '
    || c == '\U{A0}' || c == '\U{1680}' || ('\U{2000}' <= c <= '\U{200A}')
    || c == '\U{2028}' || c == '\U{2029}' || c == '\U{202F}' || c == '\U{205F}'
    || c == '\U{3000}' || c == '\U{FEFF}'
  }

  predicate IsAsciiDigit(c: char) {
    '0' <= c <= '9'
  }

  /** Drops the leading white space. */
  function TrimStart(s: string): (r: string)
    ensures |r| <= |s| && r == s[|s| - |r|..]
    ensures r == [] || !IsJsSpace(r[0])
    ensures forall i :: 0 <= i < |s| - |r| ==> IsJsSpace(s[i])
  {
    if s != [] && IsJsSpace(s[0]) then TrimStart(s[1..]) else s
  }

  /** Drops the trailing white space. */
  function TrimEnd(s: string): (r: string)
    ensures |r| <= |s| && r == s[..|r|]
    ensures r == [] || !IsJsSpace(r[|r| - 1])
    ensures forall i :: |r| <= i < |s| ==> IsJsSpace(s[i])
  {
    if s != [] && IsJsSpace(s[|s| - 1]) then TrimEnd(s[..|s| - 1]) else s
  }

  /** `s.trim()`: the slice of `s` left after cutting white space from both ends; what is
      left neither starts nor ends with white space. */
  function Trim(s: string): (r: string)
    ensures |r| <= |TrimStart(s)|
    ensures r == [] || (!IsJsSpace(r[0]) && !IsJsSpace(r[|r| - 1]))
    ensures r == s[LeadingSpaces(s)..LeadingSpaces(s) + |r|]
    ensures forall i :: 0 <= i < LeadingSpaces(s) ==> IsJsSpace(s[i])
    ensures forall i :: LeadingSpaces(s) + |r| <= i < |s| ==> IsJsSpace(s[i])
  {
    var t := TrimStart(s);
    var r := TrimEnd(t);
    TrimEndOfSuffix(s, t, r);
    r
  }

  /** Cutting white space from the end of the suffix `t` of `s` leaves a slice of `s` followed
      by white space only. */
  lemma TrimEndOfSuffix(s: string, t: string, r: string)
    requires |t| <= |s| && t == s[|s| - |t|..]
    requires |r| <= |t| && r == t[..|r|]
    requires forall i :: |r| <= i < |t| ==> IsJsSpace(t[i])
    ensures r == s[|s| - |t|..|s| - |t| + |r|]
    ensures forall i :: |s| - |t| + |r| <= i < |s| ==> IsJsSpace(s[i])
  {
    var k := |s| - |t|;
    forall i | k + |r| <= i < |s| ensures IsJsSpace(s[i]) {
      assert s[i] == t[i - k];
    }
  }

  /** How many white-space characters open `s`. */
  function LeadingSpaces(s: string): (n: nat)
    ensures n <= |s|
  {
    |s| - |TrimStart(s)|
  }

  /** A string is blank (`!s.trim()` in JavaScript) exactly when it is made of white space only. */
  lemma BlankIffAllSpace(s: string)
    ensures Trim(s) == [] <==> forall i :: 0 <= i < |s| ==> IsJsSpace(s[i])
  {
    var k := LeadingSpaces(s);
    if Trim(s) != [] {
      assert s[k] == Trim(s)[0];
    }
  }

  /** Trimming twice is trimming once. */
  lemma TrimIdempotent(s: string)
    ensures Trim(Trim(s)) == Trim(s)
  {
    var r := Trim(s);
    assert TrimStart(r) == r;
    assert TrimEnd(r) == r;
  }

  // ---------------------------------------------------------------------------
  // Decimal rendering, `String(n)` for a natural number
  // ---------------------------------------------------------------------------

  function DigitChar(d: nat): (c: char)
    requires d < 10
    ensures IsAsciiDigit(c) && c as int - '0' as int == d
  {
    ['0', '1', '2', '3', '4', '5', '6', '7', '8', '9'][d]
  }

  /** `String(n)` for a natural number: its decimal digits, no leading zero. */
  function NatToString(n: nat): (r: string)
    ensures |r| >= 1 && (n >= 10 <==> |r| >= 2)
    ensures forall i :: 0 <= i < |r| ==> IsAsciiDigit(r[i])
    decreases n
  {
    if n < 10 then [DigitChar(n)] else NatToString(n / 10) + [DigitChar(n % 10)]
  }

  /** The value of a string of ASCII digits, most significant first. */
  function DigitsValue(s: string): nat
    requires forall i :: 0 <= i < |s| ==> IsAsciiDigit(s[i])
  {
    if s == [] then 0 else DigitsValue(s[..|s| - 1]) * 10 + DigitValue(s[|s| - 1])
  }

  function DigitValue(c: char): nat
    requires IsAsciiDigit(c)
  {
    c as int - '0' as int
  }

  /** The length of the run of ASCII digits at the start of `s`. */
  function LeadingDigitCount(s: string): (n: nat)
    ensures n <= |s|
    ensures forall i :: 0 <= i < n ==> IsAsciiDigit(s[i])
    ensures n < |s| ==> !IsAsciiDigit(s[n])
  {
    if s == [] || !IsAsciiDigit(s[0]) then 0
    else
      var n := LeadingDigitCount(s[1..]);
      assert forall i :: 1 <= i < |s| ==> s[i] == s[1..][i - 1];
      n + 1
  }

  /** `parseInt(s, 10)`: leading white space, an optional sign, then the longest run of digits;
      `NaN` (None) when that run is empty. */
  function ParseInt(s: string): Option<int> {
    ParseSigned(TrimStart(s))
  }

  /** What `parseInt` reads once the white space is gone: an optional sign, then the digits. */
  function ParseSigned(t: string): Option<int> {
    if |t| > 0 && (t[0] == '-' || t[0] == '+') then DigitsRead(t[0] == '-', t[1..])
    else DigitsRead(false, t)
  }

  /** The leading run of digits of `body`, negated after a minus sign; None when it is empty. */
  function DigitsRead(negative: bool, body: string): Option<int> {
    var n := LeadingDigitCount(body);
    if n == 0 then None
    else if negative then Some(0 - DigitsValue(body[..n]) as int)
    else Some(DigitsValue(body[..n]))
  }

  /** A number is read exactly when, after the white space and an optional sign, a digit
      follows; it is negative only after a minus sign. */
  lemma ParseIntReads(s: string)
    ensures var t := TrimStart(s);
      ParseInt(s).Some? <==> (|t| > 0 && IsAsciiDigit(t[0])) || (|t| > 1 && (t[0] == '-' || t[0] == '+') && IsAsciiDigit(t[1]))
    ensures ParseInt(s).Some? && ParseInt(s).value < 0 ==> TrimStart(s)[0] == '-'
  {
    var t := TrimStart(s);
    if |t| > 0 && (t[0] == '-' || t[0] == '+') {
      ParseSignedOfSign(t);
      DigitsReadSome(t[0] == '-', t[1..]);
      if |t| > 1 {
        assert t[1..][0] == t[1];
      }
    } else {
      DigitsReadSome(false, t);
    }
  }

  /** A read succeeds exactly when the body opens with a digit, and is negative only after a
      minus sign. */
  lemma DigitsReadSome(negative: bool, body: string)
    ensures DigitsRead(negative, body).Some? <==> |body| > 0 && IsAsciiDigit(body[0])
    ensures DigitsRead(negative, body).Some? && DigitsRead(negative, body).value < 0 ==> negative
  {
  }

  lemma TrimStartKeeps(s: string)
    requires s != [] && !IsJsSpace(s[0])
    ensures TrimStart(s) == s
  {
  }

  /** Reading stops at the first character that is not a digit: a run of digits followed by
      anything else reads as the run's value. */
  lemma ParseIntStopsAtNonDigit(d: string, rest: string)
    requires d != [] && forall i :: 0 <= i < |d| ==> IsAsciiDigit(d[i])
    requires rest == [] || !IsAsciiDigit(rest[0])
    ensures ParseInt(d + rest) == Some(DigitsValue(d))
  {
    assert (d + rest)[0] == d[0];
    ParseIntOfDigit(d + rest);
    DigitsReadOf(false, d, rest);
  }

  /** Without a sign, the digits are read from the string itself. */
  lemma ParseIntOfDigit(s: string)
    requires s != [] && IsAsciiDigit(s[0])
    ensures ParseInt(s) == DigitsRead(false, s)
  {
    TrimStartKeeps(s);
  }

  lemma DigitsReadOf(negative: bool, d: string, rest: string)
    requires d != [] && forall i :: 0 <= i < |d| ==> IsAsciiDigit(d[i])
    requires rest == [] || !IsAsciiDigit(rest[0])
    ensures DigitsRead(negative, d + rest) == Some(if negative then 0 - DigitsValue(d) else DigitsValue(d))
  {
    LeadingDigitsOf(d, rest);
    DigitsReadRun(negative, d + rest);
    PrefixOfAppend(d, rest);
  }

  lemma DigitsReadRun(negative: bool, body: string)
    requires LeadingDigitCount(body) > 0
    ensures var n := LeadingDigitCount(body);
      DigitsRead(negative, body) == Some(if negative then 0 - DigitsValue(body[..n]) else DigitsValue(body[..n]))
  {
  }

  lemma PrefixOfAppend<T>(a: seq<T>, b: seq<T>)
    ensures (a + b)[..|a|] == a
  {
  }

  /** The same after a sign: a minus negates the value, a plus keeps it. */
  lemma ParseIntSignedStopsAtNonDigit(c: char, d: string, rest: string)
    requires c == '-' || c == '+'
    requires d != [] && forall i :: 0 <= i < |d| ==> IsAsciiDigit(d[i])
    requires rest == [] || !IsAsciiDigit(rest[0])
    ensures ParseInt([c] + d + rest) == Some(if c == '-' then 0 - DigitsValue(d) else DigitsValue(d))
  {
    AppendAssoc([c], d, rest);
    ParseIntOfSign(c, d + rest);
    DigitsReadOf(c == '-', d, rest);
  }

  /** After a sign, the digits are read from the rest of the string. */
  lemma ParseIntOfSign(c: char, body: string)
    requires c == '-' || c == '+'
    ensures ParseInt([c] + body) == DigitsRead(c == '-', body)
  {
    var s := [c] + body;
    ConsParts(c, body);
    TrimStartKeeps(s);
    ParseSignedOfSign(s);
  }

  lemma ParseSignedOfSign(t: string)
    requires |t| > 0 && (t[0] == '-' || t[0] == '+')
    ensures ParseSigned(t) == DigitsRead(t[0] == '-', t[1..])
  {
  }

  lemma AppendAssoc<T>(a: seq<T>, b: seq<T>, c: seq<T>)
    ensures a + b + c == a + (b + c)
  {
  }

  lemma ConsParts<T>(c: T, b: seq<T>)
    ensures ([c] + b)[0] == c && ([c] + b)[1..] == b
  {
  }

  lemma {:induction false} LeadingDigitsOf(d: string, rest: string)
    requires forall i :: 0 <= i < |d| ==> IsAsciiDigit(d[i])
    requires rest == [] || !IsAsciiDigit(rest[0])
    ensures LeadingDigitCount(d + rest) == |d|
    decreases |d|
  {
    if d == [] {
      assert d + rest == rest;
    } else {
      assert (d + rest)[0] == d[0] && (d + rest)[1..] == d[1..] + rest;
      LeadingDigitsOf(d[1..], rest);
    }
  }

  lemma {:induction false} DigitsValueOfNatString(n: nat)
    ensures DigitsValue(NatToString(n)) == n
    decreases n
  {
    if n >= 10 {
      var s := NatToString(n);
      assert s[..|s| - 1] == NatToString(n / 10);
      DigitsValueOfNatString(n / 10);
    }
  }

  /** Reading back a number's decimal text gives the number. */
  lemma ParseIntOfNatString(n: nat)
    ensures ParseInt(NatToString(n)) == Some(n)
  {
    var s := NatToString(n);
    assert s + [] == s;
    ParseIntStopsAtNonDigit(s, []);
    DigitsValueOfNatString(n);
  }

  /** Different numbers render differently. */
  lemma {:induction false} NatToStringInjective(a: nat, b: nat)
    requires NatToString(a) == NatToString(b)
    ensures a == b
    decreases a
  {
    var s := NatToString(a);
    if a >= 10 {
      assert b >= 10;
      assert DigitChar(a % 10) == s[|s| - 1] == DigitChar(b % 10);
      assert NatToString(a / 10) == s[..|s| - 1] == NatToString(b / 10);
      NatToStringInjective(a / 10, b / 10);
    } else {
      assert DigitChar(a) == s[0] == DigitChar(b);
    }
  }

  // ---------------------------------------------------------------------------
  // Stable sort by an integer key (JavaScript's `Array.prototype.sort` is stable)
  // ---------------------------------------------------------------------------

  ghost predicate SortedByKey<T>(s: seq<T>, key: T -> int) {
    forall i, j :: 0 <= i < j < |s| ==> key(s[i]) <= key(s[j])
  }

  /** Inserts `x` before the first element whose key is not smaller, which keeps the sort stable. */
  function InsertByKey<T>(x: T, s: seq<T>, key: T -> int): (r: seq<T>)
    ensures multiset(r) == multiset(s) + multiset{x}
    ensures SortedByKey(s, key) ==> SortedByKey(r, key)
  {
    if s == [] || key(x) <= key(s[0]) then
      assert SortedByKey(s, key) ==> SortedByKey([x] + s, key) by {
        if SortedByKey(s, key) {
          SortedCons(x, s, key);
        }
      }
      [x] + s
    else
      var rest := InsertByKey(x, s[1..], key);
      assert s == [s[0]] + s[1..];
      assert SortedByKey(s, key) ==> SortedByKey([s[0]] + rest, key) by {
        if SortedByKey(s, key) {
          HeadBelowInserted(x, s, rest, key);
          SortedCons(s[0], rest, key);
        }
      }
      [s[0]] + rest
  }

  /** Inserting a larger key into the tail of a sorted list leaves the head below everything. */
  lemma HeadBelowInserted<T>(x: T, s: seq<T>, rest: seq<T>, key: T -> int)
    requires s != [] && SortedByKey(s, key) && key(s[0]) <= key(x)
    requires multiset(rest) == multiset(s[1..]) + multiset{x}
    ensures forall e :: e in rest ==> key(s[0]) <= key(e)
  {
    forall e | e in rest ensures key(s[0]) <= key(e) {
      assert e in multiset(rest);
      if e != x {
        assert e in multiset(s[1..]);
        var j :| 0 <= j < |s[1..]| && s[1..][j] == e;
        assert s[j + 1] == e;
      }
    }
  }

  lemma SortedCons<T>(h: T, t: seq<T>, key: T -> int)
    requires SortedByKey(t, key)
    requires forall e :: e in t ==> key(h) <= key(e)
    ensures SortedByKey([h] + t, key)
  {
    var r := [h] + t;
    forall i, j | 0 <= i < j < |r| ensures key(r[i]) <= key(r[j]) {
      assert r[j] == t[j - 1];
      if i > 0 {
        assert r[i] == t[i - 1];
      } else {
        assert t[j - 1] in t;
      }
    }
  }

  /** Insertion sort by ascending key: a permutation of `s` in ascending key order. */
  function SortByKey<T>(s: seq<T>, key: T -> int): (r: seq<T>)
    ensures multiset(r) == multiset(s) && |r| == |s|
    ensures SortedByKey(r, key)
  {
    if s == [] then [] else
      var sorted := SortByKey(s[1..], key);
      var r := InsertByKey(s[0], sorted, key);
      assert s == [s[0]] + s[1..];
      assert multiset(r) == multiset(s);
      assert |r| == |multiset(r)| == |multiset(s)| == |s|;
      r
  }

  /** `sort(() => Math.random() - 0.5)`: the comparator is not one, so all that is known of
      the result is that it is some permutation of the input. */
  method Shuffle<T(==)>(s: seq<T>) returns (r: seq<T>)
    ensures multiset(r) == multiset(s) && |r| == |s|
  {
    assert multiset(s) == multiset(s);
    r :| multiset(r) == multiset(s);
    assert |r| == |multiset(r)| == |multiset(s)| == |s|;
  }

  /** `shuffle(s).slice(0, k)`: k elements of `s` (all of them when there are fewer). */
  method ChooseSome<T(==)>(s: seq<T>, k: nat) returns (r: seq<T>)
    ensures |r| == if |s| < k then |s| else k
    ensures multiset(r) <= multiset(s)
  {
    var n := if |s| < k then |s| else k;
    assert s == s[..n] + s[n..];
    assert |s[..n]| == n && multiset(s[..n]) <= multiset(s);
    r :| |r| == n && multiset(r) <= multiset(s);
  }

  function Take<T>(s: seq<T>, n: nat): (r: seq<T>)
    ensures |r| == if |s| < n then |s| else n
    ensures r == s[..|r|]
  {
    if |s| <= n then s else s[..n]
  }

  // ---------------------------------------------------------------------------
  // String-keyed records: a JavaScript object `Record<string, number>`, entries in
  // insertion order
  // ---------------------------------------------------------------------------

  type Record = seq<(string, int)>

  predicate DistinctKeys(r: Record) {
    forall i, j :: 0 <= i < j < |r| ==> r[i].0 != r[j].0
  }

  /** `r[k]`, or None when `k` is not a key. */
  function Get(r: Record, k: string): (v: Option<int>)
    ensures v.None? <==> forall i :: 0 <= i < |r| ==> r[i].0 != k
    ensures v.Some? ==> exists i :: 0 <= i < |r| && r[i] == (k, v.value)
  {
    if r == [] then None
    else if r[0].0 == k then Some(r[0].1)
    else
      var v := Get(r[1..], k);
      assert v.Some? ==> exists i :: 0 <= i < |r[1..]| && r[1..][i] == (k, v.value);
      v
  }

  /** `r[k] || 0`: the value under `k`, with an absent key (or a zero) read as 0. */
  function GetOr0(r: Record, k: string): int {
    match Get(r, k)
    case Some(v) => v
    case None => 0
  }

  /** `{ ...r, [k]: v }`: an existing key keeps its place and takes the new value, a new key
      is appended at the end. */
  function Put(r: Record, k: string, v: int): (r': Record)
    ensures Get(r', k) == Some(v)
    ensures forall k' :: k' != k ==> Get(r', k') == Get(r, k')
    ensures |r'| == if Get(r, k).Some? then |r| else |r| + 1
    ensures forall i :: 0 <= i < |r| ==> r'[i].0 == r[i].0
    ensures Get(r, k).None? ==> r'[|r|] == (k, v)
  {
    if r == [] then [(k, v)]
    else if r[0].0 == k then [(k, v)] + r[1..]
    else [r[0]] + Put(r[1..], k, v)
  }

  /** Writing a key never duplicates it. */
  lemma PutKeepsKeysDistinct(r: Record, k: string, v: int)
    requires DistinctKeys(r)
    ensures DistinctKeys(Put(r, k, v))
  {
    var r' := Put(r, k, v);
    forall i, j | 0 <= i < j < |r'| ensures r'[i].0 != r'[j].0 {
      if j == |r| {
        assert Get(r, k).None?;
        assert r[i].0 != k;
      }
    }
  }

  /** `Object.values(r).reduce((sum, v) => sum + v, 0)`. */
  function SumValues(r: Record): int {
    if r == [] then 0 else r[0].1 + SumValues(r[1..])
  }

  /** Writing `v` under `k` changes the total by `v` minus what was there before. */
  lemma {:induction false} SumAfterPut(r: Record, k: string, v: int)
    requires DistinctKeys(r)
    ensures SumValues(Put(r, k, v)) == SumValues(r) - GetOr0(r, k) + v
  {
    if r == [] {
    } else if r[0].0 == k {
      assert forall i :: 0 <= i < |r[1..]| ==> r[1..][i].0 != k by {
        forall i | 0 <= i < |r[1..]| ensures r[1..][i].0 != k {
          assert r[1..][i] == r[i + 1];
        }
      }
      assert Get(r[1..], k).None?;
    } else {
      assert DistinctKeys(r[1..]) by {
        forall i, j | 0 <= i < j < |r[1..]| ensures r[1..][i].0 != r[1..][j].0 {
          assert r[1..][i] == r[i + 1] && r[1..][j] == r[j + 1];
        }
      }
      SumAfterPut(r[1..], k, v);
    }
  }

  /** With no negative value, every single value is at most the total. */
  lemma {:induction false} ValueAtMostSum(r: Record, k: string)
    requires forall i :: 0 <= i < |r| ==> r[i].1 >= 0
    ensures 0 <= GetOr0(r, k) <= SumValues(r)
    ensures SumValues(r) >= 0
  {
    if r != [] {
      assert forall i :: 0 <= i < |r[1..]| ==> r[1..][i].1 >= 0 by {
        forall i | 0 <= i < |r[1..]| ensures r[1..][i].1 >= 0 {
          assert r[1..][i] == r[i + 1];
        }
      }
      ValueAtMostSum(r[1..], k);
    }
  }

  // ---------------------------------------------------------------------------
  // Vote shares as the result screens show them
  // ---------------------------------------------------------------------------

  /** `Object.values(votes).reduce(+, 0) || 1`: the number of votes, with no votes read as 1. */
  function TotalVotes(votes: Record): (t: int)
    ensures t != 0
    ensures SumValues(votes) != 0 ==> t == SumValues(votes)
  {
    var s := SumValues(votes);
    if s == 0 then 1 else s
  }

  /** `Math.round(count / total * 100)` in exact arithmetic: the integer nearest to
      100·count/total, halves rounded up. */
  function Percent(count: int, total: int): (p: int)
    requires total != 0
    ensures total > 0 ==> 200 * count - total < 2 * total * p <= 200 * count + total
  {
    // floor((200·count + total) / (2·total)); Dafny's division floors only for a positive divisor
    if total > 0 then (200 * count + total) / (2 * total)
    else (0 - 200 * count - total) / (0 - 2 * total)
  }

  lemma PercentBounds(count: int, total: int)
    requires 0 <= count <= total && total >= 1
    ensures 0 <= Percent(count, total) <= 100
  {
    var p := Percent(count, total);
    if p < 0 {
      assert 2 * total * p <= 2 * total * (-1) by { MulMonotone(2 * total, p, -1); }
    }
    if p > 100 {
      assert 2 * total * p >= 2 * total * 101 by { MulMonotone(2 * total, 101, p); }
    }
  }

  lemma MulMonotone(a: int, b: int, c: int)
    requires a >= 0 && b <= c
    ensures a * b <= a * c
  {
    assert a * c - a * b == a * (c - b);
  }

  /** With no negative count, every option's share lies between 0 and 100 percent. */
  lemma ShareInRange(votes: Record, k: string)
    requires forall i :: 0 <= i < |votes| ==> votes[i].1 >= 0
    ensures TotalVotes(votes) >= 1
    ensures 0 <= Percent(GetOr0(votes, k), TotalVotes(votes)) <= 100
  {
    ValueAtMostSum(votes, k);
    PercentBounds(GetOr0(votes, k), TotalVotes(votes));
  }
}

=== FILE: dashboard.dfy ===
/** The organiser's dashboard: the tab badges (`src/components/dashboard/DashboardTabs.tsx`)
    and the per-event guest counts of the event list (`src/app/dashboard/page.tsx`). */
module Dashboard {
  import opened Common
  import opened Db

  datatype TabId = Priprava | ProgramTab | Hoste

  /** The number badge of a tab: guests on "hoste", blocks on "program", only when non-zero. */
  function GetBadge(id: TabId, attendeeCount: int, blockCount: int): (b: Option<int>)
    ensures b.Some? ==> b.value > 0
    ensures id == Priprava ==> b.None?
    ensures id == Hoste ==> (b.Some? <==> attendeeCount > 0)
    ensures id == ProgramTab ==> (b.Some? <==> blockCount > 0)
    ensures id == Hoste && b.Some? ==> b.value == attendeeCount
    ensures id == ProgramTab && b.Some? ==> b.value == blockCount
  {
    if id == Hoste && attendeeCount > 0 then Some(attendeeCount)
    else if id == ProgramTab && blockCount > 0 then Some(blockCount)
    else None
  }

  /** A zero count gives no badge on any tab. */
  lemma NoBadgeForZero(id: TabId)
    ensures GetBadge(id, 0, 0).None?
  {
  }

  /** How many of the `event_id` values in `rows` equal `e`. */
  function Count(rows: seq<string>, e: string): nat {
    if rows == [] then 0
    else Count(rows[..|rows| - 1], e) + (if rows[|rows| - 1] == e then 1 else 0)
  }

  /** The count is at most the number of rows; it is zero exactly when no row names the event,
      and all of them exactly when every row does. */
  lemma {:induction false} CountBounds(rows: seq<string>, e: string)
    ensures Count(rows, e) <= |rows|
    ensures Count(rows, e) == 0 <==> e !in rows
    ensures Count(rows, e) == |rows| <==> forall i :: 0 <= i < |rows| ==> rows[i] == e
    decreases |rows|
  {
    if rows != [] {
      var init := rows[..|rows| - 1];
      CountBounds(init, e);
      assert rows == init + [rows[|rows| - 1]];
      assert forall i :: 0 <= i < |init| ==> init[i] == rows[i];
    }
  }

  /** The attendee query: the `event_id` of every attendee row of one of the listed events,
      in table order; no query at all (an empty result) when there are no events. */
  function AttendeeEventIds(eventIds: seq<string>, table: seq<Attendee>): (rows: seq<string>)
    ensures eventIds == [] ==> rows == []
    ensures forall e :: e in rows ==> e in eventIds
  {
    if eventIds == [] || table == [] then []
    else
      var last := table[|table| - 1];
      var rest := AttendeeEventIds(eventIds, table[..|table| - 1]);
      if last.eventId in eventIds then rest + [last.eventId] else rest
  }

  /** For each listed event, the query returns one row per attendee of that event. */
  lemma {:induction false} QueryCountsEachEvent(eventIds: seq<string>, table: seq<Attendee>, e: string)
    requires e in eventIds
    ensures Count(AttendeeEventIds(eventIds, table), e) == |EventAttendees(table, e)|
  {
    if table != [] {
      var last := table[|table| - 1];
      var rest := AttendeeEventIds(eventIds, table[..|table| - 1]);
      QueryCountsEachEvent(eventIds, table[..|table| - 1], e);
      if last.eventId in eventIds {
        assert (rest + [last.eventId])[..|rest|] == rest;
      }
    }
  }

  /** The attendee rows of event `e`. */
  function EventAttendees(table: seq<Attendee>, e: string): seq<Attendee> {
    if table == [] then []
    else
      var last := table[|table| - 1];
      EventAttendees(table[..|table| - 1], e) + (if last.eventId == e then [last] else [])
  }

  /** `countMap`: one `forEach` pass adding 1 under each row's event id. */
  method CountByEvent(rows: seq<string>) returns (countMap: Record)
    ensures DistinctKeys(countMap)
    ensures forall e :: GetOr0(countMap, e) == Count(rows, e)
  {
    countMap := [];
    var i := 0;
    while i < |rows|
      invariant 0 <= i <= |rows|
      invariant DistinctKeys(countMap)
      invariant forall e :: GetOr0(countMap, e) == Count(rows[..i], e)
    {
      var e := rows[i];
      PutKeepsKeysDistinct(countMap, e, GetOr0(countMap, e) + 1);
      countMap := Put(countMap, e, GetOr0(countMap, e) + 1);
      assert rows[..i + 1][..i] == rows[..i];
      i := i + 1;
    }
    assert rows[..i] == rows;
  }

  /** The guest count shown on an event card: `countMap[id] || 0`. */
  function ShownCount(countMap: Record, eventId: string): int {
    GetOr0(countMap, eventId)
  }

  /** The card of each listed event shows exactly its number of attendee rows; an event
      without any shows 0. When the attendee read fails (`attendeeCounts?.forEach` on no data)
      the map stays empty and every card shows 0. */
  method EventCardCounts(eventIds: seq<string>, table: seq<Attendee>, readFailed: bool) returns (shown: seq<int>)
    ensures |shown| == |eventIds|
    ensures readFailed ==> forall i :: 0 <= i < |eventIds| ==> shown[i] == 0
    ensures !readFailed ==> forall i :: 0 <= i < |eventIds| ==> shown[i] == |EventAttendees(table, eventIds[i])|
  {
    if readFailed {
      shown := seq(|eventIds|, i requires 0 <= i < |eventIds| => ShownCount([], eventIds[i]));
      return;
    }
    var rows := AttendeeEventIds(eventIds, table);
    var countMap := CountByEvent(rows);
    forall e | e in eventIds ensures Count(rows, e) == |EventAttendees(table, e)| {
      QueryCountsEachEvent(eventIds, table, e);
    }
    shown := seq(|eventIds|, i requires 0 <= i < |eventIds| => ShownCount(countMap, eventIds[i]));
  }
}

=== FILE: db.dfy ===
/** The relational tables the server actions read and write, held in memory: events, program
    blocks (`event_program`), attendees, achievements, game responses, social messages and
    photos, and the read-only games catalogue. Row identifiers the database generates, and
    timestamps, are passed in by the caller. */
module Db {
  import opened Common

  datatype Status = Pending | Active | Completed

  datatype BlockType = Game | Custom | Slideshow | MessageWall

  /** One row of `event_program`. A game block started from the moderator screen has no
      title or duration. */
  datatype Block = Block(
    id: string,
    eventId: string,
    blockType: BlockType,
    gameId: Option<string>,
    title: Option<string>,
    durationMinutes: Option<int>,
    sortOrder: int,
    status: Status,
    startedAt: Option<int>,
    completedAt: Option<int>)

  datatype Event = Event(
    id: string,
    creatorId: string,
    title: string,
    description: Option<string>,
    eventDate: Option<string>,
    slug: string,
    isActive: bool,
    liveCode: Option<string>)

  datatype AttendeeStatus = Invited | Confirmed | Declined | Maybe

  datatype Attendee = Attendee(
    id: string,
    eventId: string,
    email: string,
    displayName: string,
    status: AttendeeStatus,
    userId: Option<string>)

  /** Free-form metadata of an achievement, kept as opaque key/value text. */
  type Metadata = seq<(string, string)>

  datatype AchievementRow = AchievementRow(
    id: string,
    eventId: string,
    achievementType: string,
    title: string,
    points: int,
    metadata: Metadata,
    awardedAt: int)

  /** The payload column of `game_responses`, one shape per response type. */
  datatype Payload =
    | FactPayload(fact: string)
    | StatementsPayload(statements: seq<string>, lieIndex: int)
    | VotePayload(votedFor: string)

  datatype Response = Response(
    programId: string,
    attendeeId: string,
    responseType: string,
    payload: Payload,
    roundNumber: int)

  datatype Message = Message(
    id: string, eventId: string, attendeeId: string, displayName: string, content: string,
    createdAt: int)

  datatype Photo = Photo(
    id: string, eventId: string, attendeeId: string, displayName: string,
    storagePath: string, url: string, createdAt: int)

  datatype GameEntry = GameEntry(id: string, slug: string, name: string)

  class Database {
    var events: seq<Event>
    var program: seq<Block>
    var attendees: seq<Attendee>
    var achievements: seq<AchievementRow>
    var responses: seq<Response>
    var messages: seq<Message>
    var photos: seq<Photo>
    var games: seq<GameEntry>

    constructor (games: seq<GameEntry>)
      ensures this.games == games
      ensures events == [] && program == [] && attendees == [] && achievements == []
      ensures responses == [] && messages == [] && photos == []
    {
      this.games := games;
      events, program, attendees, achievements := [], [], [], [];
      responses, messages, photos := [], [], [];
    }
  }

  /** `attendees.find(a => a.id === id)`: the first attendee with that id, if any. */
  function FindAttendee(attendees: seq<Attendee>, id: string): (r: Option<Attendee>)
    ensures r.Some? ==> r.value in attendees && r.value.id == id
    ensures r.None? <==> forall a | a in attendees :: a.id != id
  {
    if attendees == [] then None
    else if attendees[0].id == id then Some(attendees[0])
    else FindAttendee(attendees[1..], id)
  }

  // ---------------------------------------------------------------------------
  // Ownership guard shared by every mutating action
  // ---------------------------------------------------------------------------

  const Unauthorized := "Neautorizovany pristup"
  const EventNotFound := "Event nenalezen"
  /** Stands for the database client's error text when `.single()` finds no row. */
  const NoSingleRow := "no single row"

  predicate Owns(events: seq<Event>, eventId: string, userId: string) {
    exists i :: 0 <= i < |events| && events[i].id == eventId && events[i].creatorId == userId
  }

  /** The guard every owner-only action runs first: no user, then not the creator. */
  function OwnerCheck(events: seq<Event>, user: Option<string>, eventId: string): (e: Option<string>)
    ensures e.None? <==> user.Some? && Owns(events, eventId, user.value)
    ensures e.Some? ==> e.value == (if user.None? then Unauthorized else EventNotFound)
  {
    if user.None? then Some(Unauthorized)
    else if !Owns(events, eventId, user.value) then Some(EventNotFound)
    else None
  }

  // ---------------------------------------------------------------------------
  // Queries over the block table
  // ---------------------------------------------------------------------------

  /** Primary-key uniqueness of block ids. */
  predicate UniqueIds(p: seq<Block>) {
    forall i, j :: 0 <= i < j < |p| ==> p[i].id != p[j].id
  }

  predicate FreshId(p: seq<Block>, id: string) {
    forall i :: 0 <= i < |p| ==> p[i].id != id
  }

  /** `.eq("event_id", e)`: the event's rows, in table order. */
  function EventBlocks(p: seq<Block>, e: string): (r: seq<Block>)
    ensures |r| <= |p|
    ensures forall b :: b in r <==> b in p && b.eventId == e
  {
    if p == [] then []
    else (if p[0].eventId == e then [p[0]] else []) + EventBlocks(p[1..], e)
  }

  function SortOrderKey(b: Block): int { b.sortOrder }

  /** Sorting the event's rows neither loses nor invents a row. */
  lemma OrderedMembers(p: seq<Block>, e: string, b: Block)
    ensures b in Ordered(EventBlocks(p, e)) <==> b in p && b.eventId == e
  {
    var s := EventBlocks(p, e);
    assert b in Ordered(s) <==> b in multiset(Ordered(s));
    assert b in s <==> b in multiset(s);
  }

  /** `.order("sort_order")`: ascending, rows with equal keys kept in table order. */
  function Ordered(bs: seq<Block>): (r: seq<Block>)
    ensures multiset(r) == multiset(bs) && |r| == |bs|
    ensures forall i, j :: 0 <= i < j < |r| ==> r[i].sortOrder <= r[j].sortOrder
  {
    SortByKey(bs, SortOrderKey)
  }

  /** With unique ids, no row value occurs twice. */
  lemma {:induction false} UniqueIdsSingleCopies(t: seq<Block>, x: Block)
    requires UniqueIds(t)
    ensures multiset(t)[x] <= 1
    decreases |t|
  {
    if t != [] {
      assert t == [t[0]] + t[1..];
      assert UniqueIds(t[1..]) by {
        forall i, j | 0 <= i < j < |t[1..]| ensures t[1..][i].id != t[1..][j].id {
          assert t[1..][i] == t[i + 1] && t[1..][j] == t[j + 1];
        }
      }
      UniqueIdsSingleCopies(t[1..], x);
      if x == t[0] {
        assert x !in t[1..] by {
          forall k | 0 <= k < |t[1..]| ensures t[1..][k] != x {
            assert t[1..][k] == t[k + 1];
          }
        }
      }
    }
  }

  lemma {:induction false} EventBlocksUnique(p: seq<Block>, e: string)
    requires UniqueIds(p)
    ensures UniqueIds(EventBlocks(p, e))
    decreases |p|
  {
    if p != [] {
      assert UniqueIds(p[1..]) by {
        forall i, j | 0 <= i < j < |p[1..]| ensures p[1..][i].id != p[1..][j].id {
          assert p[1..][i] == p[i + 1] && p[1..][j] == p[j + 1];
        }
      }
      EventBlocksUnique(p[1..], e);
      var rest := EventBlocks(p[1..], e);
      if p[0].eventId == e {
        forall k | 0 <= k < |rest| ensures rest[k].id != p[0].id {
          assert rest[k] in p[1..];
          var m :| 0 <= m < |p[1..]| && p[1..][m] == rest[k];
          assert p[m + 1] == rest[k];
        }
      }
    }
  }

  /** In a table with unique ids, a row is determined by its id. */
  lemma RowById(t: seq<Block>, x: Block, y: Block)
    requires UniqueIds(t) && x in t && y in t
    ensures x.id == y.id ==> x == y
  {
    var c :| 0 <= c < |t| && t[c] == x;
    var d :| 0 <= d < |t| && t[d] == y;
    assert x.id == y.id ==> c == d;
  }

  /** A sequence in which every value occurs at most once holds no value twice. */
  lemma NoRepeats(s: seq<Block>)
    requires forall x :: multiset(s)[x] <= 1
    ensures forall a, b :: 0 <= a < b < |s| ==> s[a] != s[b]
  {
    forall a, b | 0 <= a < b < |s| ensures s[a] != s[b] {
      assert s == s[..b] + s[b..];
      assert s[a] in s[..b] && s[b] in s[b..];
      assert multiset(s)[s[b]] == multiset(s[..b])[s[b]] + multiset(s[b..])[s[b]];
    }
  }

  /** Sorting the event's rows keeps ids unique. */
  lemma OrderedUnique(p: seq<Block>, e: string)
    requires UniqueIds(p)
    ensures UniqueIds(Ordered(EventBlocks(p, e)))
  {
    var t := EventBlocks(p, e);
    var s := Ordered(t);
    EventBlocksUnique(p, e);
    forall x ensures multiset(s)[x] <= 1 {
      UniqueIdsSingleCopies(t, x);
    }
    NoRepeats(s);
    forall a, b | 0 <= a < b < |s| ensures s[a].id != s[b].id {
      assert s[a] in multiset(t) && s[b] in multiset(t);
      RowById(t, s[a], s[b]);
    }
  }

  /** The largest sort order among the event's rows, if it has any. */
  function MaxSortOrder(p: seq<Block>, e: string): (m: Option<int>)
    ensures m.None? <==> forall i :: 0 <= i < |p| ==> p[i].eventId != e
    ensures m.Some? ==> forall i :: 0 <= i < |p| && p[i].eventId == e ==> p[i].sortOrder <= m.value
    ensures m.Some? ==> exists i :: 0 <= i < |p| && p[i].eventId == e && p[i].sortOrder == m.value
  {
    if p == [] then None
    else
      var rest := MaxSortOrder(p[1..], e);
      assert forall i :: 1 <= i < |p| ==> p[i] == p[1..][i - 1];
      if rest.Some? && (p[0].eventId != e || p[0].sortOrder < rest.value) then
        var k :| 0 <= k < |p[1..]| && p[1..][k].eventId == e && p[1..][k].sortOrder == rest.value;
        assert p[k + 1] == p[1..][k];
        rest
      else if p[0].eventId == e then Some(p[0].sortOrder)
      else None
  }

  /** The sort order a newly appended block gets: one above the event's largest, or 0 when the
      event has no block (`order desc limit 1`, then `+ 1`). */
  function NextSortOrder(p: seq<Block>, e: string): (n: int)
    ensures (forall i :: 0 <= i < |p| ==> p[i].eventId != e) ==> n == 0
    ensures forall i :: 0 <= i < |p| && p[i].eventId == e ==> p[i].sortOrder < n
    ensures (exists i :: 0 <= i < |p| && p[i].eventId == e) ==>
      exists i :: 0 <= i < |p| && p[i].eventId == e && n == p[i].sortOrder + 1
  {
    var m := MaxSortOrder(p, e);
    if m.None? then 0 else m.value + 1
  }

  /** The position of the row with id `id` in event `e`, or -1. */
  function IndexOf(p: seq<Block>, id: string, e: string): (k: int)
    ensures -1 <= k < |p|
    ensures k >= 0 ==> p[k].id == id && p[k].eventId == e
    ensures k == -1 <==> forall i :: 0 <= i < |p| ==> !(p[i].id == id && p[i].eventId == e)
  {
    if p == [] then -1
    else if p[0].id == id && p[0].eventId == e then 0
    else
      var k := IndexOf(p[1..], id, e);
      assert forall i :: 1 <= i < |p| ==> p[i] == p[1..][i - 1];
      if k == -1 then -1 else k + 1
  }

  /** The first row with id `id`, in any event, or -1. */
  function IndexById(p: seq<Block>, id: string): (k: int)
    ensures -1 <= k < |p|
    ensures k >= 0 ==> p[k].id == id
    ensures k == -1 <==> forall i :: 0 <= i < |p| ==> p[i].id != id
  {
    if p == [] then -1
    else if p[0].id == id then 0
    else
      var k := IndexById(p[1..], id);
      assert forall i :: 1 <= i < |p| ==> p[i] == p[1..][i - 1];
      if k == -1 then -1 else k + 1
  }

  /** Two tables with the same rows' ids, events and sort orders, position by position. */
  predicate SameKeys(p: seq<Block>, q: seq<Block>) {
    |p| == |q| &&
    forall i :: 0 <= i < |p| ==>
      q[i].id == p[i].id && q[i].eventId == p[i].eventId && q[i].sortOrder == p[i].sortOrder
  }

  lemma SameKeysUnique(p: seq<Block>, q: seq<Block>)
    requires SameKeys(p, q) && UniqueIds(p)
    ensures UniqueIds(q)
  {
    forall i, j | 0 <= i < j < |q| ensures q[i].id != q[j].id {
      assert q[i].id == p[i].id && q[j].id == p[j].id;
    }
  }

  /** With unique ids, looking a row up by its own id and event finds that row. */
  lemma IndexOfFindsRow(p: seq<Block>, k: int)
    requires UniqueIds(p) && 0 <= k < |p|
    ensures IndexOf(p, p[k].id, p[k].eventId) == k
    ensures IndexById(p, p[k].id) == k
  {
    var a := IndexOf(p, p[k].id, p[k].eventId);
    var b := IndexById(p, p[k].id);
    assert a != -1 && b != -1;
    assert p[a].id == p[k].id && p[b].id == p[k].id;
  }

  // ---------------------------------------------------------------------------
  // Row updates (`update(...).eq("id", id)` writes every row with that id)
  // ---------------------------------------------------------------------------

  function MarkCompleted(b: Block, now: int): Block {
    b.(status := Completed, completedAt := Some(now))
  }

  function MarkActivated(b: Block, now: int): Block {
    b.(status := Active, startedAt := Some(now))
  }

  function CompleteById(p: seq<Block>, id: string, now: int): (r: seq<Block>)
    ensures |r| == |p|
    ensures forall i :: 0 <= i < |p| ==> r[i] == if p[i].id == id then MarkCompleted(p[i], now) else p[i]
    ensures SameKeys(p, r)
  {
    seq(|p|, i requires 0 <= i < |p| => if p[i].id == id then MarkCompleted(p[i], now) else p[i])
  }

  function ActivateById(p: seq<Block>, id: string, now: int): (r: seq<Block>)
    ensures |r| == |p|
    ensures forall i :: 0 <= i < |p| ==> r[i] == if p[i].id == id then MarkActivated(p[i], now) else p[i]
    ensures SameKeys(p, r)
  {
    seq(|p|, i requires 0 <= i < |p| => if p[i].id == id then MarkActivated(p[i], now) else p[i])
  }
}

=== FILE: display_view.dfy ===
/** The projector page of a live event (`src/components/event/DisplayView.tsx`) and the game
    screen it shows for a game block (`src/components/display/GameDisplay.tsx`). */
module DisplayView {
  import opened Common
  import opened GameStore

  /** The players counted on screen: those not flagged as a display (`!p.is_display`). */
  function NonDisplayPlayers(players: seq<OnlinePlayer>): (r: seq<OnlinePlayer>)
    ensures |r| <= |players|
    ensures forall p :: p in r <==> p in players && p.isDisplay != Some(true)
  {
    if players == [] then []
    else (if players[0].isDisplay != Some(true) then [players[0]] else []) + NonDisplayPlayers(players[1..])
  }

  /** The filter distributes over concatenation, so every kept row is kept as often as it
      occurs, in order. */
  lemma {:induction false} NonDisplayPlayersAppend(a: seq<OnlinePlayer>, b: seq<OnlinePlayer>)
    ensures NonDisplayPlayers(a + b) == NonDisplayPlayers(a) + NonDisplayPlayers(b)
    decreases |a|
  {
    if a == [] {
      assert a + b == b;
    } else {
      assert (a + b)[0] == a[0] && (a + b)[1..] == a[1..] + b;
      NonDisplayPlayersAppend(a[1..], b);
    }
  }

  /** A single player is kept exactly when it is not flagged as a display. */
  lemma NonDisplayPlayersOne(x: OnlinePlayer)
    ensures NonDisplayPlayers([x]) == if x.isDisplay != Some(true) then [x] else []
  {
    assert [x][1..] == [];
  }

  /** The presence key the projector joins with: "display-" and the first eight characters of
      the event id. */
  function DisplayAttendeeId(eventId: string): (id: string)
    ensures |id| == 8 + (if |eventId| < 8 then |eventId| else 8)
    ensures id[..8] == "display-" && id[8..] == eventId[..|id| - 8]
  {
    "display-" + Take(eventId, 8)
  }

  /** The initial achievements are written to the store only when there are some; the score
      defaults to 0. */
  method HydrateAchievements(store: Store, initial: Option<seq<Achievement>>, initialScore: Option<int>)
    modifies store
    ensures initial.Some? && |initial.value| > 0 ==>
      store.State() == old(store.State()).(achievements := initial.value,
                                           legendaryScore := if initialScore.Some? then initialScore.value else 0)
    ensures !(initial.Some? && |initial.value| > 0) ==> store.State() == old(store.State())
  {
    if initial.Some? && |initial.value| > 0 {
      store.SetAchievements(initial.value, if initialScore.Some? then initialScore.value else 0);
    }
  }

  datatype Screen =
    | Welcome(onlineCount: int)
    | GameScreen(block: ActiveBlock)
    | Slideshow(block: ActiveBlock)
    | MessageWall(block: ActiveBlock)
    | Legendary
    | Custom(block: ActiveBlock)

  /** The screen for the active block: the welcome screen without one, else by block type, an
      unknown type falling back to the custom screen. */
  function ScreenFor(activeBlock: Option<ActiveBlock>, players: seq<OnlinePlayer>): (s: Screen)
    ensures activeBlock.None? <==> s.Welcome?
    ensures s.Welcome? ==> s.onlineCount == |NonDisplayPlayers(players)|
    ensures activeBlock.Some? ==> var kind := activeBlock.value.kind;
      (s.GameScreen? <==> kind == "game") && (s.Slideshow? <==> kind == "slideshow") &&
      (s.MessageWall? <==> kind == "message_wall") && (s.Legendary? <==> kind == "legendary") &&
      (s.Custom? <==> kind != "game" && kind != "slideshow" && kind != "message_wall" && kind != "legendary")
    ensures activeBlock.Some? && !s.Legendary? ==> s.block == activeBlock.value
  {
    match activeBlock
    case None => Welcome(|NonDisplayPlayers(players)|)
    case Some(b) =>
      if b.kind == "game" then GameScreen(b)
      else if b.kind == "slideshow" then Slideshow(b)
      else if b.kind == "message_wall" then MessageWall(b)
      else if b.kind == "legendary" then Legendary
      else Custom(b)
  }
}

module GameDisplay {
  import opened Common
  import opened GameStore

  datatype GameScreen = WhoAmIProjector | Preparing(title: string)

  /** Only "who-am-i" has a projector screen; every other slug, or none, shows the block title. */
  function GameScreenFor(block: ActiveBlock): (s: GameScreen)
    ensures s.WhoAmIProjector? <==> block.gameSlug == Some("who-am-i")
    ensures s.Preparing? ==> s.title == block.title
  {
    if block.gameSlug == Some("who-am-i") then WhoAmIProjector else Preparing(block.title)
  }
}

=== FILE: event_channel.dfy ===
/** The realtime channel of one event (`src/hooks/useEventChannel.ts`): presence becomes the
    store's roster, `game_command` broadcasts are routed to store actions, `vote_cast`
    broadcasts are counted on moderator and display clients, and the two senders wrap their
    arguments in envelopes. The transport itself is not modelled; sent envelopes are logged. */
module EventChannel {
  import opened Common
  import opened GameStore

  /** A two-truths round as the moderator broadcasts it (`TwoTruthsRoundData`). */
  datatype LieRound = LieRound(
    statements: seq<string>,
    correctLieIndex: int,
    playerName: string,
    playerId: string,
    round: int,
    total: int)

  /** The `data` of a command, one shape per action that carries data. */
  datatype CommandData =
    | NoData
    | FactData(round: int, total: int, fact: RoundData)
    | ResultsData(correctAttendeeId: string, votes: Record)
    | ScoresData(scores: Record)
    | PhaseData(phase: Phase)
    | BlockData(block: ActiveBlock)
    | LieRoundData(lieRound: LieRound, phaseText: string)
    | LieResultsData(lieRound: LieRound, votes: Record)

  datatype Command = Command(action: string, data: CommandData)

  /** The actions the dispatcher knows. */
  predicate Routed(action: string) {
    action == "start_collecting" || action == "show_fact" || action == "show_results" ||
    action == "update_scores" || action == "finish" || action == "set_phase" ||
    action == "block_activate" || action == "block_deactivate"
  }

  /** The dispatcher reads its fields from `data` without checking them; the model only follows
      commands whose data has the fields their action reads. */
  predicate WellFormed(cmd: Command) {
    (cmd.action == "show_fact" ==> cmd.data.FactData?) &&
    (cmd.action == "show_results" ==> cmd.data.ResultsData?) &&
    (cmd.action == "update_scores" ==> cmd.data.ScoresData?) &&
    (cmd.action == "set_phase" ==> cmd.data.PhaseData?) &&
    (cmd.action == "block_activate" ==> cmd.data.BlockData?)
  }

  // ---------------------------------------------------------------------------
  // Presence
  // ---------------------------------------------------------------------------

  /** One tracked presence entry. */
  datatype PresenceMeta = PresenceMeta(attendeeId: string, displayName: string, avatarSeed: string, isDisplay: Option<bool>)

  /** `Object.values(state).flat()`. */
  function Flatten(state: seq<seq<PresenceMeta>>): seq<PresenceMeta> {
    if state == [] then [] else state[0] + Flatten(state[1..])
  }

  /** Every presence entry of every key becomes one player, in order; the avatar seed is
      recomputed as the first 8 characters of the attendee id. */
  function Roster(state: seq<seq<PresenceMeta>>): (r: seq<OnlinePlayer>)
    ensures |r| == |Flatten(state)|
    ensures forall i :: 0 <= i < |r| ==>
      var m := Flatten(state)[i];
      r[i].attendeeId == m.attendeeId && r[i].displayName == m.displayName && r[i].isDisplay == m.isDisplay &&
      |r[i].avatarSeed| == (if |m.attendeeId| < 8 then |m.attendeeId| else 8) &&
      r[i].avatarSeed == m.attendeeId[..|r[i].avatarSeed|]
  {
    var f := Flatten(state);
    seq(|f|, i requires 0 <= i < |f| =>
      OnlinePlayer(f[i].attendeeId, f[i].displayName, Take(f[i].attendeeId, 8), f[i].isDisplay))
  }

  method OnPresenceSync(store: Store, state: seq<seq<PresenceMeta>>)
    modifies store
    ensures store.State() == old(store.State()).(onlinePlayers := Roster(state))
  {
    store.SetOnlinePlayers(Roster(state));
  }

  // ---------------------------------------------------------------------------
  // game_command
  // ---------------------------------------------------------------------------

  method Dispatch(store: Store, cmd: Command)
    requires WellFormed(cmd)
    modifies store
    ensures cmd.action == "start_collecting" ==> store.State() == old(store.State()).(phase := Collecting, myVote := None)
    ensures cmd.action == "finish" ==> store.State() == old(store.State()).(phase := Finished, myVote := None)
    ensures cmd.action == "set_phase" ==> store.State() == old(store.State()).(phase := cmd.data.phase, myVote := None)
    ensures cmd.action == "show_fact" ==>
      store.State() == old(store.State()).(phase := Voting, currentRound := cmd.data.round, totalRounds := cmd.data.total,
                                           currentFact := Some(cmd.data.fact), votes := [], myVote := None)
    ensures cmd.action == "show_results" ==> store.State() == old(store.State()).(phase := Results, votes := cmd.data.votes)
    ensures cmd.action == "update_scores" ==> store.State() == old(store.State()).(scores := cmd.data.scores)
    ensures cmd.action == "block_activate" ==> store.State() == old(store.State()).(activeBlock := Some(cmd.data.block), phase := Lobby)
    ensures cmd.action == "block_deactivate" ==> store.State() == Initial
    ensures !Routed(cmd.action) ==> store.State() == old(store.State())
  {
    match cmd.action
    case "start_collecting" => store.SetPhase(Collecting);
    case "show_fact" => store.ShowFact(cmd.data.round, cmd.data.total, cmd.data.fact);
    case "show_results" => store.ShowResults(cmd.data.correctAttendeeId, cmd.data.votes);
    case "update_scores" => store.UpdateScores(cmd.data.scores);
    case "finish" => store.SetPhase(Finished);
    case "set_phase" => store.SetPhase(cmd.data.phase);
    case "block_activate" => store.SetActiveBlock(cmd.data.block);
    case "block_deactivate" =>
      store.ClearActiveBlock();
      store.Reset();
    case _ =>
  }

  // ---------------------------------------------------------------------------
  // vote_cast
  // ---------------------------------------------------------------------------

  /** `{ ...votes, [k]: (votes[k] || 0) + 1 }`. */
  function Tally(votes: Record, k: string): (r: Record)
    ensures GetOr0(r, k) == GetOr0(votes, k) + 1
    ensures forall k' :: k' != k ==> Get(r, k') == Get(votes, k')
  {
    Put(votes, k, GetOr0(votes, k) + 1)
  }

  /** A counted vote raises the total by exactly one and keeps the tally a proper record. */
  lemma TallyAddsOne(votes: Record, k: string)
    requires DistinctKeys(votes)
    ensures DistinctKeys(Tally(votes, k))
    ensures SumValues(Tally(votes, k)) == SumValues(votes) + 1
  {
    PutKeepsKeysDistinct(votes, k, GetOr0(votes, k) + 1);
    SumAfterPut(votes, k, GetOr0(votes, k) + 1);
  }

  /** Only moderator and display clients keep a live tally. */
  method OnVoteCast(store: Store, isModerator: bool, isDisplay: bool, votedFor: string)
    modifies store
    ensures isModerator || isDisplay ==> store.State() == old(store.State()).(votes := Tally(old(store.votes), votedFor))
    ensures !(isModerator || isDisplay) ==> store.State() == old(store.State())
  {
    if isModerator || isDisplay {
      var votes := store.votes;
      store.UpdateVotes(Tally(votes, votedFor));
    }
  }

  // ---------------------------------------------------------------------------
  // Senders
  // ---------------------------------------------------------------------------

  datatype Envelope =
    | CommandEnvelope(action: string, data: CommandData)
    | VoteEnvelope(votedFor: string, voter: string)

  /** A broadcast: the event name and its payload. */
  datatype Broadcast = Broadcast(event: string, payload: Envelope)

  /** The log after one `sendCommand` on a channel that is or is not connected. */
  function Emit(connected: bool, sent: seq<Broadcast>, action: string, data: CommandData): (r: seq<Broadcast>)
    ensures connected ==> |r| == |sent| + 1 && r[..|sent|] == sent && r[|sent|].payload == CommandEnvelope(action, data)
    ensures connected ==> r[|sent|].event == "game_command"
    ensures !connected ==> r == sent
  {
    if connected then sent + [Broadcast("game_command", CommandEnvelope(action, data))] else sent
  }

  /** The client's handle on the channel: whether it is subscribed, and what it has sent. */
  class Channel {
    const attendeeId: string
    var connected: bool
    var sent: seq<Broadcast>

    constructor (attendeeId: string)
      ensures this.attendeeId == attendeeId && !connected && sent == []
    {
      this.attendeeId := attendeeId;
      connected := false;
      sent := [];
    }

    /** The effect that subscribes also stores the channel in the ref. */
    method Open()
      modifies this
      ensures connected && sent == old(sent)
    {
      connected := true;
    }

    /** The cleanup removes the channel and clears the ref. */
    method Close()
      modifies this
      ensures !connected && sent == old(sent)
    {
      connected := false;
    }

    /** Sends `{action, data}` on `game_command`; without a channel nothing is sent. */
    method SendCommand(action: string, data: CommandData)
      modifies this
      ensures connected == old(connected)
      ensures sent == Emit(connected, old(sent), action, data)
    {
      if connected {
        sent := sent + [Broadcast("game_command", CommandEnvelope(action, data))];
      }
    }

    /** Sends `{voted_for, voter}` on `vote_cast`, the voter being this client's attendee. */
    method SendVote(votedFor: string)
      modifies this
      ensures connected == old(connected)
      ensures connected ==> sent == old(sent) + [Broadcast("vote_cast", VoteEnvelope(votedFor, attendeeId))]
      ensures !connected ==> sent == old(sent)
    {
      if connected {
        sent := sent + [Broadcast("vote_cast", VoteEnvelope(votedFor, attendeeId))];
      }
    }
  }
}

=== FILE: events.dfy ===
/** Event server actions (`src/app/actions/events.ts`): the slug built from a title, and
    creating, updating and deleting an event. */
module Events {
  import opened Common
  import opened Db

  const TitleRequired := "Nazev je povinny"
  const MaxSlugLength := 60

  // ---------------------------------------------------------------------------
  // slugify
  // ---------------------------------------------------------------------------

  /** `[a-z0-9]` */
  predicate IsSlugChar(c: char) {
    ('a' <= c <= 'z') || ('0' <= c <= '9')
  }

  predicate SlugAlphabet(s: string) {
    forall i :: 0 <= i < |s| ==> IsSlugChar(s[i]) || s[i] == '-'
  }

  predicate NoDoubleHyphen(s: string) {
    forall i, j :: 0 <= i < |s| && 0 <= j < |s| && j == i + 1 ==> !(s[i] == '-' && s[j] == '-')
  }

  /** `toLowerCase` on the ASCII letters; other characters are kept. */
  function LowerAscii(s: string): (r: string)
    ensures |r| == |s|
    ensures forall i :: 0 <= i < |s| ==> (r[i] == s[i] || ('A' <= s[i] <= 'Z' && r[i] == s[i] - 'A' + 'a'))
    ensures forall i :: 0 <= i < |s| ==> !('A' <= r[i] <= 'Z')
  {
    if s == [] then []
    else [if 'A' <= s[0] <= 'Z' then s[0] - 'A' + 'a' else s[0]] + LowerAscii(s[1..])
  }

  /** Drops the leading characters outside `[a-z0-9]`. */
  function DropSeparators(s: string): (r: string)
    ensures |r| <= |s| && r == s[|s| - |r|..]
    ensures r == [] || IsSlugChar(r[0])
  {
    if s == [] || IsSlugChar(s[0]) then s else DropSeparators(s[1..])
  }

  /** `replace(/[^a-z0-9]+/g, "-")`: each maximal run of other characters becomes one hyphen. */
  function CollapseRuns(s: string): (r: string)
    decreases |s|
    ensures SlugAlphabet(r) && NoDoubleHyphen(r)
    ensures s != [] && IsSlugChar(s[0]) ==> r != [] && r[0] == s[0]
    ensures s != [] && !IsSlugChar(s[0]) ==> r != [] && r[0] == '-'
    ensures s == [] <==> r == []
  {
    if s == [] then []
    else if IsSlugChar(s[0]) then [s[0]] + CollapseRuns(s[1..])
    else ['-'] + CollapseRuns(DropSeparators(s[1..]))
  }

  /** `replace(/(^-|-$)/g, "")`: one hyphen off the front and one off the end. */
  function TrimHyphens(s: string): (r: string)
    ensures |r| <= |s| <= |r| + 2
    ensures var k := if s != [] && s[0] == '-' then 1 else 0;
      k + |r| <= |s| && r == s[k..k + |r|] && (k + |r| < |s| ==> s[|s| - 1] == '-')
    ensures NoDoubleHyphen(s) ==> r == [] || (r[0] != '-' && r[|r| - 1] != '-')
    ensures s != [] && s[0] != '-' && s[|s| - 1] != '-' ==> r == s
  {
    var a := if s != [] && s[0] == '-' then s[1..] else s;
    if a != [] && a[|a| - 1] == '-' then a[..|a| - 1] else a
  }

  /** slugify over ASCII text (see README for what the Unicode steps would add). */
  function Slugify(text: string): (slug: string)
    ensures |slug| <= MaxSlugLength
    ensures SlugAlphabet(slug) && NoDoubleHyphen(slug)
    ensures slug == [] || slug[0] != '-'
  {
    var collapsed := CollapseRuns(LowerAscii(text));
    var trimmed := TrimHyphens(collapsed);
    SlugShapeKept(collapsed, trimmed);
    Take(trimmed, MaxSlugLength)
  }

  lemma SlugShapeKept(collapsed: string, trimmed: string)
    requires SlugAlphabet(collapsed) && NoDoubleHyphen(collapsed)
    requires trimmed == TrimHyphens(collapsed)
    ensures SlugAlphabet(trimmed) && NoDoubleHyphen(trimmed)
    ensures trimmed == [] || trimmed[0] != '-'
  {
    var a := if collapsed != [] && collapsed[0] == '-' then collapsed[1..] else collapsed;
    assert a == [] || a[0] != '-' by {
      if collapsed != [] && collapsed[0] == '-' && |collapsed| > 1 {
        assert collapsed[1] != '-';
      }
    }
  }

  /** A string already in slug form (lower-case letters and digits, single inner hyphens, at
      most 60 characters) is its own slug. */
  lemma SlugFixedPoint(s: string)
    requires forall i :: 0 <= i < |s| ==> IsSlugChar(s[i]) || s[i] == '-'
    requires NoDoubleHyphen(s)
    requires s == [] || (s[0] != '-' && s[|s| - 1] != '-')
    requires |s| <= MaxSlugLength
    ensures Slugify(s) == s
  {
    LowerAsciiKeepsSlug(s);
    CollapseKeepsSlug(s);
    assert TrimHyphens(CollapseRuns(LowerAscii(s))) == s;
  }

  lemma LowerAsciiKeepsSlug(s: string)
    requires forall i :: 0 <= i < |s| ==> !('A' <= s[i] <= 'Z')
    ensures LowerAscii(s) == s
  {
  }

  lemma {:induction false} CollapseKeepsSlug(s: string)
    requires SlugAlphabet(s) && NoDoubleHyphen(s)
    ensures CollapseRuns(s) == s
    decreases |s|
  {
    if s != [] {
      assert SlugAlphabet(s[1..]) && NoDoubleHyphen(s[1..]) by {
        forall i, j | 0 <= i < |s[1..]| && 0 <= j < |s[1..]| && j == i + 1 ensures !(s[1..][i] == '-' && s[1..][j] == '-') {
          assert s[1..][i] == s[i + 1] && s[1..][j] == s[j + 1];
        }
      }
      if !IsSlugChar(s[0]) {
        assert s[1..] == [] || IsSlugChar(s[1]);
        assert DropSeparators(s[1..]) == s[1..];
      }
      CollapseKeepsSlug(s[1..]);
    }
  }

  /** The 60-character cut can leave a trailing hyphen: 59 letters or digits, a space and one
      more letter or digit give a slug that ends in the hyphen the space became. */
  lemma CutCanEndInHyphen(x: string, c: char)
    requires |x| == 59 && forall i :: 0 <= i < |x| ==> IsSlugChar(x[i])
    requires IsSlugChar(c)
    ensures var slug := Slugify(x + [' ', c]);
      |slug| == MaxSlugLength && slug[MaxSlugLength - 1] == '-'
  {
    var text := x + [' ', c];
    var collapsed := x + ['-', c];
    assert LowerAscii(text) == text by {
      assert forall i :: 0 <= i < |x| ==> text[i] == x[i];
      assert text[59] == ' ' && text[60] == c;
      LowerAsciiKeepsSlug(text);
    }
    assert CollapseRuns(text) == collapsed by {
      CollapsePrefix(x, [' ', c]);
      CollapseSpace(c);
    }
    assert TrimHyphens(collapsed) == collapsed by {
      assert collapsed[0] == x[0] && collapsed[60] == c;
      TrimKeeps(collapsed);
    }
    assert Slugify(text) == collapsed[..MaxSlugLength];
    assert collapsed[MaxSlugLength - 1] == '-';
  }

  lemma CollapseSpace(c: char)
    requires IsSlugChar(c)
    ensures CollapseRuns([' ', c]) == ['-', c]
  {
    assert [' ', c][1..] == [c];
    assert [c][1..] == [];
    assert !IsSlugChar(' ');
    var d := DropSeparators([c]);
    assert d == [c];
    assert CollapseRuns([c]) == [c] + CollapseRuns([]);
    assert CollapseRuns([' ', c]) == ['-'] + CollapseRuns(d);
  }

  lemma TrimKeeps(s: string)
    requires s != [] && s[0] != '-' && s[|s| - 1] != '-'
    ensures TrimHyphens(s) == s
  {
  }

  /** A prefix made of `[a-z0-9]` passes through unchanged in front of the rest. */
  lemma {:induction false} CollapsePrefix(x: string, y: string)
    requires forall i :: 0 <= i < |x| ==> IsSlugChar(x[i])
    ensures CollapseRuns(x + y) == x + CollapseRuns(y)
    decreases |x|
  {
    if x != [] {
      assert (x + y)[0] == x[0] && (x + y)[1..] == x[1..] + y;
      assert IsSlugChar(x[0]);
      assert CollapseRuns(x + y) == [x[0]] + CollapseRuns(x[1..] + y);
      CollapsePrefix(x[1..], y);
      assert x == [x[0]] + x[1..];
    } else {
      assert x + y == y;
    }
  }

  // ---------------------------------------------------------------------------
  // Base-36 timestamps
  // ---------------------------------------------------------------------------

  function Base36Digit(d: nat): (c: char)
    requires d < 36
    ensures IsSlugChar(c)
  {
    if d < 10 then '0' + d as char else 'a' + (d - 10) as char
  }

  /** `n.toString(36)` for a whole number. */
  function Base36(n: nat): (r: string)
    ensures r != []
    ensures forall i :: 0 <= i < |r| ==> IsSlugChar(r[i])
  {
    if n < 36 then [Base36Digit(n)] else Base36(n / 36) + [Base36Digit(n % 36)]
  }

  function Base36Value(s: string): nat {
    if s == [] then 0
    else
      var c := s[|s| - 1];
      Base36Value(s[..|s| - 1]) * 36 + (if '0' <= c <= '9' then c as int - '0' as int
                                        else if 'a' <= c <= 'z' then c as int - 'a' as int + 10 else 0)
  }

  /** The base-36 text reads back as the timestamp. */
  lemma {:induction false} Base36RoundTrip(n: nat)
    ensures Base36Value(Base36(n)) == n
  {
    if n >= 36 {
      Base36RoundTrip(n / 36);
      var r := Base36(n);
      assert r[..|r| - 1] == Base36(n / 36);
    }
  }

  /** The slug a new event gets: the title's slug, a hyphen, and the creation time in base 36. */
  function EventSlug(title: string, now: nat): (slug: string)
    ensures SlugAlphabet(slug)
    ensures |slug| > |Slugify(title)| + 1
    ensures slug[..|Slugify(title)| + 1] == Slugify(title) + "-"
    ensures Base36Value(slug[|Slugify(title)| + 1..]) == now
  {
    var s := Slugify(title) + "-" + Base36(now);
    assert s[|Slugify(title)| + 1..] == Base36(now);
    Base36RoundTrip(now);
    s
  }

  // ---------------------------------------------------------------------------
  // Create, update, delete
  // ---------------------------------------------------------------------------

  /** `value?.trim() || null`: an absent or blank text is stored as null. */
  function TrimmedOrNull(s: Option<string>): (r: Option<string>)
    ensures r.Some? <==> s.Some? && Trim(s.value) != []
    ensures r.Some? ==> r.value == Trim(s.value)
  {
    if s.Some? && Trim(s.value) != [] then Some(Trim(s.value)) else None
  }

  /** `value || null`: an absent or empty text is stored as null (without trimming). */
  function EmptyAsNull(s: Option<string>): (r: Option<string>)
    ensures r.Some? <==> s.Some? && s.value != []
    ensures r.Some? ==> r.value == s.value
  {
    if s.Some? && s.value != [] then s else None
  }

  /** createEventAction: sign-in, a non-blank title, then one new event row owned by the user;
      the result is the dashboard path of the new event. The insert leaves `is_active` and
      `live_code` to their column defaults, taken here as inactive and none. */
  method CreateEvent(db: Database, user: Option<string>, title: string, description: Option<string>,
                     eventDate: Option<string>, newId: string, now: nat, insertError: Option<string>)
    returns (r: Outcome<string>)
    modifies db`events
    ensures user.None? ==> r == Err(Unauthorized)
    ensures user.Some? && Trim(title) == [] ==> r == Err(TitleRequired)
    ensures user.Some? && Trim(title) != [] && insertError.Some? ==> r == Err(insertError.value)
    ensures r.Ok? <==> user.Some? && Trim(title) != [] && insertError.None?
    ensures r.Err? ==> db.events == old(db.events)
    ensures r.Ok? ==> r.value == "/dashboard/" + newId
    ensures r.Ok? ==> db.events == old(db.events) + [Event(newId, user.value, Trim(title),
      TrimmedOrNull(description), EmptyAsNull(eventDate), EventSlug(Trim(title), now), false, None)]
  {
    if user.None? {
      return Err(Unauthorized);
    }
    var t := Trim(title);
    if t == [] {
      return Err(TitleRequired);
    }
    if insertError.Some? {
      return Err(insertError.value);
    }
    var e := Event(newId, user.value, t, TrimmedOrNull(description), EmptyAsNull(eventDate),
                   EventSlug(t, now), false, None);
    db.events := db.events + [e];
    r := Ok("/dashboard/" + newId);
  }

  /** `.eq("id", eventId).eq("creator_id", userId)` */
  predicate Targets(e: Event, eventId: string, userId: string) {
    e.id == eventId && e.creatorId == userId
  }

  /** updateEventAction: sign-in and a non-blank title; only rows with this id and this
      creator take the new title, description and date. No matching row is not an error. */
  method UpdateEvent(db: Database, user: Option<string>, eventId: string, title: string,
                     description: Option<string>, eventDate: Option<string>, updateError: Option<string>)
    returns (r: Outcome<()>)
    modifies db`events
    ensures user.None? ==> r == Err(Unauthorized)
    ensures user.Some? && Trim(title) == [] ==> r == Err(TitleRequired)
    ensures user.Some? && Trim(title) != [] && updateError.Some? ==> r == Err(updateError.value)
    ensures r.Ok? <==> user.Some? && Trim(title) != [] && updateError.None?
    ensures r.Err? ==> db.events == old(db.events)
    ensures |db.events| == |old(db.events)|
    ensures r.Ok? ==> forall i :: 0 <= i < |db.events| ==>
      db.events[i] == if Targets(old(db.events)[i], eventId, user.value)
                      then old(db.events)[i].(title := Trim(title), description := TrimmedOrNull(description),
                                             eventDate := EmptyAsNull(eventDate))
                      else old(db.events)[i]
  {
    if user.None? {
      return Err(Unauthorized);
    }
    var t := Trim(title);
    if t == [] {
      return Err(TitleRequired);
    }
    if updateError.Some? {
      return Err(updateError.value);
    }
    var d, date := TrimmedOrNull(description), EmptyAsNull(eventDate);
    var old_ := db.events;
    db.events := seq(|old_|, i requires 0 <= i < |old_| =>
      if Targets(old_[i], eventId, user.value) then old_[i].(title := t, description := d, eventDate := date)
      else old_[i]);
    r := Ok(());
  }

  function WithoutOwned(events: seq<Event>, eventId: string, userId: string): (r: seq<Event>)
    ensures forall e :: e in r <==> e in events && !Targets(e, eventId, userId)
    ensures |r| <= |events|
  {
    if events == [] then []
    else
      var rest := WithoutOwned(events[1..], eventId, userId);
      assert events == [events[0]] + events[1..];
      if Targets(events[0], eventId, userId) then rest else [events[0]] + rest
  }

  /** deleteEventAction: sign-in, then the rows with this id and this creator are deleted; the
      result is the dashboard path. Another organiser's event is never deleted. */
  method DeleteEvent(db: Database, user: Option<string>, eventId: string, deleteError: Option<string>)
    returns (r: Outcome<string>)
    modifies db`events
    ensures r.Err? <==> user.None? || deleteError.Some?
    ensures user.None? ==> r == Err(Unauthorized)
    ensures user.Some? && deleteError.Some? ==> r == Err(deleteError.value)
    ensures r.Err? ==> db.events == old(db.events)
    ensures r.Ok? ==> r.value == "/dashboard"
    ensures r.Ok? ==> db.events == WithoutOwned(old(db.events), eventId, user.value)
    ensures r.Ok? ==> forall e :: e in old(db.events) && e.creatorId != user.value ==> e in db.events
  {
    if user.None? {
      return Err(Unauthorized);
    }
    if deleteError.Some? {
      return Err(deleteError.value);
    }
    db.events := WithoutOwned(db.events, eventId, user.value);
    r := Ok("/dashboard");
  }
}

=== FILE: game_registry.dfy ===
/** The game-module registry (`src/lib/game-modules/registry.ts`): a constant table from game
    slug to the module that renders that game. */
module GameRegistry {
  import opened Common

  datatype GameModule = WhoAmIModule | TwoTruthsModule

  /** `GAME_MODULES`. */
  const Modules: map<string, GameModule> := map["who-am-i" := WhoAmIModule, "two-truths" := TwoTruthsModule]

  /** `loadGameModule`: the module of a registered slug, nothing for any other. */
  function LoadGameModule(slug: string): (m: Option<GameModule>)
    ensures m.Some? <==> slug in Modules
    ensures m.Some? ==> m.value == Modules[slug]
  {
    if slug in Modules then Some(Modules[slug]) else None
  }

  /** `hasGameModule`, for own keys of the table. */
  function HasGameModule(slug: string): (b: bool)
    ensures b <==> LoadGameModule(slug).Some?
  {
    slug in Modules
  }

  /** Exactly the two games are registered, each with its own module. */
  lemma RegisteredGames()
    ensures Modules.Keys == {"who-am-i", "two-truths"}
    ensures LoadGameModule("who-am-i") == Some(WhoAmIModule)
    ensures LoadGameModule("two-truths") == Some(TwoTruthsModule)
    ensures forall s :: s != "who-am-i" && s != "two-truths" ==> LoadGameModule(s).None?
  {
  }
}

=== FILE: game_store.dfy ===
/** The client-side session store (`src/stores/game-store.ts`): one mutable object whose
    actions overwrite some of its fields. `State()` reads all fields at once. */
module GameStore {
  import opened Common

  datatype Phase = Lobby | Collecting | Playing | Voting | Results | Finished

  datatype FactOption = FactOption(attendeeId: string, name: string)

  /** The who-am-i round on screen: the fact, whose it is, and the names to choose from. */
  datatype RoundData = RoundData(fact: string, correctAttendeeId: string, options: seq<FactOption>)

  datatype OnlinePlayer = OnlinePlayer(attendeeId: string, displayName: string, avatarSeed: string, isDisplay: Option<bool>)

  datatype Achievement = Achievement(id: string, achievementType: string, title: string, points: int, awardedAt: string)

  /** Free-form block configuration, kept as opaque key/value text. */
  type Config = seq<(string, string)>

  /** The block on the projector. `kind` is the broadcast's type text, not checked against the
      five known kinds. */
  datatype ActiveBlock = ActiveBlock(id: string, kind: string, title: string, gameSlug: Option<string>, config: Option<Config>)

  datatype GameState = GameState(
    eventId: Option<string>,
    programId: Option<string>,
    phase: Phase,
    currentRound: int,
    totalRounds: int,
    currentFact: Option<RoundData>,
    votes: Record,
    scores: Record,
    myVote: Option<string>,
    myFactSubmitted: bool,
    activeBlock: Option<ActiveBlock>,
    achievements: seq<Achievement>,
    legendaryScore: int,
    onlinePlayers: seq<OnlinePlayer>)

  /** initialState. */
  const Initial := GameState(None, None, Lobby, 0, 0, None, [], [], None, false, None, [], 0, [])

  function SumPoints(achievements: seq<Achievement>): int {
    if achievements == [] then 0 else achievements[0].points + SumPoints(achievements[1..])
  }

  /** The Legendaryness score agrees with the achievements it was built from. */
  predicate ScoreConsistent(s: GameState) {
    s.legendaryScore == SumPoints(s.achievements)
  }

  lemma {:induction false} SumPointsAppend(achievements: seq<Achievement>, a: Achievement)
    ensures SumPoints(achievements + [a]) == SumPoints(achievements) + a.points
    decreases |achievements|
  {
    if achievements != [] {
      assert (achievements + [a])[1..] == achievements[1..] + [a];
      SumPointsAppend(achievements[1..], a);
    }
  }

  /** The initial state is consistent, and appending an achievement while adding its points to
      the score keeps any state consistent. */
  lemma ScoreConsistentPreserved(s: GameState, a: Achievement)
    ensures ScoreConsistent(Initial)
    ensures ScoreConsistent(s) ==>
      ScoreConsistent(s.(achievements := s.achievements + [a], legendaryScore := s.legendaryScore + a.points))
  {
    SumPointsAppend(s.achievements, a);
  }

  class Store {
    var eventId: Option<string>
    var programId: Option<string>
    var phase: Phase
    var currentRound: int
    var totalRounds: int
    var currentFact: Option<RoundData>
    var votes: Record
    var scores: Record
    var myVote: Option<string>
    var myFactSubmitted: bool
    var activeBlock: Option<ActiveBlock>
    var achievements: seq<Achievement>
    var legendaryScore: int
    var onlinePlayers: seq<OnlinePlayer>

    function State(): GameState
      reads this
    {
      GameState(eventId, programId, phase, currentRound, totalRounds, currentFact, votes, scores, myVote,
            myFactSubmitted, activeBlock, achievements, legendaryScore, onlinePlayers)
    }

    constructor ()
      ensures State() == Initial
    {
      eventId, programId, phase := None, None, Lobby;
      currentRound, totalRounds, currentFact := 0, 0, None;
      votes, scores, myVote, myFactSubmitted := [], [], None, false;
      activeBlock, achievements, legendaryScore, onlinePlayers := None, [], 0, [];
    }

    method SetEventContext(e: string, p: Option<string>)
      modifies this
      ensures State() == old(State()).(eventId := Some(e), programId := p)
    {
      eventId, programId := Some(e), p;
    }

    /** A new block on the projector always restarts at the lobby phase. */
    method SetActiveBlock(b: ActiveBlock)
      modifies this
      ensures State() == old(State()).(activeBlock := Some(b), phase := Lobby)
    {
      activeBlock, phase := Some(b), Lobby;
    }

    method ClearActiveBlock()
      modifies this
      ensures State() == old(State()).(activeBlock := None)
    {
      activeBlock := None;
    }

    /** Every phase change forgets this client's vote. */
    method SetPhase(p: Phase)
      modifies this
      ensures State() == old(State()).(phase := p, myVote := None)
    {
      phase, myVote := p, None;
    }

    /** A new who-am-i round: voting opens on the fact with a clean tally and no vote of ours. */
    method ShowFact(round: int, total: int, data: RoundData)
      modifies this
      ensures State() == old(State()).(phase := Voting, currentRound := round, totalRounds := total,
                                       currentFact := Some(data), votes := [], myVote := None)
    {
      phase, currentRound, totalRounds := Voting, round, total;
      currentFact, votes, myVote := Some(data), [], None;
    }

    method CastVote(attendeeId: string)
      modifies this
      ensures State() == old(State()).(myVote := Some(attendeeId))
    {
      myVote := Some(attendeeId);
    }

    method UpdateVotes(v: Record)
      modifies this
      ensures State() == old(State()).(votes := v)
    {
      votes := v;
    }

    /** Results replace the tally; the correct id passed in is not stored. */
    method ShowResults(correctId: string, v: Record)
      modifies this
      ensures State() == old(State()).(phase := Results, votes := v)
    {
      phase, votes := Results, v;
    }

    method UpdateScores(s: Record)
      modifies this
      ensures State() == old(State()).(scores := s)
    {
      scores := s;
    }

    method SetOnlinePlayers(players: seq<OnlinePlayer>)
      modifies this
      ensures State() == old(State()).(onlinePlayers := players)
    {
      onlinePlayers := players;
    }

    method SetMyFactSubmitted(submitted: bool)
      modifies this
      ensures State() == old(State()).(myFactSubmitted := submitted)
    {
      myFactSubmitted := submitted;
    }

    /** Appends the achievement and adds its points in one update, so a consistent score stays
        consistent. */
    method AddAchievement(a: Achievement)
      modifies this
      ensures State() == old(State()).(achievements := old(achievements) + [a],
                                       legendaryScore := old(legendaryScore) + a.points)
      ensures ScoreConsistent(old(State())) ==> ScoreConsistent(State())
    {
      ScoreConsistentPreserved(State(), a);
      achievements, legendaryScore := achievements + [a], legendaryScore + a.points;
    }

    /** The score is taken from the caller as given: consistent only when it is the sum. */
    method SetAchievements(list: seq<Achievement>, score: int)
      modifies this
      ensures State() == old(State()).(achievements := list, legendaryScore := score)
      ensures ScoreConsistent(State()) <==> score == SumPoints(list)
    {
      achievements, legendaryScore := list, score;
    }

    /** Back to initialState, event context, achievements and score included. */
    method Reset()
      modifies this
      ensures State() == Initial
    {
      LoadSession(Initial);
      LoadRound(Initial);
    }

    /** Overwrites the session half of the fields with those of `s`. */
    method LoadSession(s: GameState)
      modifies this
      ensures State() == old(State()).(eventId := s.eventId, programId := s.programId, phase := s.phase,
        activeBlock := s.activeBlock, achievements := s.achievements, legendaryScore := s.legendaryScore,
        onlinePlayers := s.onlinePlayers)
    {
      eventId, programId, phase := s.eventId, s.programId, s.phase;
      activeBlock, achievements, legendaryScore, onlinePlayers := s.activeBlock, s.achievements, s.legendaryScore, s.onlinePlayers;
    }

    /** Overwrites the round half of the fields with those of `s`. */
    method LoadRound(s: GameState)
      modifies this
      ensures State() == old(State()).(currentRound := s.currentRound, totalRounds := s.totalRounds,
        currentFact := s.currentFact, votes := s.votes, scores := s.scores, myVote := s.myVote,
        myFactSubmitted := s.myFactSubmitted)
    {
      currentRound, totalRounds, currentFact := s.currentRound, s.totalRounds, s.currentFact;
      votes, scores, myVote, myFactSubmitted := s.votes, s.scores, s.myVote, s.myFactSubmitted;
    }
  }
}

=== FILE: legendary_display.dfy ===
/** The "legendary score" projector screen (`src/components/display/LegendaryDisplay.tsx`):
    the party tiers, the tier a score falls into, and the online roster panels. */
module LegendaryDisplay {
  import opened Common
  import opened GameStore
  import opened DisplayView

  datatype Tier = Tier(min: int, name: string)

  /** The five tiers, lowest threshold first. */
  const Tiers: seq<Tier> := [
    Tier(0, "Nudny vecírek"),
    Tier(100, "Cajovy dychanek"),
    Tier(250, "Solidni party"),
    Tier(500, "Epická noc"),
    Tier(750, "LEGENDARY")
  ]

  /** The thresholds strictly increase, so at most one tier is "the highest reached". */
  lemma ThresholdsIncrease()
    ensures |Tiers| == 5
    ensures forall i, j :: 0 <= i < j < |Tiers| ==> Tiers[i].min < Tiers[j].min
    ensures Tiers[0].min == 0
  {
  }

  /** The backward scan of `getTier` from index `i` down to 0: the first index met whose
      threshold the score reaches, or 0 when none is. */
  function ScanDown(score: int, i: int): (k: nat)
    requires -1 <= i < |Tiers|
    decreases i + 1
    ensures k < |Tiers|
    ensures k <= i || k == 0
    ensures score >= Tiers[k].min || k == 0
    ensures forall j :: k < j <= i ==> score < Tiers[j].min
  {
    if i < 0 then 0
    else if score >= Tiers[i].min then i
    else ScanDown(score, i - 1)
  }

  /** The index of the tier `getTier` returns. */
  function TierIndex(score: int): (k: nat)
    ensures k < |Tiers|
  {
    ScanDown(score, |Tiers| - 1)
  }

  function GetTier(score: int): (t: Tier)
    ensures t in Tiers
  {
    Tiers[TierIndex(score)]
  }

  /** `getTier`: the loop from the top tier down, returning at the first threshold reached. */
  method FindTier(score: int) returns (t: Tier)
    ensures t == GetTier(score)
  {
    var i := |Tiers| - 1;
    while i >= 0
      invariant -1 <= i < |Tiers|
      invariant ScanDown(score, i) == TierIndex(score)
    {
      if score >= Tiers[i].min {
        return Tiers[i];
      }
      i := i - 1;
    }
    return Tiers[0];
  }

  /** `getTier(s)` is the highest tier whose threshold `s` reaches. */
  lemma GetTierIsHighestReached(score: int)
    requires score >= 0
    ensures score >= GetTier(score).min
    ensures forall j :: TierIndex(score) < j < |Tiers| ==> score < Tiers[j].min
  {
    ThresholdsIncrease();
  }

  /** A negative score reaches no threshold and gets the first tier. */
  lemma NegativeScoreFirstTier(score: int)
    requires score < 0
    ensures GetTier(score) == Tiers[0]
  {
    ThresholdsIncrease();
    assert forall j :: 0 <= j < |Tiers| ==> score < Tiers[j].min;
  }

  /** A higher score never falls into a lower tier. */
  lemma TierMonotone(a: int, b: int)
    requires a <= b
    ensures TierIndex(a) <= TierIndex(b)
  {
  }

  /** The "hracu online" figure: players that are not display clients. */
  function OnlineCount(players: seq<OnlinePlayer>): (n: nat)
    ensures n == |NonDisplayPlayers(players)|
    ensures n <= |players|
    ensures n == 0 <==> forall p :: p in players ==> p.isDisplay == Some(true)
  {
    var r := NonDisplayPlayers(players);
    assert r != [] ==> r[0] in r;
    |r|
  }

  /** The "King of the Night" panel: the first five non-display players in presence order,
      shown only when there is at least one. */
  function Leaderboard(players: seq<OnlinePlayer>): (r: Option<seq<OnlinePlayer>>)
    ensures r.None? <==> OnlineCount(players) == 0
    ensures r.Some? ==> 1 <= |r.value| <= 5 && |r.value| <= OnlineCount(players)
    ensures r.Some? ==> |r.value| == 5 || |r.value| == OnlineCount(players)
    ensures r.Some? ==> forall p :: p in r.value ==> p in players && p.isDisplay != Some(true)
    ensures r.Some? ==> r.value == NonDisplayPlayers(players)[..|r.value|]
  {
    var online := NonDisplayPlayers(players);
    if |online| > 0 then Some(Take(online, 5)) else None
  }
}

=== FILE: live_code_entry.dfy ===
/** The six-box code entry on the join page (`src/app/live/LiveCodeEntry.tsx`): one digit per
    box, typed or pasted, and a submission once all six boxes are filled. */
module LiveCodeEntry {
  import opened Common
  import opened Db
  import LiveLookup

  const CodeLength := 6
  const Backspace := "Backspace"

  /** What one box may hold: nothing, or one ASCII digit. */
  predicate IsCell(d: string) {
    d == [] || (|d| == 1 && IsAsciiDigit(d[0]))
  }

  /** `value.slice(-1)`: the last character typed into a box, or nothing. */
  function LastChar(value: string): (c: string)
    ensures |c| <= 1
    ensures c == [] <==> value == []
    ensures c != [] ==> c[0] == value[|value| - 1]
  {
    if value == [] then [] else [value[|value| - 1]]
  }

  /** `cells.join("")` */
  function Join(cells: seq<string>): (r: string)
    ensures (forall i :: 0 <= i < |cells| ==> |cells[i]| == 1) ==> |r| == |cells|
  {
    if cells == [] then [] else Join(cells[..|cells| - 1]) + cells[|cells| - 1]
  }

  /** `cells.every((d) => d)` */
  predicate AllFilled(cells: seq<string>) {
    forall i :: 0 <= i < |cells| ==> cells[i] != []
  }

  /** Six filled boxes join into a well-formed live code. */
  lemma {:induction false} JoinOfDigitCells(cells: seq<string>)
    requires forall i :: 0 <= i < |cells| ==> IsCell(cells[i]) && cells[i] != []
    ensures |Join(cells)| == |cells|
    ensures forall k :: 0 <= k < |cells| ==> Join(cells)[k] == cells[k][0]
  {
    if cells != [] {
      JoinOfDigitCells(cells[..|cells| - 1]);
    }
  }

  /** `.replace(/[^0-9]/g, "")`: the ASCII digits of `s`, in order. */
  function DigitsOnly(s: string): (r: string)
    ensures |r| <= |s|
    ensures forall i :: 0 <= i < |r| ==> IsAsciiDigit(r[i])
    ensures r == [] <==> forall i :: 0 <= i < |s| ==> !IsAsciiDigit(s[i])
  {
    if s == [] then []
    else
      var rest := DigitsOnly(s[1..]);
      assert forall i :: 1 <= i < |s| ==> s[i] == s[1..][i - 1];
      (if IsAsciiDigit(s[0]) then [s[0]] else []) + rest
  }

  /** Stripping works piece by piece: separators between groups of digits drop out. */
  lemma {:induction false} DigitsOnlyConcat(a: string, b: string)
    ensures DigitsOnly(a + b) == DigitsOnly(a) + DigitsOnly(b)
  {
    if a != [] {
      assert (a + b)[1..] == a[1..] + b;
      DigitsOnlyConcat(a[1..], b);
    } else {
      assert a + b == b;
    }
  }

  /** A string of digits is kept whole. */
  lemma {:induction false} DigitsOnlyKeepsDigits(s: string)
    requires forall i :: 0 <= i < |s| ==> IsAsciiDigit(s[i])
    ensures DigitsOnly(s) == s
  {
    if s != [] {
      DigitsOnlyKeepsDigits(s[1..]);
    }
  }

  /** What a paste takes: at most the first six digits of the clipboard text. */
  function PastedDigits(text: string): (t: string)
    ensures |t| <= CodeLength
    ensures forall i :: 0 <= i < |t| ==> IsAsciiDigit(t[i])
    ensures |t| <= |DigitsOnly(text)| && t == DigitsOnly(text)[..|t|]
    ensures |t| == CodeLength || t == DigitsOnly(text)
  {
    var d := DigitsOnly(text);
    if |d| <= CodeLength then d else d[..CodeLength]
  }

  /** The boxes after pasting `t`: its digits from the left, the remaining boxes empty. */
  function PastedCells(t: string): (cells: seq<string>)
    requires |t| <= CodeLength
    ensures |cells| == CodeLength
  {
    seq(CodeLength, k requires 0 <= k < CodeLength => if k < |t| then [t[k]] else [])
  }

  /** Pasting six digits shows exactly them: the boxes read back as the pasted code. */
  lemma PastedCellsReadBack(t: string)
    requires |t| == CodeLength
    requires forall i :: 0 <= i < |t| ==> IsAsciiDigit(t[i])
    ensures AllFilled(PastedCells(t))
    ensures Join(PastedCells(t)) == t
  {
    JoinOfDigitCells(PastedCells(t));
  }

  class Entry {
    /** The six boxes. */
    var digits: array<string>
    /** The message shown under the boxes, if any. */
    var error: Option<string>
    /** The box that has the keyboard focus. */
    var focus: nat

    ghost predicate Valid()
      reads this, digits
    {
      digits.Length == CodeLength && focus < CodeLength &&
      forall i :: 0 <= i < digits.Length ==> IsCell(digits[i])
    }

    /** Six empty boxes, no message, the focus on the first box. */
    constructor ()
      ensures Valid()
      ensures digits[..] == seq(CodeLength, _ => []) && error == None && focus == 0
    {
      digits := new string[CodeLength](_ => []);
      error := None;
      focus := 0;
    }

    /** handleChange: only the last character typed counts; a non-digit is ignored; otherwise
        that box is rewritten, the message cleared, the focus moved on after a digit, and the
        code submitted when the last box gets a digit and every box is filled. */
    method HandleChange(index: nat, value: string) returns (submitted: Option<string>)
      requires Valid() && index < CodeLength
      modifies this
      ensures Valid()
      ensures submitted.Some? ==> LiveLookup.IsCode(submitted.value)
      ensures LastChar(value) != [] && !IsAsciiDigit(LastChar(value)[0]) ==>
        digits == old(digits) && error == old(error) && focus == old(focus) && submitted == None
      ensures LastChar(value) == [] || IsAsciiDigit(LastChar(value)[0]) ==>
        fresh(digits) && digits[..] == old(digits[..])[index := LastChar(value)] && error == None
      ensures LastChar(value) != [] && IsAsciiDigit(LastChar(value)[0]) ==>
        focus == (if index < CodeLength - 1 then index + 1 else old(focus))
      ensures LastChar(value) == [] ==> focus == old(focus) && submitted == None
      ensures submitted.Some? <==>
        LastChar(value) != [] && IsAsciiDigit(LastChar(value)[0]) && index == CodeLength - 1 &&
        AllFilled(digits[..])
      ensures submitted.Some? ==> submitted.value == Join(digits[..])
    {
      var c := LastChar(value);
      if c != [] && !IsAsciiDigit(c[0]) {
        return None;
      }
      var cur := digits;
      var next := new string[CodeLength](k requires 0 <= k < CodeLength reads cur => cur[k]);
      next[index] := c;
      digits := next;
      error := None;
      if c != [] && index < CodeLength - 1 {
        focus := index + 1;
      }
      submitted := None;
      if c != [] && index == CodeLength - 1 && AllFilled(next[..]) {
        JoinOfDigitCells(next[..]);
        submitted := Some(Join(next[..]));
      }
    }

    /** handleKeyDown: Backspace in an empty box moves the focus back one box. */
    method HandleKeyDown(index: nat, key: string)
      requires Valid() && index < CodeLength
      modifies this`focus
      ensures Valid()
      ensures focus == (if key == Backspace && digits[index] == [] && index > 0 then index - 1 else old(focus))
    {
      if key == Backspace && digits[index] == [] && index > 0 {
        focus := index - 1;
      }
    }

    /** handlePaste: the clipboard's first six digits fill the boxes from the left and clear the
        rest; text without a digit changes nothing; six digits are submitted at once, fewer move
        the focus to the first empty box. */
    method HandlePaste(text: string) returns (submitted: Option<string>)
      requires Valid()
      modifies this
      ensures Valid()
      ensures submitted.Some? ==> LiveLookup.IsCode(submitted.value)
      ensures DigitsOnly(text) == [] ==>
        digits == old(digits) && error == old(error) && focus == old(focus) && submitted == None
      ensures DigitsOnly(text) != [] ==>
        fresh(digits) && digits[..] == PastedCells(PastedDigits(text)) && error == None
      ensures submitted.Some? <==> |DigitsOnly(text)| >= CodeLength
      ensures submitted.Some? ==> submitted.value == PastedDigits(text) && submitted.value == Join(digits[..])
      ensures DigitsOnly(text) != [] && submitted.None? ==> focus == |DigitsOnly(text)|
      ensures |DigitsOnly(text)| >= CodeLength ==> focus == old(focus)
    {
      var t := PastedDigits(text);
      if t == [] {
        return None;
      }
      var next := new string[CodeLength](_ => []);
      var i := 0;
      while i < |t|
        modifies next
        invariant 0 <= i <= |t|
        invariant forall k :: 0 <= k < i ==> next[k] == [t[k]]
        invariant forall k :: i <= k < CodeLength ==> next[k] == []
      {
        next[i] := [t[i]];
        i := i + 1;
      }
      assert next[..] == PastedCells(t);
      digits := next;
      error := None;
      if |t| == CodeLength {
        PastedCellsReadBack(t);
        submitted := Some(t);
      } else {
        submitted := None;
        focus := |t|;
      }
    }

    /** submit: the lookup's refusal is shown under the boxes; a found event is where the
        browser goes next. */
    method Submit(events: seq<Event>, code: string, queryFailed: bool) returns (redirect: Option<string>)
      modifies this`error
      ensures LiveLookup.Lookup(events, code, queryFailed).Err? ==>
        redirect == None && error == Some(LiveLookup.Lookup(events, code, queryFailed).message)
      ensures LiveLookup.Lookup(events, code, queryFailed).Ok? ==>
        redirect == Some(LiveLookup.Lookup(events, code, queryFailed).value) && error == old(error)
    {
      var r := LiveLookup.Lookup(events, code, queryFailed);
      if r.Err? {
        error := Some(r.message);
        redirect := None;
      } else {
        redirect := Some(r.value);
      }
    }
  }

  /** A code the boxes submit is never refused as malformed: only a missing event can fail it. */
  lemma SubmittedCodeOnlyMissesEvents(events: seq<Event>, code: string, queryFailed: bool)
    requires LiveLookup.IsCode(code)
    ensures LiveLookup.Lookup(events, code, queryFailed) != Err(LiveLookup.InvalidCode)
  {
  }
}

=== FILE: live_lookup.dfy ===
/** Joining a live event by its six-digit code (`src/app/live/actions.ts`). */
module LiveLookup {
  import opened Common
  import opened Db

  const CodeLength := 6
  const InvalidCode := "Neplatny kod"
  const CodeNotFound := "Kod nenalezen"

  /** `/^[0-9]{6}$/` */
  predicate IsCode(code: string) {
    |code| == CodeLength && forall i :: 0 <= i < |code| ==> IsAsciiDigit(code[i])
  }

  /** The first active event carrying this live code. */
  function FirstActiveWithCode(events: seq<Event>, code: string): (r: Option<Event>)
    ensures r.Some? ==> r.value in events && r.value.isActive && r.value.liveCode == Some(code)
    ensures r.None? <==> forall e :: e in events ==> !(e.isActive && e.liveCode == Some(code))
    ensures r.Some? ==> exists k :: (0 <= k < |events| && events[k] == r.value &&
      forall j :: 0 <= j < k ==> !(events[j].isActive && events[j].liveCode == Some(code)))
  {
    if events == [] then None
    else if events[0].isActive && events[0].liveCode == Some(code) then Some(events[0])
    else
      var r := FirstActiveWithCode(events[1..], code);
      assert r.Some? ==> exists k :: (0 <= k < |events| && events[k] == r.value &&
        forall j :: 0 <= j < k ==> !(events[j].isActive && events[j].liveCode == Some(code))) by {
        if r.Some? {
          var k :| 0 <= k < |events[1..]| && events[1..][k] == r.value &&
            forall j :: 0 <= j < k ==> !(events[1..][j].isActive && events[1..][j].liveCode == Some(code));
          assert events[k + 1] == r.value;
          forall j | 0 <= j < k + 1 ensures !(events[j].isActive && events[j].liveCode == Some(code)) {
            if j > 0 { assert events[j] == events[1..][j - 1]; }
          }
        }
      }
      r
  }

  /** lookupLiveCode: a malformed code is refused before any lookup; otherwise the first
      active event with that code gives the redirect target `/event/<slug>/live`. A failed
      query leaves no row (`events?.[0]`), so it reads as a code not found. */
  function Lookup(events: seq<Event>, code: string, queryFailed: bool): (r: Outcome<string>)
    ensures !IsCode(code) ==> r == Err(InvalidCode)
    ensures IsCode(code) && queryFailed ==> r == Err(CodeNotFound)
    ensures IsCode(code) && FirstActiveWithCode(events, code).None? ==> r == Err(CodeNotFound)
    ensures r.Ok? <==> IsCode(code) && !queryFailed && exists e :: e in events && e.isActive && e.liveCode == Some(code)
    ensures r.Ok? ==> r.value == "/event/" + FirstActiveWithCode(events, code).value.slug + "/live"
  {
    if !IsCode(code) then Err(InvalidCode)
    else if queryFailed then Err(CodeNotFound)
    else
      match FirstActiveWithCode(events, code)
      case None => Err(CodeNotFound)
      case Some(e) => Ok("/event/" + e.slug + "/live")
  }

  /** Inactive events and events with another code never affect the result. */
  lemma OnlyActiveMatchesCount(events: seq<Event>, other: Event, code: string, queryFailed: bool)
    requires !(other.isActive && other.liveCode == Some(code))
    ensures Lookup(events + [other], code, queryFailed) == Lookup(events, code, queryFailed)
    ensures Lookup([other] + events, code, queryFailed) == Lookup(events, code, queryFailed)
  {
    FirstIgnoresNonMatching(events, other, code);
    assert ([other] + events)[1..] == events;
  }

  lemma {:induction false} FirstIgnoresNonMatching(events: seq<Event>, other: Event, code: string)
    requires !(other.isActive && other.liveCode == Some(code))
    ensures FirstActiveWithCode(events + [other], code) == FirstActiveWithCode(events, code)
  {
    if events != [] {
      assert (events + [other])[1..] == events[1..] + [other];
      FirstIgnoresNonMatching(events[1..], other, code);
    } else {
      assert [other][1..] == [];
    }
  }
}

=== FILE: middleware.dfy ===
/** Route protection in the request middleware (`src/lib/supabase/middleware.ts`): which paths
    need a signed-in user, and where a request is redirected. */
module Middleware {
  import opened Common

  const DashboardPrefix := "/dashboard"
  const EventPrefix := "/event/"
  const ModeratorPart := "/moderator"
  const LoginPath := "/login"
  const SignupPath := "/signup"

  /** The length of the run of non-slash characters at the start of `s`. */
  function SegmentLength(s: string): (n: nat)
    ensures n <= |s|
    ensures forall i :: 0 <= i < n ==> s[i] != '/'
    ensures n < |s| ==> s[n] == '/'
  {
    if s == [] || s[0] == '/' then 0
    else
      var n := SegmentLength(s[1..]);
      assert forall i :: 1 <= i < |s| ==> s[i] == s[1..][i - 1];
      n + 1
  }

  /** `/^\/event\/[^/]+\/moderator/`: "/event/", one non-empty path segment, then "/moderator",
      with anything after it. */
  predicate IsModeratorPath(path: string) {
    EventPrefix <= path &&
    var rest := path[|EventPrefix|..];
    var n := SegmentLength(rest);
    n > 0 && ModeratorPart <= rest[n..]
  }

  /** The protection test: a "/dashboard" prefix or the moderator pattern. */
  predicate IsProtected(path: string) {
    DashboardPrefix <= path || IsModeratorPath(path)
  }

  /** Every moderator path splits as "/event/" + segment + "/moderator" + anything. */
  lemma ModeratorPathSplit(path: string) returns (segment: string, tail: string)
    requires IsModeratorPath(path)
    ensures path == EventPrefix + segment + ModeratorPart + tail
    ensures segment != [] && forall i :: 0 <= i < |segment| ==> segment[i] != '/'
  {
    var rest := path[|EventPrefix|..];
    var n := SegmentLength(rest);
    segment := rest[..n];
    var after := rest[n..];
    tail := after[|ModeratorPart|..];
    assert after == ModeratorPart + tail by {
      assert ModeratorPart <= after;
    }
    assert rest == segment + after;
    assert path == EventPrefix + rest by {
      assert EventPrefix <= path;
    }
  }

  /** ... and every such path is a moderator path. */
  lemma ModeratorPathOf(segment: string, tail: string)
    requires segment != [] && forall i :: 0 <= i < |segment| ==> segment[i] != '/'
    ensures IsModeratorPath(EventPrefix + segment + ModeratorPart + tail)
  {
    var path := EventPrefix + segment + ModeratorPart + tail;
    var rest := path[|EventPrefix|..];
    assert rest == segment + (ModeratorPart + tail);
    SegmentOfJoin(segment, ModeratorPart + tail);
    assert rest[|segment|..] == ModeratorPart + tail;
  }

  lemma {:induction false} SegmentOfJoin(segment: string, tail: string)
    requires forall i :: 0 <= i < |segment| ==> segment[i] != '/'
    requires tail != [] && tail[0] == '/'
    ensures SegmentLength(segment + tail) == |segment|
  {
    if segment == [] {
      assert segment + tail == tail;
    } else {
      assert (segment + tail)[1..] == segment[1..] + tail;
      SegmentOfJoin(segment[1..], tail);
    }
  }

  /** The prefix test has no segment boundary and the pattern no end anchor: "/dashboardX"
      and "/event/a/moderatorX" are protected too. */
  lemma NoBoundaryChecks()
    ensures IsProtected("/dashboardX")
    ensures IsProtected("/event/a/moderatorX")
  {
    assert "/dashboardX"[..|DashboardPrefix|] == DashboardPrefix;
    var p := "/event/a/moderatorX";
    assert p[..7] == EventPrefix && p[7..8] == "a" && p[8..18] == ModeratorPart && p[18..] == "X";
    assert p == p[..7] + p[7..8] + p[8..18] + p[18..];
    ModeratorPathOf("a", "X");
  }

  /** The event part is exactly one segment: a nested moderator path is not protected. */
  lemma NestedModeratorPathIsOpen()
    ensures !IsProtected("/event/a/b/moderator")
  {
    var path := "/event/a/b/moderator";
    var rest := path[|EventPrefix|..];
    assert rest == "a/b/moderator";
    assert SegmentLength(rest) == 1 by {
      SegmentOfJoin("a", "/b/moderator");
      assert rest == "a" + "/b/moderator";
    }
    assert rest[1..] == "/b/moderator";
    assert !(ModeratorPart <= rest[1..]) by {
      assert rest[1..][1] != ModeratorPart[1];
    }
    assert path[1] != DashboardPrefix[1];
  }

  /** What the middleware does with a request. */
  datatype Decision =
    | PassThrough
    | RedirectToLogin(next: string)
    | RedirectToDashboard

  /** updateSession: a signed-out visitor to a protected path goes to "/login" with the
      original path as `next`; a signed-in user on exactly "/login" or "/signup" goes to
      "/dashboard"; everything else goes through. */
  function Decide(user: Option<string>, path: string): (d: Decision)
    ensures d.RedirectToLogin? <==> user.None? && IsProtected(path)
    ensures d.RedirectToLogin? ==> d.next == path
    ensures d.RedirectToDashboard? <==> user.Some? && (path == LoginPath || path == SignupPath)
  {
    if user.None? && IsProtected(path) then RedirectToLogin(path)
    else if user.Some? && (path == LoginPath || path == SignupPath) then RedirectToDashboard
    else PassThrough
  }

  /** A redirect never loops: the page it sends the same visitor to is let through. */
  lemma RedirectsSettle(user: Option<string>, path: string)
    ensures Decide(user, path).RedirectToLogin? ==> Decide(user, LoginPath) == PassThrough
    ensures Decide(user, path).RedirectToDashboard? ==> Decide(user, DashboardPrefix) == PassThrough
  {
    assert LoginPath[1] != DashboardPrefix[1];
    assert !(EventPrefix <= LoginPath) by { assert LoginPath[1] != EventPrefix[1]; }
    assert DashboardPrefix != LoginPath && DashboardPrefix != SignupPath by {
      assert DashboardPrefix[1] != LoginPath[1] && DashboardPrefix[1] != SignupPath[1];
    }
  }
}

=== FILE: moderator_view.dfy ===
/** The moderator's page of a live event (`src/components/event/ModeratorView.tsx`): it starts a
    game from the library through `startGameAction` and shows the who-am-i controls while that
    game runs. */
module ModeratorView {
  import opened Common
  import opened Db
  import opened GameStore
  import ProgramActions

  const WhoAmISlug := "who-am-i"

  /** A JavaScript truthiness test on an optional id: null and "" are false. */
  predicate Present(id: Option<string>) {
    id.Some? && id.value != ""
  }

  class Moderator {
    const eventId: string
    const initialProgramId: Option<string>
    const store: Store
    const db: Database
    var programId: Option<string>
    var activeGameSlug: Option<string>

    /** The initial state: the game slug is "who-am-i" exactly when a program id is given. */
    constructor (eventId: string, initialProgramId: Option<string>, store: Store, db: Database)
      ensures this.eventId == eventId && this.initialProgramId == initialProgramId
      ensures this.store == store && this.db == db
      ensures programId == initialProgramId
      ensures activeGameSlug == if Present(initialProgramId) then Some(WhoAmISlug) else None
    {
      this.eventId := eventId;
      this.initialProgramId := initialProgramId;
      this.store := store;
      this.db := db;
      programId := initialProgramId;
      activeGameSlug := if Present(initialProgramId) then Some(WhoAmISlug) else None;
    }

    /** What every render does before drawing: with an initial program id, the store's event
        context is set to it. */
    method Render()
      modifies store
      ensures Present(initialProgramId) ==>
        store.State() == old(store.State()).(eventId := Some(eventId), programId := initialProgramId)
      ensures !Present(initialProgramId) ==> store.State() == old(store.State())
    {
      if Present(initialProgramId) {
        store.SetEventContext(eventId, initialProgramId);
      }
    }

    /** `handleStartGame`: a failed action changes nothing here; on success the new program and
        the game's slug are kept, and the store's context is set and then wiped by `reset`, so
        the store ends in its initial state. */
    method StartGame(user: Option<string>, game: GameEntry, newId: string, now: int, insertError: Option<string>)
      requires FreshId(db.program, newId)
      modifies this, store, db`program
      ensures OwnerCheck(db.events, user, eventId).Some? || insertError.Some? ==>
          programId == old(programId) && activeGameSlug == old(activeGameSlug) &&
          store.State() == old(store.State()) && db.program == old(db.program)
      ensures OwnerCheck(db.events, user, eventId).None? && insertError.None? ==>
        programId == Some(newId) && activeGameSlug == Some(game.slug) && store.State() == Initial &&
        db.program == old(db.program) + [ProgramActions.NewGameBlock(newId, eventId, game.id, NextSortOrder(old(db.program), eventId), now)]
    {
      var result := ProgramActions.StartGame(db, user, eventId, game.id, newId, now, insertError);
      if result.Err? {
        return;
      }
      programId := Some(result.value);
      activeGameSlug := Some(game.slug);
      store.SetEventContext(eventId, Some(result.value));
      store.Reset();
    }

    /** The library's start buttons are disabled while a program id is set. */
    predicate LibraryDisabled()
      reads this
    {
      Present(programId)
    }

    /** The who-am-i controls show only for a running who-am-i game. */
    predicate ControlsShown()
      reads this
    {
      Present(programId) && activeGameSlug == Some(WhoAmISlug)
    }
  }
}

=== FILE: nicknames.dfy ===
/** Funny nicknames for guests (`src/lib/nicknames.ts`): a Czech adjective picked by a 32-bit
    string hash of the trimmed name, followed by the first name. */
module Nicknames {
  import opened Common

  const Adjectives: seq<string> := [
    "Zabavny", "Skvely", "Tajemny", "Divoki", "Blaznivy", "Genialni", "Epicky", "Legendarni",
    "Kosmicky", "Magicky", "Neohrozeny", "Bystry", "Smelý", "Hrozivý", "Ohnivý", "Ledový",
    "Zlaty", "Stříbrny", "Turbo", "Super", "Mega", "Ultra", "Mocny", "Rychly",
    "Tichy", "Zdivocely", "Zazracny", "Odvazny", "Laskavý", "Chytry", "Mazany", "Vtipny",
    "Cool", "Hustý", "Fesak", "Drsny", "Nekonecny", "Hvezdny", "Elektrizujici", "Vesmirny"
  ]

  const Anonymous := "Tajemny Host"

  const TwoTo31 := 0x8000_0000
  const TwoTo32 := 0x1_0000_0000

  /** The signed 32-bit integer `x | 0` gives: `x` wrapped into `[-2^31, 2^31)`. */
  function ToInt32(x: int): (r: int)
    ensures -TwoTo31 <= r < TwoTo31
    ensures (r - x) % TwoTo32 == 0
  {
    (x + TwoTo31) % TwoTo32 - TwoTo31
  }

  /** `charCodeAt` walks UTF-16 code units: a character above U+FFFF is two surrogates. */
  function CodeUnits(s: string): (u: seq<int>)
    ensures forall i :: 0 <= i < |u| ==> 0 <= u[i] < 0x1_0000
    ensures |u| >= |s|
  {
    if s == [] then []
    else
      var c := s[0] as int;
      (if c < 0x1_0000 then [c] else [0xD800 + (c - 0x1_0000) / 0x400, 0xDC00 + (c - 0x1_0000) % 0x400])
        + CodeUnits(s[1..])
  }

  /** The hash before `Math.abs`: `h := (h * 31 + unit) | 0` over the units, from 0. */
  function Fold(units: seq<int>): (h: int)
    ensures -TwoTo31 <= h < TwoTo31
  {
    if units == [] then 0 else ToInt32(Fold(units[..|units| - 1]) * 31 + units[|units| - 1])
  }

  /** `Math.abs`. */
  function Abs(x: int): (r: nat)
    ensures r == x || r == -x
  {
    if x < 0 then -x else x
  }

  /** hashString: the loop over the code units and `Math.abs` of the result. */
  method HashString(s: string) returns (hash: nat)
    ensures hash == Abs(Fold(CodeUnits(s)))
    ensures hash <= TwoTo31
  {
    var units := CodeUnits(s);
    var h := 0;
    var i := 0;
    while i < |units|
      invariant 0 <= i <= |units|
      invariant h == Fold(units[..i])
    {
      assert units[..i + 1][..i] == units[..i];
      h := ToInt32(h * 31 + units[i]);
      i := i + 1;
    }
    assert units[..i] == units;
    hash := Abs(h);
  }

  /** The text before the first white-space character. */
  function FirstToken(s: string): (r: string)
    ensures |r| <= |s| && r == s[..|r|]
    ensures forall i :: 0 <= i < |r| ==> !IsJsSpace(r[i])
    ensures |r| < |s| ==> IsJsSpace(s[|r|])
  {
    if s == [] || IsJsSpace(s[0]) then [] else [s[0]] + FirstToken(s[1..])
  }

  /** The adjective a hash selects: `hash % 40`. */
  function AdjectiveIndex(hash: nat): (i: nat)
    ensures i < |Adjectives|
    ensures (hash - i) % |Adjectives| == 0
  {
    hash % |Adjectives|
  }

  /** generateNickname: "Tajemny Host" for a blank name, else the adjective of the trimmed
      name's hash, a space and the first token. */
  function Nickname(fullName: string): (r: string)
    ensures Trim(fullName) == [] ==> r == Anonymous
    ensures Trim(fullName) != [] ==>
      exists k :: 0 <= k < |Adjectives| && r == Adjectives[k] + " " + FirstToken(Trim(fullName))
  {
    var trimmed := Trim(fullName);
    if trimmed == [] then Anonymous
    else
      var k := AdjectiveIndex(Abs(Fold(CodeUnits(trimmed))));
      Adjectives[k] + " " + FirstToken(trimmed)
  }

  /** The first name is never empty: a trimmed non-blank name starts with a visible character. */
  lemma FirstNameNotEmpty(fullName: string)
    requires Trim(fullName) != []
    ensures FirstToken(Trim(fullName)) != []
  {
  }

  /** Names that agree after trimming get the same nickname. */
  lemma SameTrimmedSameNickname(a: string, b: string)
    requires Trim(a) == Trim(b)
    ensures Nickname(a) == Nickname(b)
  {
  }

  /** The list holds forty adjectives, none of them empty. */
  lemma AdjectivesShape()
    ensures |Adjectives| == 40
    ensures forall i :: 0 <= i < |Adjectives| ==> Adjectives[i] != []
  {
  }
}

=== FILE: player_view.dfy ===
/** The player's page of a live event (`src/components/event/PlayerView.tsx`): it finds the
    program block to play, records votes locally, broadcasts them and stores them, and picks the
    screen for the current phase. */
module PlayerView {
  import opened Common
  import opened Db
  import opened GameStore
  import opened EventChannel

  predicate IsOpen(b: Block) {
    b.status == Pending || b.status == Active
  }

  /** The first block of a list that is pending or active. */
  function FirstOpen(bs: seq<Block>): (k: int)
    ensures -1 <= k < |bs|
    ensures k >= 0 ==> IsOpen(bs[k]) && forall i :: 0 <= i < k ==> !IsOpen(bs[i])
    ensures k == -1 <==> forall i :: 0 <= i < |bs| ==> !IsOpen(bs[i])
  {
    if bs == [] then -1
    else if IsOpen(bs[0]) then 0
    else var k := FirstOpen(bs[1..]); if k == -1 then -1 else k + 1
  }

  /** The `loadProgram` query: the event's pending or active blocks by sort order, first one. */
  function ProgramToPlay(p: seq<Block>, eventId: string): Option<Block> {
    var bs := Ordered(EventBlocks(p, eventId));
    var k := FirstOpen(bs);
    if k == -1 then None else Some(bs[k])
  }

  /** The event has no open block exactly when nothing is chosen. */
  lemma ProgramToPlayNone(p: seq<Block>, eventId: string)
    ensures ProgramToPlay(p, eventId).None? <==> forall b | b in p && b.eventId == eventId :: !IsOpen(b)
  {
    var bs := Ordered(EventBlocks(p, eventId));
    forall b | b in p && b.eventId == eventId
      ensures b in bs
    {
      OrderedMembers(p, eventId, b);
    }
    var k := FirstOpen(bs);
    if k != -1 {
      OrderedMembers(p, eventId, bs[k]);
    }
  }

  /** In a list sorted by sort order, the first open block has the lowest order of all open ones. */
  lemma {:induction false} FirstOpenIsLowest(bs: seq<Block>)
    requires forall i, j :: 0 <= i < j < |bs| ==> bs[i].sortOrder <= bs[j].sortOrder
    requires FirstOpen(bs) != -1
    ensures forall c | c in bs && IsOpen(c) :: bs[FirstOpen(bs)].sortOrder <= c.sortOrder
  {
    if !IsOpen(bs[0]) {
      FirstOpenIsLowest(bs[1..]);
      assert bs[FirstOpen(bs)] == bs[1..][FirstOpen(bs[1..])];
      forall c | c in bs && IsOpen(c)
        ensures c in bs[1..]
      {
        assert bs == [bs[0]] + bs[1..];
      }
    } else {
      forall c | c in bs && IsOpen(c)
        ensures bs[0].sortOrder <= c.sortOrder
      {
        var j :| 0 <= j < |bs| && bs[j] == c;
        if j > 0 {
          assert bs[0].sortOrder <= bs[j].sortOrder;
        }
      }
    }
  }

  /** The block chosen is an open block of the event with the lowest sort order. */
  lemma ProgramToPlayFirst(p: seq<Block>, eventId: string)
    requires ProgramToPlay(p, eventId).Some?
    ensures var b := ProgramToPlay(p, eventId).value;
      b in p && b.eventId == eventId && IsOpen(b)
    ensures var b := ProgramToPlay(p, eventId).value;
      forall c | c in p && c.eventId == eventId && IsOpen(c) :: b.sortOrder <= c.sortOrder
  {
    var bs := Ordered(EventBlocks(p, eventId));
    FirstOpenIsLowest(bs);
    OrderedMembers(p, eventId, bs[FirstOpen(bs)]);
    forall c | c in p && c.eventId == eventId && IsOpen(c)
      ensures c in bs
    {
      OrderedMembers(p, eventId, c);
    }
  }

  datatype Screen = LobbyScreen | FactForm | VotingScreen | ResultsScreen | FinishedScreen | Nothing

  /** The main panel for a phase; fact collection needs a known program. */
  function ScreenFor(phase: Phase, programId: Option<string>): (s: Screen)
    ensures s == FactForm <==> phase == Collecting && programId.Some?
    ensures s == Nothing <==> phase == Playing || (phase == Collecting && programId.None?)
  {
    match phase
    case Lobby => LobbyScreen
    case Collecting => if programId.Some? then FactForm else Nothing
    case Playing => Nothing
    case Voting => VotingScreen
    case Results => ResultsScreen
    case Finished => FinishedScreen
  }

  /** The points tile always shows 0. */
  const PointsShown := 0

  class Player {
    const eventId: string
    const attendeeId: string
    const store: Store
    const channel: Channel
    const db: Database
    var programId: Option<string>

    constructor (eventId: string, attendeeId: string, store: Store, channel: Channel, db: Database)
      ensures this.eventId == eventId && this.attendeeId == attendeeId
      ensures this.store == store && this.channel == channel && this.db == db
      ensures programId.None?
    {
      this.eventId := eventId;
      this.attendeeId := attendeeId;
      this.store := store;
      this.channel := channel;
      this.db := db;
      programId := None;
    }

    /** `loadProgram`: with a block to play (and a non-empty id) the program id and the store's
        event context are set; otherwise, and when the query fails, nothing changes. */
    method LoadProgram(queryFailed: bool)
      modifies this, store
      ensures queryFailed ==> programId == old(programId) && store.State() == old(store.State())
      ensures !queryFailed ==> var r := ProgramToPlay(db.program, eventId);
        if r.Some? && r.value.id != "" then
          programId == Some(r.value.id) && store.State() == old(store.State()).(eventId := Some(eventId), programId := Some(r.value.id))
        else
          programId == old(programId) && store.State() == old(store.State())
    {
      if queryFailed {
        return;
      }
      var r := ProgramToPlay(db.program, eventId);
      if r.Some? && r.value.id != "" {
        programId := Some(r.value.id);
        store.SetEventContext(eventId, Some(r.value.id));
      }
    }

    /** `handleVote`: the vote is recorded in the store first, then broadcast, and stored as a
        `vote` row of the current round only when the program is known. */
    method HandleVote(votedFor: string)
      modifies store, channel, db`responses
      ensures store.State() == old(store.State()).(myVote := Some(votedFor))
      ensures channel.connected == old(channel.connected)
      ensures channel.connected ==> channel.sent == old(channel.sent) + [Broadcast("vote_cast", VoteEnvelope(votedFor, channel.attendeeId))]
      ensures !channel.connected ==> channel.sent == old(channel.sent)
      ensures programId.Some? && programId.value != "" ==>
        db.responses == old(db.responses) + [Response(programId.value, attendeeId, "vote", VotePayload(votedFor), old(store.currentRound))]
      ensures !(programId.Some? && programId.value != "") ==> db.responses == old(db.responses)
    {
      store.CastVote(votedFor);
      channel.SendVote(votedFor);
      if programId.Some? && programId.value != "" {
        db.responses := db.responses + [Response(programId.value, attendeeId, "vote", VotePayload(votedFor), store.currentRound)];
      }
    }
  }
}

=== FILE: program_actions.dfy ===
/** The program engine's server actions (`src/app/actions/program.ts`): start a game as a new
    active block, activate a chosen block, advance to the next pending block, and stop the
    program. Each runs the owner guard first. */
module ProgramActions {
  import opened Common
  import opened Db

  const NoBlocks := "Zadne bloky"

  /** Row `i` is an active block of event `e`. */
  predicate ActiveIn(p: seq<Block>, e: string, i: int) {
    0 <= i < |p| && p[i].eventId == e && p[i].status == Active
  }

  ghost predicate AtMostOneActive(p: seq<Block>, e: string) {
    forall i, j :: ActiveIn(p, e, i) && ActiveIn(p, e, j) ==> i == j
  }

  ghost predicate NoneActive(p: seq<Block>, e: string) {
    forall i :: !ActiveIn(p, e, i)
  }

  /** Row `k` is the one and only active block of event `e`. */
  ghost predicate OnlyActive(p: seq<Block>, e: string, k: int) {
    ActiveIn(p, e, k) && forall i :: ActiveIn(p, e, i) ==> i == k
  }

  // ---------------------------------------------------------------------------
  // startGameAction
  // ---------------------------------------------------------------------------

  /** The row startGameAction inserts: an untitled game block, already active. */
  function NewGameBlock(id: string, e: string, gameId: string, order: int, now: int): Block {
    Block(id, e, Game, Some(gameId), None, None, order, Active, Some(now), None)
  }

  /** `insertError` is the error the insert reports, if any; a failed insert writes nothing. */
  method StartGame(db: Database, user: Option<string>, eventId: string, gameId: string, newId: string, now: int,
                   insertError: Option<string>)
    returns (r: Outcome<string>)
    requires FreshId(db.program, newId)
    modifies db`program
    ensures OwnerCheck(db.events, user, eventId).Some? ==>
      r == Err(OwnerCheck(db.events, user, eventId).value) && db.program == old(db.program)
    ensures OwnerCheck(db.events, user, eventId).None? && insertError.Some? ==>
      r == Err(insertError.value) && db.program == old(db.program)
    ensures r.Ok? <==> OwnerCheck(db.events, user, eventId).None? && insertError.None?
    ensures r.Ok? ==>
      r == Ok(newId) &&
      db.program == old(db.program) + [NewGameBlock(newId, eventId, gameId, NextSortOrder(old(db.program), eventId), now)]
    ensures UniqueIds(old(db.program)) ==> UniqueIds(db.program)
  {
    var guard := OwnerCheck(db.events, user, eventId);
    if guard.Some? {
      return Err(guard.value);
    }
    var order := NextSortOrder(db.program, eventId);
    if insertError.Some? {
      return Err(insertError.value);
    }
    db.program := db.program + [NewGameBlock(newId, eventId, gameId, order, now)];
    r := Ok(newId);
  }

  /** startGameAction does not complete the block that is already running: starting a game
      while another block of the event is active leaves two active blocks. */
  lemma StartGameCanLeaveTwoActive(p: seq<Block>, e: string, newId: string, gameId: string, now: int)
    requires exists i :: ActiveIn(p, e, i)
    ensures !AtMostOneActive(p + [NewGameBlock(newId, e, gameId, NextSortOrder(p, e), now)], e)
  {
    var q := p + [NewGameBlock(newId, e, gameId, NextSortOrder(p, e), now)];
    var i :| ActiveIn(p, e, i);
    assert q[i] == p[i];
    assert ActiveIn(q, e, i) && ActiveIn(q, e, |p|) && i != |p|;
  }

  /** The appended game block comes after every existing block of the event. */
  lemma StartGameAppendsLast(p: seq<Block>, e: string, newId: string, gameId: string, now: int)
    ensures var q := p + [NewGameBlock(newId, e, gameId, NextSortOrder(p, e), now)];
      forall i :: 0 <= i < |p| && q[i].eventId == e ==> q[i].sortOrder < q[|p|].sortOrder
  {
    var q := p + [NewGameBlock(newId, e, gameId, NextSortOrder(p, e), now)];
    forall i | 0 <= i < |p| && q[i].eventId == e ensures q[i].sortOrder < q[|p|].sortOrder {
      assert q[i] == p[i];
    }
  }

  // ---------------------------------------------------------------------------
  // activateBlockAction
  // ---------------------------------------------------------------------------

  /** The ids of the event's active blocks, in table order (the `select id` step). */
  function ActiveIds(p: seq<Block>, e: string): (r: seq<string>)
    ensures forall i :: ActiveIn(p, e, i) ==> p[i].id in r
    ensures forall id :: id in r ==> exists i :: ActiveIn(p, e, i) && p[i].id == id
  {
    if p == [] then []
    else
      var rest := ActiveIds(p[1..], e);
      assert forall i :: 1 <= i < |p| ==> p[i] == p[1..][i - 1];
      assert forall i :: 1 <= i < |p| ==> (ActiveIn(p, e, i) <==> ActiveIn(p[1..], e, i - 1));
      forall id | id in rest ensures exists i :: ActiveIn(p, e, i) && p[i].id == id {
        var i :| ActiveIn(p[1..], e, i) && p[1..][i].id == id;
        assert ActiveIn(p, e, i + 1);
      }
      (if ActiveIn(p, e, 0) then [p[0].id] else []) + rest
  }

  /** Every active block of the event marked completed at `now`; nothing else changes. */
  function CompleteActive(p: seq<Block>, e: string, now: int): (r: seq<Block>)
    ensures |r| == |p|
    ensures NoneActive(r, e)
    ensures forall i :: 0 <= i < |p| && !ActiveIn(p, e, i) ==> r[i] == p[i]
    ensures forall i :: ActiveIn(p, e, i) ==> r[i] == MarkCompleted(p[i], now)
    ensures SameKeys(p, r)
  {
    seq(|p|, i requires 0 <= i < |p| => if ActiveIn(p, e, i) then MarkCompleted(p[i], now) else p[i])
  }

  /** The table after activateBlockAction: the active blocks completed, then the target (looked
      up by id within the event) activated whatever its previous status. */
  function ActivatedProgram(p: seq<Block>, e: string, blockId: string, now: int): seq<Block> {
    var q := CompleteActive(p, e, now);
    var k := IndexOf(q, blockId, e);
    if k == -1 then q else q[k := MarkActivated(q[k], now)]
  }

  /** A game block with a non-empty game id also reports its id as the program id. */
  function ProgramIdOf(b: Block): (r: Option<string>)
    ensures r.Some? <==> b.blockType == Game && b.gameId.Some? && b.gameId.value != ""
    ensures r.Some? ==> r.value == b.id
  {
    if b.blockType == Game && b.gameId.Some? && b.gameId.value != "" then Some(b.id) else None
  }

  datatype Activation = Activation(block: Block, programId: Option<string>)

  /** `readFailed` says the read of the active blocks returned no data, so no completion is
      written and the target is activated all the same. `activateError` is the error the
      activating update reports for an existing row, if any; a failed update activates nothing,
      while the completions before it stay written. */
  method ActivateBlock(db: Database, user: Option<string>, eventId: string, blockId: string, now: int,
                       readFailed: bool, activateError: Option<string>)
    returns (r: Outcome<Activation>)
    requires UniqueIds(db.program)
    modifies db`program
    ensures OwnerCheck(db.events, user, eventId).Some? ==>
      r == Err(OwnerCheck(db.events, user, eventId).value) && db.program == old(db.program)
    ensures OwnerCheck(db.events, user, eventId).None? ==>
      var q := if readFailed then old(db.program) else CompleteActive(old(db.program), eventId, now);
      var k := IndexOf(q, blockId, eventId);
      (k == -1 ==> r == Err(NoSingleRow) && db.program == q) &&
      (k != -1 && activateError.Some? ==> r == Err(activateError.value) && db.program == q) &&
      (k != -1 && activateError.None? ==>
         0 <= k < |db.program| && db.program == q[k := MarkActivated(q[k], now)] &&
         r == Ok(Activation(db.program[k], ProgramIdOf(db.program[k]))))
    ensures OwnerCheck(db.events, user, eventId).None? && !readFailed && r.Ok? ==>
      db.program == ActivatedProgram(old(db.program), eventId, blockId, now)
  {
    var guard := OwnerCheck(db.events, user, eventId);
    if guard.Some? {
      return Err(guard.value);
    }
    ghost var p0 := db.program;
    var activeIds := if readFailed then [] else ActiveIds(db.program, eventId);
    var i := 0;
    while i < |activeIds|
      invariant 0 <= i <= |activeIds|
      invariant |db.program| == |p0|
      invariant forall j :: 0 <= j < |p0| ==>
        db.program[j] == if p0[j].id in activeIds[..i] then MarkCompleted(p0[j], now) else p0[j]
    {
      db.program := CompleteById(db.program, activeIds[i], now);
      assert activeIds[..i + 1] == activeIds[..i] + [activeIds[i]];
      i := i + 1;
    }
    assert activeIds[..i] == activeIds;
    if readFailed {
      assert db.program == p0;
    } else {
      forall j | 0 <= j < |p0| && p0[j].id in activeIds ensures ActiveIn(p0, eventId, j) {
        var j' :| ActiveIn(p0, eventId, j') && p0[j'].id == p0[j].id;
        assert j' == j;
      }
      assert db.program == CompleteActive(p0, eventId, now);
    }
    var k := IndexOf(db.program, blockId, eventId);
    if k == -1 {
      return Err(NoSingleRow);
    }
    if activateError.Some? {
      return Err(activateError.value);
    }
    db.program := db.program[k := MarkActivated(db.program[k], now)];
    SameKeysUnique(p0, db.program);
    IndexOfFindsRow(db.program, k);
    r := Ok(Activation(db.program[k], ProgramIdOf(db.program[k])));
  }

  /** When the read of the active blocks fails, a block of the event that was active stays
      active beside the newly activated target. */
  lemma FailedReadCanLeaveTwoActive(p: seq<Block>, e: string, k: int, i: int, now: int)
    requires 0 <= k < |p| && p[k].eventId == e && ActiveIn(p, e, i) && i != k
    ensures !AtMostOneActive(p[k := MarkActivated(p[k], now)], e)
  {
    var q := p[k := MarkActivated(p[k], now)];
    assert ActiveIn(q, e, i) && ActiveIn(q, e, k);
  }

  /** Activating a block of the event leaves it the only active block of the event, even when it
      had already been completed, and leaves other events' blocks untouched. */
  lemma ActivateLeavesOnlyTarget(p: seq<Block>, e: string, k: int, now: int)
    requires UniqueIds(p) && 0 <= k < |p| && p[k].eventId == e
    ensures OnlyActive(ActivatedProgram(p, e, p[k].id, now), e, k)
    ensures forall i :: 0 <= i < |p| && p[i].eventId != e ==> ActivatedProgram(p, e, p[k].id, now)[i] == p[i]
  {
    var q := CompleteActive(p, e, now);
    var k' := IndexOf(q, p[k].id, e);
    SameKeysUnique(p, q);
    IndexOfFindsRow(q, k);
  }

  // ---------------------------------------------------------------------------
  // advanceProgramAction
  // ---------------------------------------------------------------------------

  /** `findIndex` from position `from`: the first row with status `st`, or -1. */
  function FirstWithStatus(s: seq<Block>, st: Status, from: nat): (k: int)
    ensures k == -1 || (from <= k < |s| && s[k].status == st)
    ensures k == -1 ==> forall i :: from <= i < |s| ==> s[i].status != st
    ensures k != -1 ==> forall i :: from <= i < k ==> s[i].status != st
    decreases |s| - from
  {
    if from >= |s| then -1
    else if s[from].status == st then from
    else FirstWithStatus(s, st, from + 1)
  }

  datatype Advance = Finished | Advanced(block: Block)

  /** The event's blocks as `advanceProgramAction` reads them, ascending by sort order. */
  function Schedule(p: seq<Block>, e: string): seq<Block> {
    Ordered(EventBlocks(p, e))
  }

  /** The position in the schedule of the first active block, or -1. */
  function ActiveIdx(p: seq<Block>, e: string): int {
    FirstWithStatus(Schedule(p, e), Active, 0)
  }

  /** The position of the first pending block after the active one (from the start when none is
      active), or -1. */
  function NextIdx(p: seq<Block>, e: string): int {
    var a := ActiveIdx(p, e);
    FirstWithStatus(Schedule(p, e), Pending, if a == -1 then 0 else a + 1)
  }

  /** The table after the completion step: the first active block completed, by id. */
  function CompletedStep(p: seq<Block>, e: string, now: int): seq<Block> {
    var a := ActiveIdx(p, e);
    if a == -1 then p else CompleteById(p, Schedule(p, e)[a].id, now)
  }

  /** The table after advanceProgramAction: the completion step, then the next pending block
      activated, by id. */
  function AdvancedProgram(p: seq<Block>, e: string, now: int): seq<Block> {
    var n := NextIdx(p, e);
    if n == -1 then CompletedStep(p, e, now) else ActivateById(CompletedStep(p, e, now), Schedule(p, e)[n].id, now)
  }

  /** `readFailed` says the read of the event's blocks returned no data, which the source reports
      as "Zadne bloky". `activateError` is the error the activating update reports, if any; a
      failed update writes nothing, while the completion before it has already been written. */
  method AdvanceProgram(db: Database, user: Option<string>, eventId: string, now: int, readFailed: bool,
                        activateError: Option<string>)
    returns (r: Outcome<Advance>)
    requires UniqueIds(db.program)
    modifies db`program
    ensures OwnerCheck(db.events, user, eventId).Some? ==>
      r == Err(OwnerCheck(db.events, user, eventId).value) && db.program == old(db.program)
    ensures OwnerCheck(db.events, user, eventId).None? ==>
      AdvanceOutcome(old(db.program), db.program, eventId, now, readFailed, activateError, r)
  {
    var guard := OwnerCheck(db.events, user, eventId);
    if guard.Some? {
      return Err(guard.value);
    }
    r := AdvanceOwned(db, eventId, now, readFailed, activateError);
  }

  /** What the part of advanceProgramAction after the owner guard promises, from table `p` to
      table `q` with result `r`: a failed read or no block gives "Zadne bloky" and no write; `Finished` exactly when
      no pending block follows the active one, with only the completion written; otherwise the
      next pending block is activated and returned, unless the activating update fails. */
  ghost predicate AdvanceOutcome(p: seq<Block>, q: seq<Block>, e: string, now: int, readFailed: bool,
                                 activateError: Option<string>, r: Outcome<Advance>)
  {
    (readFailed || EventBlocks(p, e) == [] ==> r == Err(NoBlocks) && q == p) &&
    (!readFailed && EventBlocks(p, e) != [] ==>
      (r == Ok(Finished) <==> NextIdx(p, e) == -1) &&
      (NextIdx(p, e) == -1 ==> q == CompletedStep(p, e, now)) &&
      (NextIdx(p, e) != -1 && activateError.Some? ==>
         r == Err(activateError.value) && q == CompletedStep(p, e, now)) &&
      (NextIdx(p, e) != -1 && activateError.None? ==>
         q == AdvancedProgram(p, e, now) &&
         0 <= NextIdx(p, e) < |Schedule(p, e)| &&
         r == Ok(Advanced(MarkActivated(Schedule(p, e)[NextIdx(p, e)], now)))))
  }

  /** The part of advanceProgramAction after the owner guard. */
  method AdvanceOwned(db: Database, eventId: string, now: int, readFailed: bool, activateError: Option<string>)
    returns (r: Outcome<Advance>)
    requires UniqueIds(db.program)
    modifies db`program
    ensures AdvanceOutcome(old(db.program), db.program, eventId, now, readFailed, activateError, r)
  {
    if readFailed {
      return Err(NoBlocks);
    }
    ghost var p0 := db.program;
    var blocks := Ordered(EventBlocks(db.program, eventId));
    if |blocks| == 0 {
      return Err(NoBlocks);
    }
    var activeIdx := FirstWithStatus(blocks, Active, 0);
    if activeIdx != -1 {
      db.program := CompleteById(db.program, blocks[activeIdx].id, now);
    }
    var searchStart := if activeIdx == -1 then 0 else activeIdx + 1;
    var next := FirstWithStatus(blocks, Pending, searchStart);
    if next == -1 {
      return Ok(Finished);
    }
    if activateError.Some? {
      return Err(activateError.value);
    }
    r := ActivateNext(db, p0, eventId, now, blocks, next);
  }

  /** The activating update of advanceProgramAction and the row it returns. */
  method ActivateNext(db: Database, ghost p0: seq<Block>, eventId: string, now: int, blocks: seq<Block>, next: int)
    returns (r: Outcome<Advance>)
    requires UniqueIds(p0) && blocks == Schedule(p0, eventId) && next == NextIdx(p0, eventId) && next != -1
    requires db.program == CompletedStep(p0, eventId, now)
    modifies db`program
    ensures db.program == AdvancedProgram(p0, eventId, now)
    ensures 0 <= next < |blocks| && r == Ok(Advanced(MarkActivated(blocks[next], now)))
  {
    AdvanceEffect(p0, eventId, now);
    OrderedMembers(p0, eventId, blocks[next]);
    ghost var k0 :| 0 <= k0 < |p0| && p0[k0] == blocks[next];
    ghost var p1 := db.program;
    db.program := ActivateById(db.program, blocks[next].id, now);
    SameKeysUnique(p0, p1);
    SameKeysUnique(p1, db.program);
    IndexOfFindsRow(db.program, k0);
    var k := IndexById(db.program, blocks[next].id);
    r := Ok(Advanced(db.program[k]));
  }

  /** What advancing does to each row: the first active block in sort order is completed, the
      first pending block after it is activated, and every other row is left as it was, so a
      second active block stays active and pending blocks before the active one stay pending. */
  lemma AdvanceEffect(p: seq<Block>, e: string, now: int)
    requires UniqueIds(p)
    ensures var s := Schedule(p, e); var a := ActiveIdx(p, e); var n := NextIdx(p, e);
      var q1 := CompletedStep(p, e, now); var q := AdvancedProgram(p, e, now);
      |q1| == |p| && |q| == |p| &&
      (a != -1 ==> 0 <= a < |s| && s[a] in p) &&
      (n != -1 ==> 0 <= n < |s| && s[n] in p && (a == -1 || a < n)) &&
      (forall i :: 0 <= i < |p| ==>
         q1[i] == (if a != -1 && p[i] == s[a] then MarkCompleted(p[i], now) else p[i])) &&
      (forall i :: 0 <= i < |p| ==>
         q[i] == (if a != -1 && p[i] == s[a] then MarkCompleted(p[i], now)
                  else if n != -1 && p[i] == s[n] then MarkActivated(p[i], now)
                  else p[i]))
  {
    var s := Schedule(p, e);
    var a := ActiveIdx(p, e);
    var n := NextIdx(p, e);
    if a != -1 {
      OrderedMembers(p, e, s[a]);
      forall i | 0 <= i < |p| ensures (p[i].id == s[a].id) == (p[i] == s[a]) {
        RowById(p, p[i], s[a]);
      }
    }
    if n != -1 {
      OrderedMembers(p, e, s[n]);
      forall i | 0 <= i < |p| ensures (p[i].id == s[n].id) == (p[i] == s[n]) {
        RowById(p, p[i], s[n]);
      }
      if a != -1 {
        assert s[a].status == Active && s[n].status == Pending;
        RowById(p, s[a], s[n]);
        assert s[a].id != s[n].id;
      }
    }
  }

  /** The quirk that follows: when two blocks are active (see `StartGameCanLeaveTwoActive`),
      advancing completes only the first in sort order and the other stays active. */
  lemma AdvanceLeavesSecondActive(p: seq<Block>, e: string, now: int, i: int)
    requires UniqueIds(p) && ActiveIn(p, e, i)
    requires ActiveIdx(p, e) != -1 && p[i] != Schedule(p, e)[ActiveIdx(p, e)]
    ensures ActiveIn(AdvancedProgram(p, e, now), e, i)
  {
    AdvanceEffect(p, e, now);
    var n := NextIdx(p, e);
    if n != -1 {
      assert Schedule(p, e)[n].status == Pending;
    }
  }

  /** A pending block that sorts before the active one is skipped: it stays pending. */
  lemma AdvanceSkipsEarlierPending(p: seq<Block>, e: string, now: int, j: int)
    requires UniqueIds(p) && ActiveIdx(p, e) != -1
    requires 0 <= j < ActiveIdx(p, e) && Schedule(p, e)[j].status == Pending
    ensures forall i :: 0 <= i < |p| && p[i] == Schedule(p, e)[j] ==> AdvancedProgram(p, e, now)[i] == p[i]
  {
    AdvanceEffect(p, e, now);
    var s := Schedule(p, e);
    var n := NextIdx(p, e);
    if n != -1 {
      OrderedUnique(p, e);
      assert s[j].id != s[n].id;
    }
  }

  /** Activating one row by id in a table where the event has no active block leaves at most
      one active block. */
  lemma ActivateByIdFromNone(p: seq<Block>, e: string, id: string, now: int)
    requires UniqueIds(p) && NoneActive(p, e)
    ensures AtMostOneActive(ActivateById(p, id, now), e)
  {
    var q := ActivateById(p, id, now);
    forall i, j | ActiveIn(q, e, i) && ActiveIn(q, e, j) ensures i == j {
      assert !ActiveIn(p, e, i) && !ActiveIn(p, e, j);
    }
  }

  /** Advancing keeps the program's invariant: at most one active block per event. */
  lemma AdvanceKeepsAtMostOneActive(p: seq<Block>, e: string, now: int)
    requires UniqueIds(p) && AtMostOneActive(p, e)
    ensures AtMostOneActive(AdvancedProgram(p, e, now), e)
  {
    var s := Schedule(p, e);
    if |s| == 0 {
      return;
    }
    var a := ActiveIdx(p, e);
    var p1 := CompletedStep(p, e, now);
    assert UniqueIds(p1) by {
      assert forall i :: 0 <= i < |p| ==> p1[i].id == p[i].id;
    }
    assert NoneActive(p1, e) by {
      forall i | ActiveIn(p1, e, i) ensures false {
        assert p1[i].status == Active;
        assert ActiveIn(p, e, i);
        OrderedMembers(p, e, p[i]);
        var m :| 0 <= m < |s| && s[m] == p[i];
        assert a != -1 && a <= m;
        OrderedMembers(p, e, s[a]);
        var j :| 0 <= j < |p| && p[j] == s[a];
        assert ActiveIn(p, e, j);
      }
    }
    var n := NextIdx(p, e);
    if n != -1 {
      ActivateByIdFromNone(p1, e, s[n].id, now);
    }
  }

  // ---------------------------------------------------------------------------
  // deactivateProgramAction
  // ---------------------------------------------------------------------------

  /** `updateError` is the error the update reports, if any; a failed update writes nothing. */
  method DeactivateProgram(db: Database, user: Option<string>, eventId: string, now: int, updateError: Option<string>)
    returns (r: Outcome<bool>)
    modifies db`program
    ensures OwnerCheck(db.events, user, eventId).Some? ==>
      r == Err(OwnerCheck(db.events, user, eventId).value) && db.program == old(db.program)
    ensures OwnerCheck(db.events, user, eventId).None? && updateError.Some? ==>
      r == Err(updateError.value) && db.program == old(db.program)
    ensures r.Ok? <==> OwnerCheck(db.events, user, eventId).None? && updateError.None?
    ensures r.Ok? ==> r == Ok(true) && db.program == CompleteActive(old(db.program), eventId, now)
  {
    var guard := OwnerCheck(db.events, user, eventId);
    if guard.Some? {
      return Err(guard.value);
    }
    if updateError.Some? {
      return Err(updateError.value);
    }
    db.program := CompleteActive(db.program, eventId, now);
    r := Ok(true);
  }
}

=== FILE: social.dfy ===
/** Guests posting to the social wall (`src/app/actions/social.ts`): a text message, or a
    photo that is uploaded to storage and then recorded. */
module Social {
  import opened Common
  import opened Db

  const MaxMessageLength := 280
  const MaxPhotoBytes := 5 * 1024 * 1024
  const MessageLengthError := "Zprava musi mit 1-280 znaku"
  const InvalidAttendee := "Neplatny ucastnik"
  const NoFile := "Zadny soubor"
  const BadType := "Povolene formaty: JPEG, PNG, WebP, GIF"
  const TooLarge := "Maximalni velikost je 5 MB"

  const AllowedTypes: seq<string> := ["image/jpeg", "image/png", "image/webp", "image/gif"]

  datatype File = File(name: string, mimeType: string, size: int)

  /** The message text as stored: the trimmed content, when it has 1 to 280 characters. */
  function CheckMessage(content: string): (r: Outcome<string>)
    ensures r.Ok? <==> 1 <= |Trim(content)| <= MaxMessageLength
    ensures r.Ok? ==> r.value == Trim(content)
    ensures r.Err? ==> r.message == MessageLengthError
  {
    var trimmed := Trim(content);
    if trimmed == [] || |trimmed| > MaxMessageLength then Err(MessageLengthError) else Ok(trimmed)
  }

  /** The stored message never starts or ends with white space. */
  lemma StoredMessageIsTrimmed(content: string)
    requires CheckMessage(content).Ok?
    ensures Trim(CheckMessage(content).value) == CheckMessage(content).value
  {
    TrimIdempotent(content);
  }

  /** `.eq("id", attendeeId).eq("user_id", user.id).single()`: the attendee row, only when it
      belongs to the signed-in user. */
  function UsersAttendee(attendees: seq<Attendee>, attendeeId: string, userId: string): (r: Option<Attendee>)
    ensures r.Some? ==> r.value in attendees && r.value.id == attendeeId && r.value.userId == Some(userId)
    ensures r.None? <==> forall a | a in attendees :: !(a.id == attendeeId && a.userId == Some(userId))
  {
    if attendees == [] then None
    else if attendees[0].id == attendeeId && attendees[0].userId == Some(userId) then Some(attendees[0])
    else UsersAttendee(attendees[1..], attendeeId, userId)
  }

  /** sendMessageAction: user, then length, then the attendee's owner; the stored row carries
      the attendee's display name and the trimmed text. `insertError` is the error the insert
      reports, if any; a failed insert stores nothing. */
  method SendMessage(db: Database, user: Option<string>, eventId: string, attendeeId: string,
                     content: string, newId: string, now: int, insertError: Option<string>)
    returns (r: Outcome<Message>)
    modifies db`messages
    ensures user.None? ==> r == Err(Unauthorized)
    ensures user.Some? && CheckMessage(content).Err? ==> r == Err(MessageLengthError)
    ensures user.Some? && CheckMessage(content).Ok? && UsersAttendee(db.attendees, attendeeId, user.value).None? ==>
      r == Err(InvalidAttendee)
    ensures user.Some? && CheckMessage(content).Ok? && UsersAttendee(db.attendees, attendeeId, user.value).Some? ==>
      (insertError.Some? ==> r == Err(insertError.value))
    ensures r.Err? ==> db.messages == old(db.messages)
    ensures r.Ok? <==> (user.Some? && CheckMessage(content).Ok? &&
                        UsersAttendee(db.attendees, attendeeId, user.value).Some? && insertError.None?)
    ensures r.Ok? ==> r.value == Message(newId, eventId, attendeeId,
      UsersAttendee(db.attendees, attendeeId, user.value).value.displayName, Trim(content), now)
    ensures r.Ok? ==> db.messages == old(db.messages) + [r.value]
  {
    if user.None? {
      return Err(Unauthorized);
    }
    var text := CheckMessage(content);
    if text.Err? {
      return Err(text.message);
    }
    var att := UsersAttendee(db.attendees, attendeeId, user.value);
    if att.None? {
      return Err(InvalidAttendee);
    }
    if insertError.Some? {
      return Err(insertError.value);
    }
    var m := Message(newId, eventId, attendeeId, att.value.displayName, text.value, now);
    db.messages := db.messages + [m];
    r := Ok(m);
  }

  /** The photo checks in their order: a file, an allowed type, at most 5 MB. */
  function CheckPhoto(file: Option<File>): (r: Option<string>)
    ensures r.None? <==> file.Some? && file.value.mimeType in AllowedTypes && file.value.size <= MaxPhotoBytes
    ensures file.None? ==> r == Some(NoFile)
    ensures file.Some? && file.value.mimeType !in AllowedTypes ==> r == Some(BadType)
    ensures file.Some? && file.value.mimeType in AllowedTypes && file.value.size > MaxPhotoBytes ==> r == Some(TooLarge)
  {
    if file.None? then Some(NoFile)
    else if file.value.mimeType !in AllowedTypes then Some(BadType)
    else if file.value.size > MaxPhotoBytes then Some(TooLarge)
    else None
  }

  /** `name.split(".").pop()`: the text after the last dot, or the whole name without one. */
  function AfterLastDot(name: string): (r: string)
    ensures '.' !in r
    ensures |r| <= |name| && name[|name| - |r|..] == r
    ensures |r| < |name| ==> name[|name| - |r| - 1] == '.'
  {
    if name == [] then []
    else if name[|name| - 1] == '.' then []
    else
      var rest := AfterLastDot(name[..|name| - 1]);
      assert name[..|name| - 1][|name| - 1 - |rest|..] == rest;
      rest + [name[|name| - 1]]
  }

  /** The file extension used in the storage path, "jpg" only when the text after the last dot
      is empty. */
  function Extension(name: string): (ext: string)
    ensures ext != []
    ensures '.' !in ext
    ensures AfterLastDot(name) != [] ==> ext == AfterLastDot(name)
  {
    var last := AfterLastDot(name);
    if last == [] then "jpg" else last
  }

  /** A name without any dot is its own extension; a trailing dot gives "jpg". */
  lemma ExtensionCases(name: string)
    ensures '.' !in name && name != [] ==> Extension(name) == name
    ensures name != [] && name[|name| - 1] == '.' ==> Extension(name) == "jpg"
  {
  }

  /** `<eventId>/<attendeeId>/<timestamp>.<ext>` */
  function StoragePath(eventId: string, attendeeId: string, now: nat, fileName: string): string {
    eventId + "/" + attendeeId + "/" + NatToString(now) + "." + Extension(fileName)
  }

  /** The path starts with the event and attendee folders, and the file name reads back as the
      timestamp, a dot and the extension. */
  lemma StoragePathReadsBack(eventId: string, attendeeId: string, now: nat, fileName: string)
    ensures var path, folder, ext := StoragePath(eventId, attendeeId, now, fileName),
                                     eventId + "/" + attendeeId + "/", Extension(fileName);
      |path| > |folder| + |ext| && path[..|folder|] == folder &&
      ParseInt(path[|folder|..|path| - |ext| - 1]) == Some(now) &&
      path[|path| - |ext| - 1] == '.' && path[|path| - |ext|..] == ext
  {
    var folder, stamp, ext := eventId + "/" + attendeeId + "/", NatToString(now), Extension(fileName);
    var path := StoragePath(eventId, attendeeId, now, fileName);
    assert path == folder + stamp + ("." + ext) && path[|folder|..|path| - |ext| - 1] == stamp by {
      AppendAssoc(folder + stamp, ".", ext);
      PathPieces(folder, stamp, ext);
    }
    ParseIntOfNatString(now);
    PathPieces(folder, stamp, ext);
  }

  /** Where the pieces of `folder + stamp + "." + ext` sit in it. */
  lemma PathPieces(folder: string, stamp: string, ext: string)
    ensures var path := folder + stamp + ("." + ext);
      |path| == |folder| + |stamp| + 1 + |ext| &&
      path[..|folder|] == folder && path[|folder|..|path| - |ext| - 1] == stamp &&
      path[|path| - |ext| - 1] == '.' && path[|path| - |ext|..] == ext
  {
    var path, tail := folder + stamp + ("." + ext), "." + ext;
    assert path[..|folder|] == folder;
    assert path[|folder|..|folder| + |stamp|] == stamp;
    assert path[|folder| + |stamp|..] == tail;
    assert tail[1..] == ext;
  }

  /** uploadPhotoAction: user, the file checks, the attendee's owner, then the upload and the
      row. `publicUrl` is what storage reports for the path; `uploadError` what the upload
      returns, and `insertError` what the row insert returns; a failed insert stores no row, while
      the uploaded file stays in storage. */
  method UploadPhoto(db: Database, user: Option<string>, eventId: string, attendeeId: string,
                     file: Option<File>, now: nat, newId: string, publicUrl: string,
                     uploadError: Option<string>, insertError: Option<string>)
    returns (r: Outcome<Photo>)
    modifies db`photos
    ensures user.None? ==> r == Err(Unauthorized)
    ensures user.Some? && CheckPhoto(file).Some? ==> r == Err(CheckPhoto(file).value)
    ensures user.Some? && CheckPhoto(file).None? && UsersAttendee(db.attendees, attendeeId, user.value).None? ==>
      r == Err(InvalidAttendee)
    ensures user.Some? && CheckPhoto(file).None? && UsersAttendee(db.attendees, attendeeId, user.value).Some? ==>
      (uploadError.Some? ==> r == Err(uploadError.value)) &&
      (uploadError.None? && insertError.Some? ==> r == Err(insertError.value))
    ensures r.Err? ==> db.photos == old(db.photos)
    ensures r.Ok? <==> (user.Some? && CheckPhoto(file).None? &&
                        UsersAttendee(db.attendees, attendeeId, user.value).Some? && uploadError.None? &&
                        insertError.None?)
    ensures r.Ok? ==> r.value == Photo(newId, eventId, attendeeId,
      UsersAttendee(db.attendees, attendeeId, user.value).value.displayName,
      StoragePath(eventId, attendeeId, now, file.value.name), publicUrl, now)
    ensures r.Ok? ==> db.photos == old(db.photos) + [r.value]
  {
    if user.None? {
      return Err(Unauthorized);
    }
    var bad := CheckPhoto(file);
    if bad.Some? {
      return Err(bad.value);
    }
    var att := UsersAttendee(db.attendees, attendeeId, user.value);
    if att.None? {
      return Err(InvalidAttendee);
    }
    var path := StoragePath(eventId, attendeeId, now, file.value.name);
    if uploadError.Some? {
      return Err(uploadError.value);
    }
    if insertError.Some? {
      return Err(insertError.value);
    }
    var p := Photo(newId, eventId, attendeeId, att.value.displayName, path, publicUrl, now);
    db.photos := db.photos + [p];
    r := Ok(p);
  }
}

=== FILE: social_wall.dfy ===
/** The social wall slide on the projector (`src/components/display/SocialWallSlide.tsx`):
    the in-place shuffle, relative times, the latest messages, the photo grid and the score
    badge. */
module SocialWall {
  import opened Common
  import opened Db

  /** `shuffleArray`: a copy of the input is shuffled by swapping position `i` with some `j`
      in `[0, i]`, for `i` from the last index down to 1. The input is not modified. */
  method ShuffleArray<T(==)>(arr: array<T>) returns (shuffled: array<T>)
    ensures fresh(shuffled)
    ensures shuffled.Length == arr.Length
    ensures multiset(shuffled[..]) == multiset(arr[..])
  {
    shuffled := new T[arr.Length](k reads arr requires 0 <= k < arr.Length => arr[k]);
    assert shuffled[..] == arr[..];
    var i := shuffled.Length - 1;
    while i > 0
      invariant -1 <= i < shuffled.Length
      invariant multiset(shuffled[..]) == multiset(arr[..])
    {
      var j :| 0 <= j <= i;
      shuffled[i], shuffled[j] := shuffled[j], shuffled[i];
      i := i - 1;
    }
  }

  const MinuteMs := 60000

  /** `timeAgo` for a difference of `diffMs` milliseconds between now and the post time. */
  function TimeAgo(diffMs: int): (r: string)
    ensures diffMs < MinuteMs ==> r == "prave ted"
    ensures diffMs >= MinuteMs ==> |r| >= 7 && r[..5] == "pred "
    ensures MinuteMs <= diffMs < 60 * MinuteMs ==> r[|r| - 1] == 'm'
    ensures diffMs >= 60 * MinuteMs ==> r[|r| - 1] == 'h'
  {
    var mins := diffMs / MinuteMs;
    if mins < 1 then "prave ted"
    else if mins < 60 then "pred " + NatToString(mins) + "m"
    else "pred " + NatToString(mins / 60) + "h"
  }

  /** The number shown by `TimeAgo` reads back as whole minutes below an hour and whole
      hours from then on. */
  lemma TimeAgoReadsBack(diffMs: int)
    requires diffMs >= MinuteMs
    ensures var r := TimeAgo(diffMs);
      ParseInt(r[5..|r| - 1]) ==
        Some(if diffMs < 60 * MinuteMs then diffMs / MinuteMs else diffMs / MinuteMs / 60)
  {
    var mins := diffMs / MinuteMs;
    var n: nat := if mins < 60 then mins else mins / 60;
    var r := TimeAgo(diffMs);
    assert r == "pred " + NatToString(n) + [r[|r| - 1]];
    assert r[5..|r| - 1] == NatToString(n);
    ParseIntOfNatString(n);
  }

  /** `messages.slice(-4).reverse()`: the last four messages (or all of them), newest first. */
  function LastMessages(messages: seq<Message>): (r: seq<Message>)
    ensures |r| == if |messages| < 4 then |messages| else 4
    ensures forall i :: 0 <= i < |r| ==> r[i] == messages[|messages| - 1 - i]
  {
    var start := if |messages| < 4 then 0 else |messages| - 4;
    Reversed(messages[start..])
  }

  function Reversed<T>(s: seq<T>): (r: seq<T>)
    ensures |r| == |s|
    ensures forall i :: 0 <= i < |s| ==> r[i] == s[|s| - 1 - i]
  {
    if s == [] then [] else Reversed(s[1..]) + [s[0]]
  }

  /** The background photo grid, redrawn from the current photos. */
  class PhotoGrid {
    var gridPhotos: seq<Photo>

    constructor ()
      ensures gridPhotos == []
    {
      gridPhotos := [];
    }

    /** The effect run when the photo list changes: nothing for an empty list (the old grid
        stays), else three photos of a fresh shuffle. The result says whether a periodic
        reshuffle is scheduled, which happens only for more than nine photos. */
    method PhotosChanged(photos: array<Photo>) returns (periodic: bool)
      modifies this
      ensures photos.Length == 0 ==> gridPhotos == old(gridPhotos)
      ensures photos.Length > 0 ==> |gridPhotos| == if photos.Length < 3 then photos.Length else 3
      ensures photos.Length > 0 ==> multiset(gridPhotos) <= multiset(photos[..])
      ensures periodic <==> photos.Length > 9
    {
      if photos.Length == 0 {
        return false;
      }
      Reshuffle(photos);
      periodic := photos.Length > 9;
    }

    /** One redraw: the first three photos of a shuffled copy. */
    method Reshuffle(photos: array<Photo>)
      modifies this
      ensures |gridPhotos| == if photos.Length < 3 then photos.Length else 3
      ensures multiset(gridPhotos) <= multiset(photos[..])
    {
      var shuffled := ShuffleArray(photos);
      var all := shuffled[..];
      gridPhotos := Take(all, 3);
      assert all == gridPhotos + all[|gridPhotos|..];
      assert multiset(all) == multiset(gridPhotos) + multiset(all[|gridPhotos|..]);
    }
  }

  /** The score badge appears only for a positive score. */
  function ScoreBadge(score: int): (r: Option<int>)
    ensures r.Some? <==> score > 0
    ensures r.Some? ==> r.value == score
  {
    if score > 0 then Some(score) else None
  }
}

=== FILE: timeline_actions.dfy ===
/** The program editor's server actions (`src/app/actions/timeline.ts`): append, remove, swap
    with a neighbour, edit, bulk renumber, and replace the program by a template. Each runs the
    owner guard first. */
module TimelineActions {
  import opened Common
  import opened Db
  import TimelineTemplates

  const BlockNotFound := "Blok nenalezen"
  const CannotMove := "Nelze presunout"
  const EmptyTemplate := "Sablona je prazdna"
  const LoadFailed := "Nelze nacist bloky"

  // ---------------------------------------------------------------------------
  // addTimelineBlockAction
  // ---------------------------------------------------------------------------

  /** The block the editor submits; a game block may come without a game id. */
  datatype NewBlock = NewBlock(blockType: BlockType, gameId: Option<string>, title: string, durationMinutes: int)

  /** The inserted row: pending (the column default), after every existing block of the event. */
  function AddedRow(p: seq<Block>, e: string, b: NewBlock, id: string): (row: Block)
    ensures row.status == Pending && row.eventId == e && row.id == id
    ensures row.gameId == b.gameId && row.title == Some(b.title) && row.durationMinutes == Some(b.durationMinutes)
    ensures forall i :: 0 <= i < |p| && p[i].eventId == e ==> p[i].sortOrder < row.sortOrder
    ensures (forall i :: 0 <= i < |p| ==> p[i].eventId != e) ==> row.sortOrder == 0
  {
    Block(id, e, b.blockType, b.gameId, Some(b.title), Some(b.durationMinutes), NextSortOrder(p, e), Pending, None, None)
  }

  /** `insertError` is the error the insert reports, if any; a failed insert writes nothing. */
  method AddBlock(db: Database, user: Option<string>, eventId: string, block: NewBlock, newId: string,
                  insertError: Option<string>)
    returns (r: Outcome<Block>)
    requires FreshId(db.program, newId)
    modifies db`program
    ensures OwnerCheck(db.events, user, eventId).Some? ==>
      r == Err(OwnerCheck(db.events, user, eventId).value) && db.program == old(db.program)
    ensures OwnerCheck(db.events, user, eventId).None? && insertError.Some? ==>
      r == Err(insertError.value) && db.program == old(db.program)
    ensures r.Ok? <==> OwnerCheck(db.events, user, eventId).None? && insertError.None?
    ensures r.Ok? ==>
      r == Ok(AddedRow(old(db.program), eventId, block, newId)) &&
      db.program == old(db.program) + [AddedRow(old(db.program), eventId, block, newId)]
    ensures UniqueIds(old(db.program)) ==> UniqueIds(db.program)
  {
    var guard := OwnerCheck(db.events, user, eventId);
    if guard.Some? {
      return Err(guard.value);
    }
    var row := AddedRow(db.program, eventId, block, newId);
    if insertError.Some? {
      return Err(insertError.value);
    }
    db.program := db.program + [row];
    r := Ok(row);
  }

  // ---------------------------------------------------------------------------
  // removeTimelineBlockAction
  // ---------------------------------------------------------------------------

  /** The table without the rows matching both id and event; every other row is kept, unchanged
      and in order (no renumbering). */
  function Without(p: seq<Block>, id: string, e: string): (r: seq<Block>)
    ensures |r| <= |p|
    ensures forall b :: b in r <==> b in p && !(b.id == id && b.eventId == e)
    ensures (forall i :: 0 <= i < |p| ==> !(p[i].id == id && p[i].eventId == e)) ==> r == p
  {
    if p == [] then []
    else
      var rest := Without(p[1..], id, e);
      assert p == [p[0]] + p[1..];
      assert (forall i :: 0 <= i < |p| ==> !(p[i].id == id && p[i].eventId == e)) ==> rest == p[1..] by {
        if forall i :: 0 <= i < |p| ==> !(p[i].id == id && p[i].eventId == e) {
          assert forall i :: 0 <= i < |p[1..]| ==> p[1..][i] == p[i + 1];
        }
      }
      (if p[0].id == id && p[0].eventId == e then [] else [p[0]]) + rest
  }

  /** `deleteError` is the error the delete reports, if any; a failed delete removes nothing. */
  method RemoveBlock(db: Database, user: Option<string>, eventId: string, blockId: string, deleteError: Option<string>)
    returns (r: Outcome<bool>)
    modifies db`program
    ensures OwnerCheck(db.events, user, eventId).Some? ==>
      r == Err(OwnerCheck(db.events, user, eventId).value) && db.program == old(db.program)
    ensures OwnerCheck(db.events, user, eventId).None? && deleteError.Some? ==>
      r == Err(deleteError.value) && db.program == old(db.program)
    ensures r.Ok? <==> OwnerCheck(db.events, user, eventId).None? && deleteError.None?
    ensures r.Ok? ==> r == Ok(true) && db.program == Without(old(db.program), blockId, eventId)
  {
    var guard := OwnerCheck(db.events, user, eventId);
    if guard.Some? {
      return Err(guard.value);
    }
    if deleteError.Some? {
      return Err(deleteError.value);
    }
    db.program := Without(db.program, blockId, eventId);
    r := Ok(true);
  }

  /** Removing a block leaves a gap: the remaining blocks keep their sort orders. */
  lemma RemoveKeepsSortOrders(p: seq<Block>, id: string, e: string)
    ensures forall b :: b in Without(p, id, e) && b.eventId == e ==> b in EventBlocks(p, e)
    ensures forall b :: b in EventBlocks(p, e) && b.id != id ==> b in EventBlocks(Without(p, id, e), e)
  {
  }

  // ---------------------------------------------------------------------------
  // reorderTimelineBlockAction
  // ---------------------------------------------------------------------------

  datatype Direction = Up | Down

  /** `findIndex` by id over the ordered rows. */
  function PositionOf(s: seq<Block>, id: string): (k: int)
    ensures -1 <= k < |s|
    ensures k >= 0 ==> s[k].id == id && forall i :: 0 <= i < k ==> s[i].id != id
    ensures k == -1 <==> forall i :: 0 <= i < |s| ==> s[i].id != id
  {
    if s == [] then -1
    else if s[0].id == id then 0
    else
      var k := PositionOf(s[1..], id);
      assert forall i :: 1 <= i < |s| ==> s[i] == s[1..][i - 1];
      if k == -1 then -1 else k + 1
  }

  /** Which two rows of the ordered list `s` a move swaps: the block and its neighbour, or the
      error. */
  function NeighbourPair(s: seq<Block>, id: string, dir: Direction): (r: Outcome<(Block, Block)>)
    ensures r.Err? ==> r.message == BlockNotFound || r.message == CannotMove
  {
    var idx := PositionOf(s, id);
    if idx == -1 then Err(BlockNotFound)
    else
      var j := if dir == Up then idx - 1 else idx + 1;
      if j < 0 || j >= |s| then Err(CannotMove) else Ok((s[idx], s[j]))
  }

  /** Which two rows a move swaps: the block and its neighbour in ascending order, or the error. */
  function SwapPair(p: seq<Block>, e: string, id: string, dir: Direction): (r: Outcome<(Block, Block)>)
    ensures r.Err? ==> r.message == BlockNotFound || r.message == CannotMove
  {
    NeighbourPair(Ordered(EventBlocks(p, e)), id, dir)
  }

  /** A move fails with "Blok nenalezen" exactly when the event has no block with that id, and
      otherwise swaps two different rows of the event, the first being the moved block. */
  lemma SwapPairRows(p: seq<Block>, e: string, id: string, dir: Direction)
    requires UniqueIds(p)
    ensures var r := SwapPair(p, e, id, dir);
      (r == Err(BlockNotFound) <==> forall i :: 0 <= i < |p| ==> !(p[i].id == id && p[i].eventId == e)) &&
      (r.Ok? ==> r.value.0 in p && r.value.1 in p && r.value.0.id == id && r.value.1.id != id &&
                 r.value.0.eventId == e && r.value.1.eventId == e)
  {
    var s := Ordered(EventBlocks(p, e));
    var idx := PositionOf(s, id);
    if idx == -1 {
      forall i | 0 <= i < |p| && p[i].eventId == e ensures p[i].id != id {
        OrderedMembers(p, e, p[i]);
      }
    } else {
      OrderedMembers(p, e, s[idx]);
      var j := if dir == Up then idx - 1 else idx + 1;
      if 0 <= j < |s| {
        OrderedMembers(p, e, s[j]);
        OrderedUnique(p, e);
      }
    }
  }

  /** "Nelze presunout" comes exactly for the first block moved up or the last moved down; a
      move otherwise pairs the block with its neighbour in the list, the one before it for Up
      and the one after it for Down. */
  lemma NeighbourPairEnds(s: seq<Block>, id: string, dir: Direction)
    requires UniqueIds(s)
    ensures var r := NeighbourPair(s, id, dir);
      r == Err(CannotMove) <==>
        |s| > 0 && ((dir == Up && s[0].id == id) || (dir == Down && s[|s| - 1].id == id))
    ensures var r := NeighbourPair(s, id, dir);
      r.Ok? ==> var k := PositionOf(s, id);
        0 <= k < |s| && s[k] == r.value.0 &&
        (dir == Up ==> 0 < k && r.value.1 == s[k - 1]) &&
        (dir == Down ==> k + 1 < |s| && r.value.1 == s[k + 1])
  {
    var idx := PositionOf(s, id);
    if idx != -1 {
      if |s| > 0 && s[0].id == id {
        assert idx == 0;
      }
      if |s| > 0 && s[|s| - 1].id == id {
        assert idx == |s| - 1;
      }

    }
  }

  /** The same for the event's blocks in sort order. */
  lemma SwapPairEnds(p: seq<Block>, e: string, id: string, dir: Direction)
    requires UniqueIds(p)
    ensures var r := SwapPair(p, e, id, dir); var s := Ordered(EventBlocks(p, e));
      r == Err(CannotMove) <==>
        |s| > 0 && ((dir == Up && s[0].id == id) || (dir == Down && s[|s| - 1].id == id))
    ensures var r := SwapPair(p, e, id, dir); var s := Ordered(EventBlocks(p, e));
      r.Ok? ==> var k := PositionOf(s, id);
        0 <= k < |s| && s[k] == r.value.0 &&
        (dir == Up ==> 0 < k && r.value.1 == s[k - 1]) &&
        (dir == Down ==> k + 1 < |s| && r.value.1 == s[k + 1])
  {
    OrderedUnique(p, e);
    NeighbourPairEnds(Ordered(EventBlocks(p, e)), id, dir);
  }

  /** `update({ sort_order: v }).eq("id", id)`. */
  function SetOrderById(p: seq<Block>, id: string, v: int): (r: seq<Block>)
    ensures |r| == |p|
    ensures forall i :: 0 <= i < |p| ==> r[i] == if p[i].id == id then p[i].(sortOrder := v) else p[i]
  {
    seq(|p|, i requires 0 <= i < |p| => if p[i].id == id then p[i].(sortOrder := v) else p[i])
  }

  /** The two successive updates of a move. */
  function Swapped(p: seq<Block>, cur: Block, nb: Block): seq<Block> {
    SetOrderById(SetOrderById(p, cur.id, nb.sortOrder), nb.id, cur.sortOrder)
  }

  /** `loadFailed` says whether the read of the event's blocks failed. */
  method ReorderBlock(db: Database, user: Option<string>, eventId: string, blockId: string, dir: Direction,
                      loadFailed: bool)
    returns (r: Outcome<bool>)
    modifies db`program
    ensures OwnerCheck(db.events, user, eventId).Some? ==>
      r == Err(OwnerCheck(db.events, user, eventId).value) && db.program == old(db.program)
    ensures OwnerCheck(db.events, user, eventId).None? && loadFailed ==>
      r == Err(LoadFailed) && db.program == old(db.program)
    ensures OwnerCheck(db.events, user, eventId).None? && !loadFailed ==>
      var pair := SwapPair(old(db.program), eventId, blockId, dir);
      (pair.Err? ==> r == Err(pair.message) && db.program == old(db.program)) &&
      (pair.Ok? ==> r == Ok(true) && db.program == Swapped(old(db.program), pair.value.0, pair.value.1))
  {
    var guard := OwnerCheck(db.events, user, eventId);
    if guard.Some? {
      return Err(guard.value);
    }
    if loadFailed {
      return Err(LoadFailed);
    }
    var pair := NeighbourPair(Ordered(EventBlocks(db.program, eventId)), blockId, dir);
    if pair.Err? {
      return Err(pair.message);
    }
    var (current, neighbor) := pair.value;
    db.program := SetOrderById(db.program, current.id, neighbor.sortOrder);
    db.program := SetOrderById(db.program, neighbor.id, current.sortOrder);
    r := Ok(true);
  }

  function SortOrders(p: seq<Block>): (r: seq<int>)
    ensures |r| == |p| && forall i :: 0 <= i < |p| ==> r[i] == p[i].sortOrder
  {
    seq(|p|, i requires 0 <= i < |p| => p[i].sortOrder)
  }

  /** Exchanging the sort orders of two different rows i and j by id touches only those rows
      and keeps the multiset of sort orders. */
  lemma SwapRows(p: seq<Block>, i: int, j: int)
    requires UniqueIds(p) && 0 <= i < |p| && 0 <= j < |p| && i != j
    ensures |Swapped(p, p[i], p[j])| == |p|
    ensures Swapped(p, p[i], p[j])[i] == p[i].(sortOrder := p[j].sortOrder)
    ensures Swapped(p, p[i], p[j])[j] == p[j].(sortOrder := p[i].sortOrder)
    ensures forall k :: 0 <= k < |p| && k != i && k != j ==> Swapped(p, p[i], p[j])[k] == p[k]
    ensures multiset(SortOrders(Swapped(p, p[i], p[j]))) == multiset(SortOrders(p))
  {
    var q := Swapped(p, p[i], p[j]);
    forall k | 0 <= k < |p| && k != i && k != j ensures q[k] == p[k] {
      assert p[k].id != p[i].id && p[k].id != p[j].id;
    }
    var o := SortOrders(p)[i := p[j].sortOrder][j := p[i].sortOrder];
    forall k | 0 <= k < |p| ensures SortOrders(q)[k] == o[k] {
    }
    assert SortOrders(q) == o;
  }

  /** A successful move gives the block its neighbour's sort order and the neighbour the block's;
      every other row is unchanged and the multiset of sort orders is preserved. */
  lemma SwapExchangesOrders(p: seq<Block>, e: string, id: string, dir: Direction)
    requires UniqueIds(p)
    requires SwapPair(p, e, id, dir).Ok?
    ensures var cur := SwapPair(p, e, id, dir).value.0;
      var nb := SwapPair(p, e, id, dir).value.1;
      var q := Swapped(p, cur, nb);
      |q| == |p| &&
      multiset(SortOrders(q)) == multiset(SortOrders(p)) &&
      (forall k :: 0 <= k < |p| && p[k] == cur ==> q[k] == cur.(sortOrder := nb.sortOrder)) &&
      (forall k :: 0 <= k < |p| && p[k] == nb ==> q[k] == nb.(sortOrder := cur.sortOrder)) &&
      (forall k :: 0 <= k < |p| && p[k] != cur && p[k] != nb ==> q[k] == p[k])
  {
    SwapPairRows(p, e, id, dir);
    var cur := SwapPair(p, e, id, dir).value.0;
    var nb := SwapPair(p, e, id, dir).value.1;
    SwapMembers(p, cur, nb);
  }

  /** The exchange of two different rows' sort orders, stated by the rows themselves. */
  lemma SwapMembers(p: seq<Block>, cur: Block, nb: Block)
    requires UniqueIds(p) && cur in p && nb in p && cur.id != nb.id
    ensures var q := Swapped(p, cur, nb);
      |q| == |p| &&
      multiset(SortOrders(q)) == multiset(SortOrders(p)) &&
      (forall k :: 0 <= k < |p| && p[k] == cur ==> q[k] == cur.(sortOrder := nb.sortOrder)) &&
      (forall k :: 0 <= k < |p| && p[k] == nb ==> q[k] == nb.(sortOrder := cur.sortOrder)) &&
      (forall k :: 0 <= k < |p| && p[k] != cur && p[k] != nb ==> q[k] == p[k])
  {
    var i :| 0 <= i < |p| && p[i] == cur;
    var j :| 0 <= j < |p| && p[j] == nb;
    SwapRows(p, i, j);
    forall k | 0 <= k < |p| && (p[k] == cur || p[k] == nb) ensures k == i || k == j {
      assert p[k].id == p[i].id || p[k].id == p[j].id;
    }
  }

  // ---------------------------------------------------------------------------
  // updateTimelineBlockAction
  // ---------------------------------------------------------------------------

  /** The supplied fields of an edit; an absent field is left alone. */
  datatype BlockEdit = BlockEdit(title: Option<string>, durationMinutes: Option<int>)

  function Edited(b: Block, u: BlockEdit): (r: Block)
    ensures r.title == (if u.title.Some? then u.title else b.title)
    ensures r.durationMinutes == (if u.durationMinutes.Some? then u.durationMinutes else b.durationMinutes)
    ensures r.(title := b.title, durationMinutes := b.durationMinutes) == b
  {
    b.(title := if u.title.Some? then u.title else b.title,
       durationMinutes := if u.durationMinutes.Some? then u.durationMinutes else b.durationMinutes)
  }

  /** `updateError` is the error the update reports, if any; a failed update writes nothing. */
  method UpdateBlock(db: Database, user: Option<string>, eventId: string, blockId: string, u: BlockEdit,
                     updateError: Option<string>)
    returns (r: Outcome<bool>)
    modifies db`program
    ensures OwnerCheck(db.events, user, eventId).Some? ==>
      r == Err(OwnerCheck(db.events, user, eventId).value) && db.program == old(db.program)
    ensures OwnerCheck(db.events, user, eventId).None? && updateError.Some? ==>
      r == Err(updateError.value) && db.program == old(db.program)
    ensures r.Ok? <==> OwnerCheck(db.events, user, eventId).None? && updateError.None?
    ensures r.Ok? ==>
      r == Ok(true) && |db.program| == |old(db.program)| &&
      forall i :: 0 <= i < |db.program| ==>
        db.program[i] == if old(db.program)[i].id == blockId && old(db.program)[i].eventId == eventId
                         then Edited(old(db.program)[i], u) else old(db.program)[i]
  {
    var guard := OwnerCheck(db.events, user, eventId);
    if guard.Some? {
      return Err(guard.value);
    }
    if updateError.Some? {
      return Err(updateError.value);
    }
    var p := db.program;
    db.program := seq(|p|, i requires 0 <= i < |p| =>
      if p[i].id == blockId && p[i].eventId == eventId then Edited(p[i], u) else p[i]);
    r := Ok(true);
  }

  // ---------------------------------------------------------------------------
  // reorderTimelineBlocksBulkAction
  // ---------------------------------------------------------------------------

  /** The last position of `x` in `s`, or -1: when an id is written twice, the later update wins. */
  function LastIndexOf<T(==)>(s: seq<T>, x: T): (k: int)
    ensures -1 <= k < |s|
    ensures k >= 0 ==> s[k] == x && forall i :: k < i < |s| ==> s[i] != x
    ensures k == -1 <==> x !in s
  {
    if s == [] then -1
    else if s[|s| - 1] == x then |s| - 1
    else LastIndexOf(s[..|s| - 1], x)
  }

  /** The ids the batch actually writes: update `k` writes `ids[k]` unless it reported an error,
      in which case it wrote nothing. */
  function Writes(ids: seq<string>, errors: seq<Option<string>>): (w: seq<Option<string>>)
    requires |errors| == |ids|
    ensures |w| == |ids|
    ensures forall k :: 0 <= k < |ids| ==> (w[k] == Some(ids[k]) <==> errors[k].None?)
    ensures forall k :: 0 <= k < |ids| ==> (w[k].None? <==> errors[k].Some?)
  {
    seq(|ids|, k requires 0 <= k < |ids| => if errors[k].None? then Some(ids[k]) else None)
  }

  /** The table after the bulk renumbering: a block of the event written at position k gets sort
      order k (the last such k when written more than once). */
  function Renumbered(p: seq<Block>, e: string, w: seq<Option<string>>): (r: seq<Block>)
    ensures |r| == |p|
    ensures forall i :: 0 <= i < |p| ==> r[i].(sortOrder := p[i].sortOrder) == p[i]
  {
    seq(|p|, i requires 0 <= i < |p| =>
      if p[i].eventId == e && Some(p[i].id) in w then p[i].(sortOrder := LastIndexOf(w, Some(p[i].id))) else p[i])
  }

  /** `update({ sort_order: v }).eq("id", id).eq("event_id", e)`. */
  function SetOrderWhere(p: seq<Block>, id: string, e: string, v: int): (r: seq<Block>)
    ensures |r| == |p|
    ensures forall i :: 0 <= i < |p| ==>
      r[i] == if p[i].id == id && p[i].eventId == e then p[i].(sortOrder := v) else p[i]
  {
    seq(|p|, i requires 0 <= i < |p| => if p[i].id == id && p[i].eventId == e then p[i].(sortOrder := v) else p[i])
  }

  /** `results.find((r) => r.error)`: the first error of the batch, in list order. */
  function FirstError(errors: seq<Option<string>>): (f: Option<string>)
    ensures f.None? <==> forall k :: 0 <= k < |errors| ==> errors[k].None?
    ensures f.Some? ==> exists k :: 0 <= k < |errors| && errors[k] == f &&
                          forall j :: 0 <= j < k ==> errors[j].None?
  {
    if errors == [] then None
    else
      var f := FirstError(errors[..|errors| - 1]);
      assert forall k :: 0 <= k < |errors| - 1 ==> errors[..|errors| - 1][k] == errors[k];
      if f.Some? then f else errors[|errors| - 1]
  }

  /** `updateErrors[k]` is the error update `k` of the batch reports, if any. All the updates run;
      a failed one writes nothing, and the first error in list order is returned. */
  method ReorderBulk(db: Database, user: Option<string>, eventId: string, orderedIds: seq<string>,
                     updateErrors: seq<Option<string>>)
    returns (r: Outcome<bool>)
    requires |updateErrors| == |orderedIds|
    modifies db`program
    ensures OwnerCheck(db.events, user, eventId).Some? ==>
      r == Err(OwnerCheck(db.events, user, eventId).value) && db.program == old(db.program)
    ensures OwnerCheck(db.events, user, eventId).None? ==>
      db.program == Renumbered(old(db.program), eventId, Writes(orderedIds, updateErrors)) &&
      r == (if FirstError(updateErrors).Some? then Err(FirstError(updateErrors).value) else Ok(true))
  {
    var guard := OwnerCheck(db.events, user, eventId);
    if guard.Some? {
      return Err(guard.value);
    }
    ghost var p0 := db.program;
    ghost var w := Writes(orderedIds, updateErrors);
    var failed: Option<string> := None;
    var i := 0;
    while i < |orderedIds|
      invariant 0 <= i <= |orderedIds|
      invariant db.program == Renumbered(p0, eventId, w[..i])
      invariant failed == FirstError(updateErrors[..i])
    {
      assert w[..i + 1][..i] == w[..i];
      assert updateErrors[..i + 1][..i] == updateErrors[..i];
      if updateErrors[i].None? {
        db.program := SetOrderWhere(db.program, orderedIds[i], eventId, i);
      } else if failed.None? {
        failed := updateErrors[i];
      }
      i := i + 1;
    }
    assert w[..i] == w;
    assert updateErrors[..i] == updateErrors;
    r := if failed.Some? then Err(failed.value) else Ok(true);
  }

  /** With no id written twice, the block of the event written at position k gets sort order k;
      blocks of the event that are not written (unlisted, or whose update failed), and blocks of
      other events, keep theirs. */
  lemma {:induction false} BulkAssignsPositions(p: seq<Block>, e: string, w: seq<Option<string>>)
    requires forall i, j :: 0 <= i < j < |w| && w[i].Some? ==> w[i] != w[j]
    ensures forall i, k :: 0 <= i < |p| && 0 <= k < |w| && p[i].eventId == e && w[k] == Some(p[i].id) ==>
      Renumbered(p, e, w)[i].sortOrder == k
    ensures forall i :: 0 <= i < |p| && (p[i].eventId != e || Some(p[i].id) !in w) ==> Renumbered(p, e, w)[i] == p[i]
  {
    forall i, k | 0 <= i < |p| && 0 <= k < |w| && p[i].eventId == e && w[k] == Some(p[i].id)
      ensures Renumbered(p, e, w)[i].sortOrder == k
    {
      var m := LastIndexOf(w, Some(p[i].id));
      assert w[m] == w[k];
    }
  }

  // ---------------------------------------------------------------------------
  // applyTimelineTemplateAction
  // ---------------------------------------------------------------------------

  /** The last games-library row with that slug, or -1. */
  function LastGameIndex(games: seq<GameEntry>, slug: string): (k: int)
    ensures -1 <= k < |games|
    ensures k >= 0 ==> games[k].slug == slug && forall i :: k < i < |games| ==> games[i].slug != slug
    ensures k == -1 <==> forall i :: 0 <= i < |games| ==> games[i].slug != slug
  {
    if games == [] then -1
    else if games[|games| - 1].slug == slug then |games| - 1
    else LastGameIndex(games[..|games| - 1], slug)
  }

  /** The games-library id a slug resolves to: building a map from the fetched rows lets the last
      row with that slug win. */
  function ResolveSlug(games: seq<GameEntry>, slug: string): (r: Option<string>)
    ensures r.None? <==> forall i :: 0 <= i < |games| ==> games[i].slug != slug
    ensures r.Some? ==> exists k :: 0 <= k < |games| && games[k].slug == slug && games[k].id == r.value &&
                                    forall i :: k < i < |games| ==> games[i].slug != slug
  {
    var k := LastGameIndex(games, slug);
    if k == -1 then None else Some(games[k].id)
  }

  /** The row inserted for template block `i`. */
  function TemplateRow(e: string, b: TimelineTemplates.TemplateBlock, i: int, games: seq<GameEntry>, id: string): Block {
    Block(id, e, b.blockType,
          if b.gameSlug.Some? then ResolveSlug(games, b.gameSlug.value) else None,
          Some(b.title), Some(b.durationMinutes), i, Pending, None, None)
  }

  function TemplateRows(e: string, t: seq<TimelineTemplates.TemplateBlock>, games: seq<GameEntry>, ids: seq<string>): (r: seq<Block>)
    requires |ids| == |t|
    ensures |r| == |t|
    ensures forall i :: 0 <= i < |t| ==>
      r[i].id == ids[i] && r[i].eventId == e && r[i].sortOrder == i && r[i].status == Pending &&
      r[i].blockType == t[i].blockType && r[i].title == Some(t[i].title) &&
      r[i].durationMinutes == Some(t[i].durationMinutes) && r[i].startedAt.None? && r[i].completedAt.None?
  {
    seq(|t|, i requires 0 <= i < |t| => TemplateRow(e, t[i], i, games, ids[i]))
  }

  /** `delete().eq("event_id", e)`: the other events' rows, in order. */
  function OtherEvents(p: seq<Block>, e: string): (r: seq<Block>)
    ensures |r| <= |p|
    ensures forall b :: b in r <==> b in p && b.eventId != e
  {
    if p == [] then []
    else (if p[0].eventId != e then [p[0]] else []) + OtherEvents(p[1..], e)
  }

  /** `insertError` is the error the bulk insert reports, if any; a failed insert writes no row.
      The delete before it is not checked, so on a failed insert the event is left with no block. */
  method ApplyTemplate(db: Database, user: Option<string>, eventId: string,
                       eventType: TimelineTemplates.EventType, newIds: seq<string>, insertError: Option<string>)
    returns (r: Outcome<bool>)
    requires |newIds| == |TimelineTemplates.Template(eventType)|
    requires forall i, j :: 0 <= i < j < |newIds| ==> newIds[i] != newIds[j]
    requires forall i :: 0 <= i < |newIds| ==> FreshId(db.program, newIds[i])
    modifies db`program
    ensures OwnerCheck(db.events, user, eventId).Some? ==>
      r == Err(OwnerCheck(db.events, user, eventId).value) && db.program == old(db.program)
    ensures OwnerCheck(db.events, user, eventId).None? && TimelineTemplates.Template(eventType) == [] ==>
      r == Err(EmptyTemplate) && db.program == old(db.program)
    ensures OwnerCheck(db.events, user, eventId).None? && TimelineTemplates.Template(eventType) != [] && insertError.Some? ==>
      r == Err(insertError.value) && db.program == OtherEvents(old(db.program), eventId)
    ensures r.Ok? <==>
      OwnerCheck(db.events, user, eventId).None? && TimelineTemplates.Template(eventType) != [] && insertError.None?
    ensures r.Ok? ==>
      r == Ok(true) &&
      db.program == OtherEvents(old(db.program), eventId) +
                    TemplateRows(eventId, TimelineTemplates.Template(eventType), db.games, newIds)
    ensures UniqueIds(old(db.program)) ==> UniqueIds(db.program)
  {
    var guard := OwnerCheck(db.events, user, eventId);
    if guard.Some? {
      return Err(guard.value);
    }
    var template := TimelineTemplates.Template(eventType);
    if |template| == 0 {
      return Err(EmptyTemplate);
    }
    ghost var p0 := db.program;
    db.program := OtherEvents(db.program, eventId);
    OtherEventsUnique(p0, eventId);
    if insertError.Some? {
      return Err(insertError.value);
    }
    var rows := TemplateRows(eventId, template, db.games, newIds);
    assert UniqueIds(p0) ==> UniqueIds(db.program + rows) by {
      if UniqueIds(p0) {
        forall i, j | 0 <= i < j < |db.program + rows| ensures (db.program + rows)[i].id != (db.program + rows)[j].id {
          if j >= |db.program| && i < |db.program| {
            assert db.program[i] in p0;
            var m :| 0 <= m < |p0| && p0[m] == db.program[i];
            assert FreshId(p0, newIds[j - |db.program|]);
          }
        }
      }
    }
    db.program := db.program + rows;
    r := Ok(true);
  }

  /** Deleting an event's rows keeps the remaining ids unique. */
  lemma {:induction false} OtherEventsUnique(p: seq<Block>, e: string)
    ensures UniqueIds(p) ==> UniqueIds(OtherEvents(p, e))
    decreases |p|
  {
    if p != [] && UniqueIds(p) {
      assert UniqueIds(p[1..]) by {
        forall i, j | 0 <= i < j < |p[1..]| ensures p[1..][i].id != p[1..][j].id {
          assert p[1..][i] == p[i + 1] && p[1..][j] == p[j + 1];
        }
      }
      OtherEventsUnique(p[1..], e);
      var rest := OtherEvents(p[1..], e);
      forall k | 0 <= k < |rest| ensures rest[k].id != p[0].id {
        assert rest[k] in p[1..];
        var m :| 0 <= m < |p[1..]| && p[1..][m] == rest[k];
        assert p[m + 1] == rest[k];
      }
    }
  }

  /** After a template is applied the event's program is exactly the template, in order, numbered
      from 0; a block's game id is the resolved slug, or none when the slug is not in the library. */
  lemma {:induction false} TemplateReplacesProgram(p: seq<Block>, e: string, t: seq<TimelineTemplates.TemplateBlock>,
                                                   games: seq<GameEntry>, ids: seq<string>)
    requires |ids| == |t|
    ensures var rows := TemplateRows(e, t, games, ids);
      EventBlocks(OtherEvents(p, e) + rows, e) == rows &&
      (forall i :: 0 <= i < |t| ==>
         (rows[i].sortOrder == i && rows[i].status == Pending &&
          rows[i].blockType == t[i].blockType && rows[i].title == Some(t[i].title) &&
          (rows[i].gameId.Some? <==>
             (t[i].gameSlug.Some? && exists g :: 0 <= g < |games| && games[g].slug == t[i].gameSlug.value))))
  {
    var rows := TemplateRows(e, t, games, ids);
    EventBlocksSplit(OtherEvents(p, e), rows, e);
    NoEventBlocks(OtherEvents(p, e), e);
    AllEventBlocks(rows, e);
  }

  lemma {:induction false} EventBlocksSplit(a: seq<Block>, b: seq<Block>, e: string)
    ensures EventBlocks(a + b, e) == EventBlocks(a, e) + EventBlocks(b, e)
    decreases |a|
  {
    if a == [] {
      assert a + b == b;
    } else {
      assert (a + b)[1..] == a[1..] + b;
      EventBlocksSplit(a[1..], b, e);
    }
  }

  lemma NoEventBlocks(a: seq<Block>, e: string)
    requires forall x :: x in a ==> x.eventId != e
    ensures EventBlocks(a, e) == []
  {
    if EventBlocks(a, e) != [] {
      assert EventBlocks(a, e)[0] in EventBlocks(a, e);
    }
  }

  lemma {:induction false} AllEventBlocks(a: seq<Block>, e: string)
    requires forall i :: 0 <= i < |a| ==> a[i].eventId == e
    ensures EventBlocks(a, e) == a
    decreases |a|
  {
    if a != [] {
      AllEventBlocks(a[1..], e);
    }
  }
}

=== FILE: timeline_tab.dfy ===
/** The program editor on the dashboard (`src/components/dashboard/TimelineTab.tsx`): a local
    list of blocks that every handler changes at once (optimistically) and corrects when the
    server answers. Each handler is split at its `await`: the first half returns the request it
    sends, the second takes the server's answer. */
module TimelineTab {
  import opened Common
  import opened Db
  import TimelineActions

  /** BLOCK_TYPE_META labels. */
  function TypeLabel(t: BlockType): string {
    match t
    case Game => "Hra"
    case Custom => "Vlastni"
    case Slideshow => "Slideshow"
    case MessageWall => "Nastenka"
  }

  /** The sum of the durations, a block without one counting 0. */
  function TotalMinutes(blocks: seq<Block>): (m: int)
    ensures (forall i :: 0 <= i < |blocks| && blocks[i].durationMinutes.Some? ==> blocks[i].durationMinutes.value >= 0) ==> m >= 0
    ensures (forall i :: 0 <= i < |blocks| ==> blocks[i].durationMinutes.None?) ==> m == 0
  {
    if blocks == [] then 0
    else (if blocks[0].durationMinutes.Some? then blocks[0].durationMinutes.value else 0) + TotalMinutes(blocks[1..])
  }

  /** The "(Hh Mm)" part of the footer, shown from one hour up. */
  function Footer(total: int): (r: Option<(int, int)>)
    ensures r.Some? <==> total >= 60
    ensures r.Some? ==> r.value.0 >= 1 && 0 <= r.value.1 < 60 && r.value.0 * 60 + r.value.1 == total
  {
    if total >= 60 then Some((total / 60, total % 60)) else None
  }

  /** Durations add up over concatenation, so adding a block adds its duration. */
  lemma {:induction false} TotalMinutesAppend(a: seq<Block>, b: seq<Block>)
    ensures TotalMinutes(a + b) == TotalMinutes(a) + TotalMinutes(b)
    decreases |a|
  {
    if a == [] {
      assert a + b == b;
    } else {
      assert (a + b)[1..] == a[1..] + b;
      TotalMinutesAppend(a[1..], b);
    }
  }

  /** `filter(b => b.id !== id)`. */
  function WithoutId(blocks: seq<Block>, id: string): (r: seq<Block>)
    ensures |r| <= |blocks|
    ensures forall b :: b in r <==> b in blocks && b.id != id
  {
    if blocks == [] then []
    else (if blocks[0].id != id then [blocks[0]] else []) + WithoutId(blocks[1..], id)
  }

  /** `map(b => b.id === id ? x : b)`. */
  function ReplaceId(blocks: seq<Block>, id: string, x: Block): (r: seq<Block>)
    ensures |r| == |blocks|
    ensures forall i :: 0 <= i < |blocks| ==> r[i] == if blocks[i].id == id then x else blocks[i]
  {
    seq(|blocks|, i requires 0 <= i < |blocks| => if blocks[i].id == id then x else blocks[i])
  }

  /** The optimistic row for a new block: pending, numbered by the list length, with the type's
      label and 10 minutes unless given. */
  function TempBlock(tempId: string, eventId: string, t: BlockType, gameId: Option<string>,
                     title: Option<string>, duration: Option<int>, count: int): (b: Block)
    ensures b.id == tempId && b.status == Pending && b.sortOrder == count
    ensures b.title == Some(if title.Some? then title.value else TypeLabel(t))
    ensures b.durationMinutes == Some(if duration.Some? then duration.value else 10)
  {
    Block(tempId, eventId, t, gameId,
          Some(if title.Some? then title.value else TypeLabel(t)),
          Some(if duration.Some? then duration.value else 10),
          count, Pending, None, None)
  }

  /** The list once the add settles: without the temporary row on error, with the server's row
      in its place otherwise. */
  function SettleAdd(blocks: seq<Block>, tempId: string, result: Outcome<Block>): seq<Block> {
    if result.Err? then WithoutId(blocks, tempId) else ReplaceId(blocks, tempId, result.value)
  }

  /** An add that fails leaves the list as it was; one that succeeds appends the server's row. */
  lemma AddRoundTrip(blocks: seq<Block>, temp: Block, result: Outcome<Block>)
    requires forall i :: 0 <= i < |blocks| ==> blocks[i].id != temp.id
    ensures result.Err? ==> SettleAdd(blocks + [temp], temp.id, result) == blocks
    ensures result.Ok? ==> SettleAdd(blocks + [temp], temp.id, result) == blocks + [result.value]
  {
    if result.Err? {
      WithoutAbsent(blocks, temp.id);
      WithoutSplit(blocks, [temp], temp.id);
    }
  }

  lemma {:induction false} WithoutSplit(a: seq<Block>, b: seq<Block>, id: string)
    ensures WithoutId(a + b, id) == WithoutId(a, id) + WithoutId(b, id)
    decreases |a|
  {
    if a == [] {
      assert a + b == b;
    } else {
      assert (a + b)[1..] == a[1..] + b;
      WithoutSplit(a[1..], b, id);
    }
  }

  lemma {:induction false} WithoutAbsent(a: seq<Block>, id: string)
    requires forall i :: 0 <= i < |a| ==> a[i].id != id
    ensures WithoutId(a, id) == a
    decreases |a|
  {
    if a != [] {
      WithoutAbsent(a[1..], id);
    }
  }

  /** The list with positions i and j exchanged. */
  function SwapAt(blocks: seq<Block>, i: int, j: int): (r: seq<Block>)
    requires 0 <= i < |blocks| && 0 <= j < |blocks|
    ensures |r| == |blocks| && multiset(r) == multiset(blocks)
    ensures r[i] == blocks[j] && r[j] == blocks[i]
    ensures forall k :: 0 <= k < |blocks| && k != i && k != j ==> r[k] == blocks[k]
  {
    blocks[i := blocks[j]][j := blocks[i]]
  }

  function PositionOfId(blocks: seq<Block>, id: string): (k: int)
    ensures -1 <= k < |blocks|
    ensures k >= 0 ==> blocks[k].id == id && forall i :: 0 <= i < k ==> blocks[i].id != id
    ensures k == -1 <==> forall i :: 0 <= i < |blocks| ==> blocks[i].id != id
  {
    TimelineActions.PositionOf(blocks, id)
  }

  class Editor {
    const eventId: string
    var blocks: seq<Block>

    constructor (eventId: string, initialBlocks: seq<Block>)
      ensures this.eventId == eventId && blocks == initialBlocks
    {
      this.eventId := eventId;
      blocks := initialBlocks;
    }

    /** handleAddBlock up to the server call: the temporary row is appended at once. */
    method BeginAdd(t: BlockType, gameId: Option<string>, title: Option<string>, duration: Option<int>, tempId: string)
      returns (request: TimelineActions.NewBlock)
      modifies this
      ensures blocks == old(blocks) + [TempBlock(tempId, eventId, t, gameId, title, duration, |old(blocks)|)]
      ensures request == TimelineActions.NewBlock(t, gameId, blocks[|old(blocks)|].title.value,
                                                  blocks[|old(blocks)|].durationMinutes.value)
    {
      var temp := TempBlock(tempId, eventId, t, gameId, title, duration, |blocks|);
      blocks := blocks + [temp];
      request := TimelineActions.NewBlock(t, gameId, temp.title.value, temp.durationMinutes.value);
    }

    /** handleAddBlock after the server call. */
    method FinishAdd(tempId: string, result: Outcome<Block>)
      modifies this
      ensures blocks == SettleAdd(old(blocks), tempId, result)
    {
      if result.Err? {
        blocks := WithoutId(blocks, tempId);
      } else {
        blocks := ReplaceId(blocks, tempId, result.value);
      }
    }

    /** handleRemove up to the server call; the list before the removal is kept for rollback. */
    method BeginRemove(blockId: string) returns (prev: seq<Block>)
      modifies this
      ensures prev == old(blocks) && blocks == WithoutId(old(blocks), blockId)
    {
      prev := blocks;
      blocks := WithoutId(blocks, blockId);
    }

    method FinishRemove(prev: seq<Block>, failed: bool)
      modifies this
      ensures failed ==> blocks == prev
      ensures !failed ==> blocks == old(blocks)
    {
      if failed {
        blocks := prev;
      }
    }

    /** handleReorder up to the server call: swaps the block with its neighbour in the list, or
        does nothing (and sends nothing) at either end. */
    method BeginReorder(blockId: string, dir: TimelineActions.Direction) returns (prev: seq<Block>, sent: bool)
      requires exists i :: 0 <= i < |blocks| && blocks[i].id == blockId
      modifies this
      ensures prev == old(blocks)
      ensures var idx := PositionOfId(old(blocks), blockId);
        var swapIdx := if dir == TimelineActions.Up then idx - 1 else idx + 1;
        (sent <==> 0 <= swapIdx < |old(blocks)|) &&
        (sent ==> blocks == SwapAt(old(blocks), idx, swapIdx)) &&
        (!sent ==> blocks == old(blocks))
    {
      prev := blocks;
      var idx := PositionOfId(blocks, blockId);
      var swapIdx := if dir == TimelineActions.Up then idx - 1 else idx + 1;
      if swapIdx < 0 || swapIdx >= |blocks| {
        return prev, false;
      }
      blocks := SwapAt(blocks, idx, swapIdx);
      sent := true;
    }

    /** On error the list reverts to the one the handler started from. */
    method FinishReorder(prev: seq<Block>, failed: bool)
      modifies this
      ensures failed ==> blocks == prev
      ensures !failed ==> blocks == old(blocks)
    {
      if failed {
        blocks := prev;
      }
    }

    /** handleTitleSave: a blank title is ignored; otherwise the trimmed title is shown and sent. */
    method SaveTitle(blockId: string, newTitle: string) returns (request: Option<TimelineActions.BlockEdit>)
      modifies this
      ensures Trim(newTitle) == [] ==> request.None? && blocks == old(blocks)
      ensures Trim(newTitle) != [] ==>
        request == Some(TimelineActions.BlockEdit(Some(Trim(newTitle)), None)) &&
        |blocks| == |old(blocks)| &&
        forall i :: 0 <= i < |blocks| ==>
          blocks[i] == if old(blocks)[i].id == blockId then old(blocks)[i].(title := Some(Trim(newTitle))) else old(blocks)[i]
    {
      var t := Trim(newTitle);
      if t == [] {
        return None;
      }
      var bs := blocks;
      blocks := seq(|bs|, i requires 0 <= i < |bs| => if bs[i].id == blockId then bs[i].(title := Some(t)) else bs[i]);
      request := Some(TimelineActions.BlockEdit(Some(t), None));
    }

    /** handleDurationChange: the text is read with parseInt; no number, or one below 1, is ignored. */
    method ChangeDuration(blockId: string, value: string) returns (request: Option<TimelineActions.BlockEdit>)
      modifies this
      ensures var m := ParseInt(value);
        (m.None? || m.value < 1 ==> request.None? && blocks == old(blocks)) &&
        (m.Some? && m.value >= 1 ==>
          request == Some(TimelineActions.BlockEdit(None, Some(m.value))) &&
          |blocks| == |old(blocks)| &&
          forall i :: 0 <= i < |blocks| ==>
            blocks[i] == if old(blocks)[i].id == blockId then old(blocks)[i].(durationMinutes := Some(m.value)) else old(blocks)[i])
    {
      var mins := ParseInt(value);
      if mins.None? || mins.value < 1 {
        return None;
      }
      var bs := blocks;
      blocks := seq(|bs|, i requires 0 <= i < |bs| => if bs[i].id == blockId then bs[i].(durationMinutes := Some(mins.value)) else bs[i]);
      request := Some(TimelineActions.BlockEdit(None, Some(mins.value)));
    }
  }
}

=== FILE: timeline_templates.dfy ===
/** The constant program templates, event-type labels and seriousness levels
    (`src/lib/timeline-templates.ts`). */
module TimelineTemplates {
  import opened Common
  import opened Db

  datatype EventType = Silvestr | Birthday | Company | Reunion | CustomEvent

  /** One block of a template; `gameSlug` names a games-library entry to resolve at insert time. */
  datatype TemplateBlock = TemplateBlock(
    blockType: BlockType,
    title: string,
    durationMinutes: int,
    gameSlug: Option<string>)

  function Plain(t: BlockType, title: string, minutes: int): TemplateBlock {
    TemplateBlock(t, title, minutes, None)
  }

  function GameBlock(title: string, minutes: int, slug: string): TemplateBlock {
    TemplateBlock(BlockType.Game, title, minutes, Some(slug))
  }

  /** TIMELINE_TEMPLATES. */
  function Template(t: EventType): seq<TemplateBlock> {
    match t
    case Silvestr => [
      Plain(Custom, "Privitani hostu", 15),
      GameBlock("Party Bingo", 15, "bingo"),
      GameBlock("Hot Take", 20, "hot-take"),
      Plain(Custom, "Odpocitavani pulnoci", 10),
      Plain(MessageWall, "Novorocni prani", 15)]
    case Birthday => [
      Plain(Custom, "Privitani hostu", 15),
      GameBlock("Kdo jsem ted?", 20, "who-am-i"),
      GameBlock("Dve pravdy, jedna lez", 20, "two-truths"),
      GameBlock("Kviz o oslavenci", 15, "quiz"),
      Plain(Slideshow, "Fotky z minulosti", 10)]
    case Company => [
      Plain(Custom, "Uvod a agenda", 10),
      GameBlock("Team Bingo", 15, "bingo"),
      GameBlock("Kdo jsem ted?", 20, "who-am-i"),
      GameBlock("Kreslici souboj", 20, "drawing-battle"),
      Plain(MessageWall, "Zpetna vazba", 10)]
    case Reunion => [
      Plain(Custom, "Privitani a predstaveni", 15),
      GameBlock("Dve pravdy, jedna lez", 20, "two-truths"),
      GameBlock("Kdo jsem ted?", 20, "who-am-i"),
      Plain(Slideshow, "Spolecne vzpominky", 15),
      Plain(MessageWall, "Vzkazy a postrehy", 10)]
    case CustomEvent => []
  }

  /** EVENT_TYPE_LABELS. */
  function EventTypeLabel(t: EventType): string {
    match t
    case Silvestr => "Silvestr"
    case Birthday => "Narozeniny"
    case Company => "Firemni akce"
    case Reunion => "Sraz / Reunion"
    case CustomEvent => "Vlastni"
  }

  datatype Seriousness = Seriousness(caption: string, description: string, color: string)

  /** SERIOUSNESS_LABELS looked up by level; a level without an entry reads as undefined. */
  function SeriousnessOf(level: int): Option<Seriousness> {
    if level == 1 then Some(Seriousness("Totalni chaos", "Vse je dovoleno, zadna pravidla", "text-pink-400"))
    else if level == 2 then Some(Seriousness("Party hard", "Volnejsi pravidla, hodne zabavy", "text-orange-400"))
    else if level == 3 then Some(Seriousness("Vybalancovane", "Mix zabavy a slusnosti", "text-yellow-400"))
    else if level == 4 then Some(Seriousness("Slusna akce", "Kultivorany humor, firemni-friendly", "text-blue-400"))
    else if level == 5 then Some(Seriousness("Ultra seriozni", "Formalni ton, zadne excesy", "text-cyan-400"))
    else None
  }

  function TemplateMinutes(bs: seq<TemplateBlock>): int {
    if bs == [] then 0 else bs[0].durationMinutes + TemplateMinutes(bs[1..])
  }

  /** Only the custom event type has an empty template; every other has five blocks, a block
      names a game exactly when it is a game block, and every duration is positive. */
  lemma TemplateShape(t: EventType)
    ensures Template(t) == [] <==> t == CustomEvent
    ensures t != CustomEvent ==> |Template(t)| == 5
    ensures forall b :: b in Template(t) ==> (b.gameSlug.Some? <==> b.blockType == BlockType.Game)
    ensures forall b :: b in Template(t) ==> b.durationMinutes > 0
  {
    match t
    case CustomEvent =>
    case _ =>
      var bs := Template(t);
      forall b | b in bs
        ensures (b.gameSlug.Some? <==> b.blockType == BlockType.Game) && b.durationMinutes > 0
      {
        var i :| 0 <= i < 5 && bs[i] == b;
      }
  }

  /** The minutes of a five-block template, written out. */
  lemma MinutesOfFive(bs: seq<TemplateBlock>)
    requires |bs| == 5
    ensures TemplateMinutes(bs) ==
      bs[0].durationMinutes + bs[1].durationMinutes + bs[2].durationMinutes +
      bs[3].durationMinutes + bs[4].durationMinutes
  {
    var b1, b2, b3, b4 := bs[1..], bs[2..], bs[3..], bs[4..];
    assert b1[1..] == b2 && b2[1..] == b3 && b3[1..] == b4 && b4[1..] == [];
    assert TemplateMinutes(b4) == bs[4].durationMinutes;
    assert TemplateMinutes(b3) == bs[3].durationMinutes + TemplateMinutes(b4);
    assert TemplateMinutes(b2) == bs[2].durationMinutes + TemplateMinutes(b3);
    assert TemplateMinutes(b1) == bs[1].durationMinutes + TemplateMinutes(b2);
  }

  lemma TemplateTotals()
    ensures TemplateMinutes(Template(Silvestr)) == 75
    ensures TemplateMinutes(Template(Birthday)) == 80
    ensures TemplateMinutes(Template(Company)) == 75
    ensures TemplateMinutes(Template(Reunion)) == 80
    ensures TemplateMinutes(Template(CustomEvent)) == 0
  {
    MinutesOfFive(Template(Silvestr));
    MinutesOfFive(Template(Birthday));
    MinutesOfFive(Template(Company));
    MinutesOfFive(Template(Reunion));
  }

  /** Every event type has its own, non-empty label. */
  lemma EventTypeLabelsDistinct(a: EventType, b: EventType)
    ensures EventTypeLabel(a) != ""
    ensures EventTypeLabel(a) == EventTypeLabel(b) <==> a == b
  {
  }

  /** Seriousness is defined exactly for the levels 1 to 5. */
  lemma SeriousnessLevels(level: int)
    ensures SeriousnessOf(level).Some? <==> 1 <= level <= 5
  {
  }
}

=== FILE: two_truths_moderator.dfy ===
/** The moderator's controls of "two truths and a lie"
    (`src/components/games/two-truths/ModeratorControls.tsx`): submissions of three statements are
    loaded and shuffled; each round broadcasts one player's statements with the lie hidden, and the
    results reveal it.

    As written, both `showRound` and `handleShowResults` call a store action `setGameRoundData`
    that the store does not define, so each throws right after its broadcast. The methods
    `ShowRoundAsWritten` and `ShowResultsAsWritten` model that; `ShowRound` and `ShowResults` are
    the evident intent, with the round data kept by the controls. */
module TwoTruthsModerator {
  import opened Common
  import opened Db
  import opened GameStore
  import opened EventChannel

  const UnknownName := "Neznamy"

  datatype StatementSubmission = StatementSubmission(
    attendeeId: string,
    displayName: string,
    statements: seq<string>,
    lieIndex: int)

  /** The rows the load query selects: this program's statement submissions of round 0. */
  predicate IsStatementRow(r: Response, programId: string) {
    r.programId == programId && r.responseType == "statement_submission" && r.roundNumber == 0 &&
    r.payload.StatementsPayload?
  }

  function ToSubmission(r: Response, attendees: seq<Attendee>): (s: StatementSubmission)
    requires r.payload.StatementsPayload?
    ensures s.attendeeId == r.attendeeId && s.statements == r.payload.statements && s.lieIndex == r.payload.lieIndex
    ensures (forall a | a in attendees :: a.id != r.attendeeId) ==> s.displayName == UnknownName
    ensures (exists a | a in attendees :: a.id == r.attendeeId) ==>
              exists a | a in attendees :: a.id == r.attendeeId && a.displayName == s.displayName
  {
    var author := FindAttendee(attendees, r.attendeeId);
    StatementSubmission(r.attendeeId, if author.Some? then author.value.displayName else UnknownName,
                        r.payload.statements, r.payload.lieIndex)
  }

  /** The loaded submissions before shuffling, in row order. */
  function SubmissionRows(rows: seq<Response>, programId: string, attendees: seq<Attendee>): (r: seq<StatementSubmission>)
    ensures |r| <= |rows|
    ensures forall s | s in r :: exists x | x in rows :: IsStatementRow(x, programId) && s == ToSubmission(x, attendees)
    ensures forall x | x in rows && IsStatementRow(x, programId) :: ToSubmission(x, attendees) in r
  {
    if rows == [] then []
    else
      var rest := SubmissionRows(rows[1..], programId, attendees);
      assert forall x | x in rows[1..] :: x in rows;
      if IsStatementRow(rows[0], programId) then [ToSubmission(rows[0], attendees)] + rest else rest
  }

  /** The filter distributes over concatenation, so every kept row is kept as often as it
      occurs, in order. */
  lemma {:induction false} SubmissionRowsAppend(a: seq<Response>, b: seq<Response>, programId: string, attendees: seq<Attendee>)
    ensures SubmissionRows(a + b, programId, attendees) == SubmissionRows(a, programId, attendees) + SubmissionRows(b, programId, attendees)
    decreases |a|
  {
    if a == [] {
      assert a + b == b;
    } else {
      var head := if IsStatementRow(a[0], programId) then [ToSubmission(a[0], attendees)] else [];
      assert (a + b)[0] == a[0] && (a + b)[1..] == a[1..] + b;
      assert SubmissionRows(a + b, programId, attendees) == head + SubmissionRows(a[1..] + b, programId, attendees);
      SubmissionRowsAppend(a[1..], b, programId, attendees);
    }
  }

  /** A single row is kept, as its submission, exactly when it is a statement row for this program. */
  lemma SubmissionRowsOne(x: Response, programId: string, attendees: seq<Attendee>)
    ensures SubmissionRows([x], programId, attendees) == if IsStatementRow(x, programId) then [ToSubmission(x, attendees)] else []
  {
    assert [x][1..] == [];
  }

  /** The round data of submission `s` shown as round idx+1 of `total`. */
  function RoundOf(s: StatementSubmission, idx: int, total: int): (r: LieRound)
    ensures r.statements == s.statements && r.correctLieIndex == s.lieIndex
    ensures r.playerName == s.displayName && r.playerId == s.attendeeId
    ensures r.round == idx + 1 && r.total == total
  {
    LieRound(s.statements, s.lieIndex, s.displayName, s.attendeeId, idx + 1, total)
  }

  /** What players receive: the same round with the lie index replaced by -1. */
  function Hidden(r: LieRound): (h: LieRound)
    ensures h.correctLieIndex == -1
    ensures h.(correctLieIndex := r.correctLieIndex) == r
  {
    r.(correctLieIndex := -1)
  }

  // ---------------------------------------------------------------------------
  // The store effect of showing a round
  // ---------------------------------------------------------------------------

  /** As written: the call that throws comes before the phase change, so the store keeps its state. */
  function RoundStoreAsWritten(s: GameState): (r: GameState)
    ensures r.phase == s.phase && r.votes == s.votes
  {
    s
  }

  /** As intended: voting opens with an empty tally (and `setPhase` forgets our vote). */
  function RoundStore(s: GameState): (r: GameState)
    ensures r.phase == Voting && r.votes == [] && r.myVote.None?
  {
    s.(phase := Voting, myVote := None).(votes := [])
  }

  /** From the collecting phase, the code as written never reaches voting; the intended code does. */
  lemma AsWrittenNeverOpensVoting(s: GameState)
    requires s.phase == Collecting
    ensures RoundStoreAsWritten(s).phase != Voting
    ensures RoundStore(s).phase == Voting
  {
  }

  class Controls {
    const programId: string
    const attendees: seq<Attendee>
    const store: Store
    const channel: Channel
    var submissions: seq<StatementSubmission>
    var currentIndex: int
    /** The round being played, with its true lie index. */
    var roundData: Option<LieRound>

    constructor (programId: string, attendees: seq<Attendee>, store: Store, channel: Channel)
      ensures this.programId == programId && this.attendees == attendees
      ensures this.store == store && this.channel == channel
      ensures submissions == [] && currentIndex == 0 && roundData.None?
    {
      this.programId := programId;
      this.attendees := attendees;
      this.store := store;
      this.channel := channel;
      submissions := [];
      currentIndex := 0;
      roundData := None;
    }

    /** `loadSubmissions`: the selected rows, mapped and shuffled; a failed query (no data) keeps
        the submissions loaded before. */
    method LoadSubmissions(rows: seq<Response>, queryFailed: bool)
      modifies this
      ensures queryFailed ==> submissions == old(submissions)
      ensures !queryFailed ==> multiset(submissions) == multiset(SubmissionRows(rows, programId, attendees))
      ensures currentIndex == old(currentIndex) && roundData == old(roundData)
    {
      if queryFailed {
        return;
      }
      submissions := Shuffle(SubmissionRows(rows, programId, attendees));
    }

    /** The start-game button is enabled from two loaded submissions, so an enabled start always
        has a first submission to show. */
    predicate StartEnabled()
      reads this
      ensures StartEnabled() ==> |submissions| > 0
    {
      |submissions| >= 2
    }

    method StartCollecting()
      modifies store, channel
      ensures store.State() == old(store.State()).(phase := Collecting, myVote := None)
      ensures channel.connected == old(channel.connected)
      ensures channel.sent == Emit(channel.connected, old(channel.sent), "start_collecting", NoData)
    {
      channel.SendCommand("start_collecting", NoData);
      store.SetPhase(Collecting);
    }

    /** `showRound` as written: after the broadcast, `setGameRoundData` is not a function of the
        store and the call throws, so the store is left as it was. */
    method ShowRoundAsWritten(list: seq<StatementSubmission>, idx: int) returns (thrown: bool)
      modifies this, channel
      ensures submissions == old(submissions) && roundData == old(roundData)
      ensures store.State() == RoundStoreAsWritten(old(store.State()))
      ensures channel.connected == old(channel.connected)
      ensures thrown <==> 0 <= idx < |list|
      ensures !thrown ==> currentIndex == old(currentIndex) && channel.sent == old(channel.sent)
      ensures thrown ==> currentIndex == idx
      ensures thrown ==> channel.sent == Emit(channel.connected, old(channel.sent), "game_round",
                                              LieRoundData(Hidden(RoundOf(list[idx], idx, |list|)), "voting"))
    {
      if idx < 0 || idx >= |list| {
        return false;
      }
      currentIndex := idx;
      var rd := RoundOf(list[idx], idx, |list|);
      channel.SendCommand("game_round", LieRoundData(Hidden(rd), "voting"));
      thrown := true;
    }

    /** `showRound` as intended: the round is broadcast with the lie hidden, kept locally with the
        lie, and voting opens on an empty tally. An index outside the list does nothing. */
    method ShowRound(list: seq<StatementSubmission>, idx: int)
      modifies this, store, channel
      ensures submissions == old(submissions)
      ensures channel.connected == old(channel.connected)
      ensures !(0 <= idx < |list|) ==>
        currentIndex == old(currentIndex) && roundData == old(roundData) &&
        store.State() == old(store.State()) && channel.sent == old(channel.sent)
      ensures 0 <= idx < |list| ==>
        currentIndex == idx && roundData == Some(RoundOf(list[idx], idx, |list|)) &&
        store.State() == RoundStore(old(store.State())) &&
        channel.sent == Emit(channel.connected, old(channel.sent), "game_round",
                             LieRoundData(Hidden(roundData.value), "voting"))
    {
      if idx < 0 || idx >= |list| {
        return;
      }
      currentIndex := idx;
      var rd := RoundOf(list[idx], idx, |list|);
      channel.SendCommand("game_round", LieRoundData(Hidden(rd), "voting"));
      roundData := Some(rd);
      store.SetPhase(Voting);
      store.UpdateVotes([]);
    }

    /** `handleStartPlaying` as intended: reloads, then continues with the list the handler was
        rendered with, showing its first round through `ShowRound`. */
    method StartPlaying(rows: seq<Response>, queryFailed: bool)
      modifies this, store, channel
      ensures queryFailed ==> submissions == old(submissions)
      ensures !queryFailed ==> multiset(submissions) == multiset(SubmissionRows(rows, programId, attendees))
      ensures channel.connected == old(channel.connected)
      ensures old(StartEnabled()) ==> store.phase == Voting
      ensures |old(submissions)| == 0 ==>
        currentIndex == old(currentIndex) && roundData == old(roundData) &&
        store.State() == old(store.State()) && channel.sent == old(channel.sent)
      ensures |old(submissions)| > 0 ==>
        currentIndex == 0 && roundData == Some(RoundOf(old(submissions)[0], 0, |old(submissions)|)) &&
        store.State() == RoundStore(old(store.State())) &&
        channel.sent == Emit(channel.connected, old(channel.sent), "game_round",
                             LieRoundData(Hidden(roundData.value), "voting"))
    {
      var rendered := submissions;
      LoadSubmissions(rows, queryFailed);
      if |rendered| == 0 {
        return;
      }
      ShowRound(rendered, 0);
    }

    /** `handleStartPlaying` as written: the first round is broadcast, then `showRound` throws and
        the store stays where it was (in collecting). */
    method StartPlayingAsWritten(rows: seq<Response>, queryFailed: bool) returns (thrown: bool)
      modifies this, channel
      ensures queryFailed ==> submissions == old(submissions)
      ensures !queryFailed ==> multiset(submissions) == multiset(SubmissionRows(rows, programId, attendees))
      ensures roundData == old(roundData)
      ensures store.State() == RoundStoreAsWritten(old(store.State()))
      ensures channel.connected == old(channel.connected)
      ensures thrown <==> |old(submissions)| > 0
      ensures old(StartEnabled()) ==> thrown && store.phase == old(store.phase)
      ensures !thrown ==> currentIndex == old(currentIndex) && channel.sent == old(channel.sent)
      ensures thrown ==>
        currentIndex == 0 &&
        channel.sent == Emit(channel.connected, old(channel.sent), "game_round",
                             LieRoundData(Hidden(RoundOf(old(submissions)[0], 0, |old(submissions)|)), "voting"))
    {
      var rendered := submissions;
      LoadSubmissions(rows, queryFailed);
      if |rendered| == 0 {
        return false;
      }
      thrown := ShowRoundAsWritten(rendered, 0);
    }

    /** `handleShowResults` as written: the results with the true lie index are broadcast, then
        the same missing store action throws. */
    method ShowResultsAsWritten() returns (thrown: bool)
      modifies channel
      ensures channel.connected == old(channel.connected)
      ensures thrown <==> 0 <= currentIndex < |submissions|
      ensures !thrown ==> channel.sent == old(channel.sent)
      ensures thrown ==> channel.sent == Emit(channel.connected, old(channel.sent), "game_results",
                             LieResultsData(RoundOf(submissions[currentIndex], currentIndex, |submissions|), old(store.votes)))
    {
      if currentIndex < 0 || currentIndex >= |submissions| {
        return false;
      }
      var rd := RoundOf(submissions[currentIndex], currentIndex, |submissions|);
      channel.SendCommand("game_results", LieResultsData(rd, store.votes));
      thrown := true;
    }

    /** `handleShowResults` as intended: the true lie index is revealed with the current tally
        and the store moves to results. */
    method ShowResults()
      modifies this, store, channel
      ensures submissions == old(submissions) && currentIndex == old(currentIndex)
      ensures channel.connected == old(channel.connected)
      ensures !(0 <= currentIndex < |submissions|) ==>
        roundData == old(roundData) && store.State() == old(store.State()) && channel.sent == old(channel.sent)
      ensures 0 <= currentIndex < |submissions| ==>
        roundData == Some(RoundOf(submissions[currentIndex], currentIndex, |submissions|)) &&
        roundData.value.correctLieIndex == submissions[currentIndex].lieIndex &&
        store.State() == old(store.State()).(phase := Results) &&
        channel.sent == Emit(channel.connected, old(channel.sent), "game_results",
                             LieResultsData(roundData.value, old(store.votes)))
    {
      if currentIndex < 0 || currentIndex >= |submissions| {
        return;
      }
      var rd := RoundOf(submissions[currentIndex], currentIndex, |submissions|);
      var votes := store.votes;
      channel.SendCommand("game_results", LieResultsData(rd, votes));
      roundData := Some(rd);
      store.ShowResults("", votes);
    }

    method Finish()
      modifies store, channel
      ensures store.State() == old(store.State()).(phase := Finished, myVote := None)
      ensures channel.connected == old(channel.connected)
      ensures channel.sent == Emit(channel.connected, old(channel.sent), "finish", NoData)
    {
      channel.SendCommand("finish", NoData);
      store.SetPhase(Finished);
    }

    /** `handleNextRound` as intended: the next submission is shown through `ShowRound` while one
        remains, otherwise the game finishes. */
    method NextRound()
      requires currentIndex >= 0
      modifies this, store, channel
      ensures submissions == old(submissions) && currentIndex >= 0
      ensures channel.connected == old(channel.connected)
      ensures old(currentIndex) + 1 < |submissions| ==>
        currentIndex == old(currentIndex) + 1 &&
        roundData == Some(RoundOf(submissions[currentIndex], currentIndex, |submissions|)) &&
        store.State() == RoundStore(old(store.State())) &&
        channel.sent == Emit(channel.connected, old(channel.sent), "game_round",
                             LieRoundData(Hidden(roundData.value), "voting"))
      ensures old(currentIndex) + 1 >= |submissions| ==>
        currentIndex == old(currentIndex) && roundData == old(roundData) &&
        store.State() == old(store.State()).(phase := Finished, myVote := None) &&
        channel.sent == Emit(channel.connected, old(channel.sent), "finish", NoData)
    {
      var next := currentIndex + 1;
      if next < |submissions| {
        ShowRound(submissions, next);
      } else {
        Finish();
      }
    }

    /** `handleNextRound` as written: while a submission remains, its round is broadcast and
        `showRound` throws, leaving the store (in results) as it was; the last one finishes. */
    method NextRoundAsWritten() returns (thrown: bool)
      requires currentIndex >= 0
      modifies this, store, channel
      ensures submissions == old(submissions) && roundData == old(roundData)
      ensures channel.connected == old(channel.connected)
      ensures thrown <==> old(currentIndex) + 1 < |submissions|
      ensures thrown ==>
        currentIndex == old(currentIndex) + 1 &&
        store.State() == RoundStoreAsWritten(old(store.State())) &&
        channel.sent == Emit(channel.connected, old(channel.sent), "game_round",
                             LieRoundData(Hidden(RoundOf(submissions[currentIndex], currentIndex, |submissions|)), "voting"))
      ensures !thrown ==>
        currentIndex == old(currentIndex) &&
        store.State() == old(store.State()).(phase := Finished, myVote := None) &&
        channel.sent == Emit(channel.connected, old(channel.sent), "finish", NoData)
    {
      var next := currentIndex + 1;
      if next < |submissions| {
        thrown := ShowRoundAsWritten(submissions, next);
      } else {
        Finish();
        thrown := false;
      }
    }
  }
}

=== FILE: two_truths_views.dfy ===
/** The screens of "two truths and a lie" under `src/components/games/two-truths/`: the player's
    lie vote (`LieVoting.tsx`), the per-statement results (`LieResults.tsx`), the form that
    submits three statements (`StatementCollection.tsx`) and the projector (`ProjectorScreen.tsx`).
    The screens read the round from a store member the store does not define; here they take the
    round data as a parameter. */
module TwoTruthsViews {
  import opened Common
  import opened Db
  import opened GameStore
  import opened EventChannel

  /** The vote value of statement i is its index in decimal. */
  function VoteValue(i: nat): string {
    NatToString(i)
  }

  // ---------------------------------------------------------------------------
  // Voting
  // ---------------------------------------------------------------------------

  /** The vote a click on statement i sends: only while this client has not voted. */
  function ClickVote(myVote: Option<string>, i: nat): (v: Option<string>)
    ensures v.Some? <==> myVote.None?
    ensures v.Some? ==> v.value == VoteValue(i)
  {
    if myVote.None? then Some(VoteValue(i)) else None
  }

  datatype StatementButton = StatementButton(statement: string, selected: bool, disabled: bool)

  /** The lie vote: nothing without round data; otherwise one button per statement, selected
      when our vote is its index. */
  function LieVoting(roundData: Option<LieRound>, myVote: Option<string>): (v: Option<seq<StatementButton>>)
    ensures v.None? <==> roundData.None?
    ensures v.Some? ==> |v.value| == |roundData.value.statements|
    ensures v.Some? ==> forall i :: 0 <= i < |v.value| ==>
        v.value[i].statement == roundData.value.statements[i] &&
        (v.value[i].selected <==> myVote == Some(VoteValue(i))) &&
        (v.value[i].disabled <==> myVote.Some?)
  {
    match roundData
    case None => None
    case Some(r) =>
      Some(seq(|r.statements|, i requires 0 <= i < |r.statements| =>
        StatementButton(r.statements[i], myVote == Some(VoteValue(i)), myVote.Some?)))
  }

  /** At most one statement is ever shown as selected, and after clicking statement k it is k. */
  lemma OneSelectedStatement(r: LieRound, myVote: Option<string>, k: nat)
    ensures var v := LieVoting(Some(r), myVote).value;
      forall i, j :: 0 <= i < |v| && 0 <= j < |v| && v[i].selected && v[j].selected ==> i == j
    ensures var v := LieVoting(Some(r), ClickVote(None, k)).value;
      forall i :: 0 <= i < |v| ==> (v[i].selected <==> i == k)
  {
    var v := LieVoting(Some(r), myVote).value;
    forall i, j | 0 <= i < |v| && 0 <= j < |v| && v[i].selected && v[j].selected
      ensures i == j
    {
      NatToStringInjective(i, j);
    }
    var w := LieVoting(Some(r), ClickVote(None, k)).value;
    forall i | 0 <= i < |w|
      ensures w[i].selected <==> i == k
    {
      if w[i].selected {
        NatToStringInjective(i, k);
      }
    }
  }

  // ---------------------------------------------------------------------------
  // Results
  // ---------------------------------------------------------------------------

  datatype LieRow = LieRow(statement: string, isLie: bool, count: int, percent: int)

  /** The results: nothing without round data; otherwise the statements in their order, the one
      at the true lie index marked, each with its votes and share. */
  function LieResults(roundData: Option<LieRound>, votes: Record): (v: Option<seq<LieRow>>)
    ensures v.None? <==> roundData.None?
    ensures v.Some? ==> |v.value| == |roundData.value.statements|
    ensures v.Some? ==> forall i :: 0 <= i < |v.value| ==>
        v.value[i].statement == roundData.value.statements[i] &&
        (v.value[i].isLie <==> i == roundData.value.correctLieIndex) &&
        v.value[i].count == GetOr0(votes, VoteValue(i)) &&
        v.value[i].percent == Percent(v.value[i].count, TotalVotes(votes))
  {
    match roundData
    case None => None
    case Some(r) =>
      Some(seq(|r.statements|, i requires 0 <= i < |r.statements| =>
        LieRow(r.statements[i], i == r.correctLieIndex, GetOr0(votes, VoteValue(i)),
               Percent(GetOr0(votes, VoteValue(i)), TotalVotes(votes)))))
  }

  /** The results of a round the moderator revealed mark exactly the submitted lie, while the
      hidden index of the broadcast marks none. */
  lemma RevealMarksTheLie(r: LieRound, votes: Record)
    requires 0 <= r.correctLieIndex < |r.statements|
    ensures var rows := LieResults(Some(r), votes).value;
      rows[r.correctLieIndex].isLie && forall i :: 0 <= i < |rows| && rows[i].isLie ==> i == r.correctLieIndex
    ensures var rows := LieResults(Some(r.(correctLieIndex := -1)), votes).value;
      forall i :: 0 <= i < |rows| ==> !rows[i].isLie
  {
  }

  // ---------------------------------------------------------------------------
  // Projector
  // ---------------------------------------------------------------------------

  /** The live voting panel shows only while voting with round data. */
  function VotingPanel(phase: Phase, roundData: Option<LieRound>, votes: Record): (counts: Option<seq<int>>)
    ensures counts.Some? <==> phase == Voting && roundData.Some?
    ensures counts.Some? ==> |counts.value| == |roundData.value.statements|
    ensures counts.Some? ==> forall i :: 0 <= i < |counts.value| ==> counts.value[i] == GetOr0(votes, VoteValue(i))
  {
    if phase == Voting && roundData.Some? then
      Some(seq(|roundData.value.statements|, i requires 0 <= i < |roundData.value.statements| => GetOr0(votes, VoteValue(i))))
    else None
  }

  /** Sorting by this key puts the highest score first. */
  function ByScoreDesc(e: (string, int)): int { 0 - e.1 }

  /** The scores, highest first (ties keep their order). */
  function Ranked(scores: Record): (sorted: Record)
    ensures multiset(sorted) == multiset(scores) && |sorted| == |scores|
    ensures forall i, j :: 0 <= i < j < |sorted| ==> sorted[i].1 >= sorted[j].1
  {
    var sorted := SortByKey(scores, ByScoreDesc);
    assert forall i, j :: 0 <= i < j < |sorted| ==> ByScoreDesc(sorted[i]) <= ByScoreDesc(sorted[j]);
    sorted
  }

  /** The final leaderboard: no board without scores; otherwise at most five entries, highest
      first, each one of the scores. */
  function Leaderboard(scores: Record): (board: Option<seq<(string, int)>>)
    ensures board.None? <==> |scores| == 0
    ensures board.Some? ==> |board.value| == (if |scores| < 5 then |scores| else 5)
    ensures board.Some? ==> multiset(board.value) <= multiset(scores)
    ensures board.Some? ==> forall i, j :: 0 <= i < j < |board.value| ==> board.value[i].1 >= board.value[j].1
  {
    if |scores| == 0 then None
    else
      var sorted := Ranked(scores);
      var top := Take(sorted, 5);
      assert sorted == top + sorted[|top|..];
      Some(top)
  }

  /** No entry left off the board outscores one on it. */
  lemma LeaderboardKeepsTheBest(scores: Record)
    requires |scores| > 0
    ensures var board := Leaderboard(scores).value;
      forall e | e in scores && e !in board :: forall b | b in board :: b.1 >= e.1
  {
    var sorted := Ranked(scores);
    var board := Leaderboard(scores).value;
    assert board == sorted[..|board|];
    CutKeepsTheBest(scores, sorted, |board|);
  }

  /** Cutting a list sorted highest first leaves nothing above the cut outscored. */
  lemma CutKeepsTheBest(scores: Record, sorted: Record, k: nat)
    requires multiset(sorted) == multiset(scores)
    requires forall i, j :: 0 <= i < j < |sorted| ==> sorted[i].1 >= sorted[j].1
    requires k <= |sorted|
    ensures forall e | e in scores && e !in sorted[..k] :: forall b | b in sorted[..k] :: b.1 >= e.1
  {
    forall e | e in scores && e !in sorted[..k]
      ensures forall b | b in sorted[..k] :: b.1 >= e.1
    {
      assert e in multiset(sorted);
      var j :| 0 <= j < |sorted| && sorted[j] == e;
      assert j >= k;
      PrefixOutscores(sorted, k, j);
    }
  }

  lemma PrefixOutscores(sorted: Record, k: nat, j: nat)
    requires forall i, j :: 0 <= i < j < |sorted| ==> sorted[i].1 >= sorted[j].1
    requires k <= j < |sorted|
    ensures forall b | b in sorted[..k] :: b.1 >= sorted[j].1
  {
    forall b | b in sorted[..k]
      ensures b.1 >= sorted[j].1
    {
      var i :| 0 <= i < k && sorted[..k][i] == b;
      assert sorted[i] == b;
    }
  }

  // ---------------------------------------------------------------------------
  // Submitting three statements
  // ---------------------------------------------------------------------------

  /** `statements.every(s => s.trim().length > 0)`. */
  function AllFilled(statements: seq<string>): (b: bool)
    ensures b <==> forall i :: 0 <= i < |statements| ==> Trim(statements[i]) != []
  {
    if statements == [] then true else Trim(statements[0]) != [] && AllFilled(statements[1..])
  }

  function TrimAll(statements: seq<string>): (r: seq<string>)
    ensures |r| == |statements| && forall i :: 0 <= i < |r| ==> r[i] == Trim(statements[i])
  {
    seq(|statements|, i requires 0 <= i < |statements| => Trim(statements[i]))
  }

  /** The statement form: always three statements, an optional chosen lie and an in-flight flag.
      Submitting is split at its `await` like the fact form. */
  class StatementForm {
    const programId: string
    const attendeeId: string
    const store: Store
    const db: Database
    var statements: seq<string>
    var lieIndex: Option<int>
    var submitting: bool

    ghost predicate Valid()
      reads this
    {
      |statements| == 3 && (lieIndex.Some? ==> 0 <= lieIndex.value < 3)
    }

    constructor (programId: string, attendeeId: string, store: Store, db: Database)
      ensures Valid()
      ensures this.programId == programId && this.attendeeId == attendeeId
      ensures this.store == store && this.db == db
      ensures statements == ["", "", ""] && lieIndex.None? && !submitting
    {
      this.programId := programId;
      this.attendeeId := attendeeId;
      this.store := store;
      this.db := db;
      statements := ["", "", ""];
      lieIndex := None;
      submitting := false;
    }

    /** `updateStatement(index, value)`: only slot `index` changes. */
    method UpdateStatement(index: int, value: string)
      requires Valid() && 0 <= index < 3
      modifies this
      ensures Valid()
      ensures statements == old(statements)[index := value]
      ensures lieIndex == old(lieIndex) && submitting == old(submitting)
    {
      statements := statements[index := value];
    }

    /** Clicking statement i's lie marker. */
    method ChooseLie(i: int)
      requires Valid() && 0 <= i < 3
      modifies this
      ensures Valid()
      ensures lieIndex == Some(i) && statements == old(statements) && submitting == old(submitting)
    {
      lieIndex := Some(i);
    }

    predicate CanSubmit()
      reads this
    {
      AllFilled(statements) && lieIndex.Some? && !submitting
    }

    /** Without all three statements, a chosen lie and no request in flight nothing happens;
        otherwise the insert of the trimmed statements and the lie index starts. */
    method BeginSubmit() returns (request: Option<Response>)
      requires Valid()
      modifies this
      ensures Valid()
      ensures statements == old(statements) && lieIndex == old(lieIndex)
      ensures request.Some? <==> old(CanSubmit())
      ensures request.Some? ==>
        request.value == Response(programId, attendeeId, "statement_submission",
                                  StatementsPayload(TrimAll(statements), lieIndex.value), 0) &&
        |request.value.payload.statements| == 3 &&
        forall i :: 0 <= i < 3 ==> request.value.payload.statements[i] != []
      ensures submitting == (old(submitting) || request.Some?)
    {
      if !CanSubmit() {
        return None;
      }
      submitting := true;
      request := Some(Response(programId, attendeeId, "statement_submission",
                               StatementsPayload(TrimAll(statements), lieIndex.value), 0));
    }

    method FinishSubmit(request: Response, failed: bool)
      modifies this, db`responses, store
      ensures !submitting && statements == old(statements) && lieIndex == old(lieIndex)
      ensures failed ==> db.responses == old(db.responses) && store.State() == old(store.State())
      ensures !failed ==>
        db.responses == old(db.responses) + [request] &&
        store.State() == old(store.State()).(myFactSubmitted := true)
    {
      submitting := false;
      if !failed {
        db.responses := db.responses + [request];
        store.SetMyFactSubmitted(true);
      }
    }
  }
}

=== FILE: who_am_i_moderator.dfy ===
/** The moderator's controls of the "who am I" game
    (`src/components/games/who-am-i/ModeratorControls.tsx`): the submitted facts are loaded and
    shuffled, each round shows one fact with up to four name options, results reveal whose fact
    it was, and after the last fact the game finishes. Every step is sent on the channel and
    mirrored in the moderator's own store. */
module WhoAmIModerator {
  import opened Common
  import opened Db
  import opened GameStore
  import opened EventChannel

  const UnknownName := "Neznamy"
  const UnknownOption := "???"

  datatype FactSubmission = FactSubmission(attendeeId: string, fact: string, displayName: string)

  /** The rows the load query selects: this program's fact submissions of round 0. */
  predicate IsFactRow(r: Response, programId: string) {
    r.programId == programId && r.responseType == "fact_submission" && r.roundNumber == 0 &&
    r.payload.FactPayload?
  }

  /** One row as the moderator keeps it; an author missing from the attendee list is "Neznamy". */
  function ToSubmission(r: Response, attendees: seq<Attendee>): (f: FactSubmission)
    requires r.payload.FactPayload?
    ensures f.attendeeId == r.attendeeId && f.fact == r.payload.fact
    ensures (forall a | a in attendees :: a.id != r.attendeeId) ==> f.displayName == UnknownName
    ensures (exists a | a in attendees :: a.id == r.attendeeId) ==>
              exists a | a in attendees :: a.id == r.attendeeId && a.displayName == f.displayName
  {
    var author := FindAttendee(attendees, r.attendeeId);
    FactSubmission(r.attendeeId, r.payload.fact, if author.Some? then author.value.displayName else UnknownName)
  }

  /** The loaded facts before shuffling, in row order. */
  function FactRows(rows: seq<Response>, programId: string, attendees: seq<Attendee>): (r: seq<FactSubmission>)
    ensures |r| <= |rows|
    ensures forall f | f in r :: exists x | x in rows :: IsFactRow(x, programId) && f == ToSubmission(x, attendees)
    ensures forall x | x in rows && IsFactRow(x, programId) :: ToSubmission(x, attendees) in r
  {
    if rows == [] then []
    else
      var rest := FactRows(rows[1..], programId, attendees);
      assert forall x | x in rows[1..] :: x in rows;
      if IsFactRow(rows[0], programId) then [ToSubmission(rows[0], attendees)] + rest else rest
  }

  /** The filter distributes over concatenation, so every kept row is kept as often as it
      occurs, in order. */
  lemma {:induction false} FactRowsAppend(a: seq<Response>, b: seq<Response>, programId: string, attendees: seq<Attendee>)
    ensures FactRows(a + b, programId, attendees) == FactRows(a, programId, attendees) + FactRows(b, programId, attendees)
    decreases |a|
  {
    if a == [] {
      assert a + b == b;
    } else {
      var head := if IsFactRow(a[0], programId) then [ToSubmission(a[0], attendees)] else [];
      assert (a + b)[0] == a[0] && (a + b)[1..] == a[1..] + b;
      assert FactRows(a + b, programId, attendees) == head + FactRows(a[1..] + b, programId, attendees);
      FactRowsAppend(a[1..], b, programId, attendees);
    }
  }

  /** A single row is kept, as its submission, exactly when it is a fact for this program. */
  lemma FactRowsOne(x: Response, programId: string, attendees: seq<Attendee>)
    ensures FactRows([x], programId, attendees) == if IsFactRow(x, programId) then [ToSubmission(x, attendees)] else []
  {
    assert [x][1..] == [];
  }

  // ---------------------------------------------------------------------------
  // Options of one round
  // ---------------------------------------------------------------------------

  function OptionOf(a: Attendee): FactOption {
    FactOption(a.id, a.displayName)
  }

  /** The option naming the fact's author; "???" when the author is not an attendee. */
  function CorrectOption(attendees: seq<Attendee>, correctId: string): (o: FactOption)
    ensures o.attendeeId == correctId
    ensures (forall a | a in attendees :: a.id != correctId) <==> o.name == UnknownOption && FindAttendee(attendees, correctId).None?
    ensures FindAttendee(attendees, correctId).Some? ==> o.name == FindAttendee(attendees, correctId).value.displayName
  {
    var correct := FindAttendee(attendees, correctId);
    FactOption(correctId, if correct.Some? then correct.value.displayName else UnknownOption)
  }

  /** The attendees other than the author, in list order. */
  function Others(attendees: seq<Attendee>, correctId: string): (r: seq<Attendee>)
    ensures |r| <= |attendees|
    ensures forall a :: a in r <==> a in attendees && a.id != correctId
  {
    if attendees == [] then []
    else (if attendees[0].id != correctId then [attendees[0]] else []) + Others(attendees[1..], correctId)
  }

  function OptionsOf(xs: seq<Attendee>): (r: seq<FactOption>)
    ensures |r| == |xs| && forall i :: 0 <= i < |xs| ==> r[i] == OptionOf(xs[i])
  {
    seq(|xs|, i requires 0 <= i < |xs| => OptionOf(xs[i]))
  }

  /** What any run of `pickRandomOptions` returns: the author's option exactly once, and one
      option for each of at most three other attendees, in some order. */
  ghost predicate ValidOptions(attendees: seq<Attendee>, correctId: string, options: seq<FactOption>) {
    var others := Others(attendees, correctId);
    |options| == 1 + (if |others| < 3 then |others| else 3) &&
    multiset(options)[CorrectOption(attendees, correctId)] == 1 &&
    (forall o | o in options && o.attendeeId == correctId :: o == CorrectOption(attendees, correctId)) &&
    (forall o | o in options && o.attendeeId != correctId :: exists a | a in attendees :: a.id != correctId && OptionOf(a) == o)
  }

  /** Every option built from a selection of other attendees names one of them. */
  lemma ChosenAreOthers(attendees: seq<Attendee>, correctId: string, chosen: seq<Attendee>)
    requires multiset(chosen) <= multiset(Others(attendees, correctId))
    ensures forall o | o in OptionsOf(chosen) ::
              o.attendeeId != correctId && exists a | a in attendees :: a.id != correctId && OptionOf(a) == o
  {
    forall o | o in OptionsOf(chosen)
      ensures o.attendeeId != correctId && exists a | a in attendees :: a.id != correctId && OptionOf(a) == o
    {
      var i :| 0 <= i < |chosen| && OptionsOf(chosen)[i] == o;
      assert chosen[i] in multiset(Others(attendees, correctId));
    }
  }

  /** Any order of the author's option and the chosen others' options is a valid result. */
  lemma ShuffledOptionsValid(attendees: seq<Attendee>, correctId: string, chosen: seq<Attendee>, options: seq<FactOption>)
    requires var others := Others(attendees, correctId);
      |chosen| == (if |others| < 3 then |others| else 3) && multiset(chosen) <= multiset(others)
    requires multiset(options) == multiset([CorrectOption(attendees, correctId)] + OptionsOf(chosen))
    ensures ValidOptions(attendees, correctId, options)
  {
    var correct := CorrectOption(attendees, correctId);
    var rest := OptionsOf(chosen);
    var base := [correct] + rest;
    ChosenAreOthers(attendees, correctId, chosen);
    assert correct !in rest;
    assert multiset(base) == multiset{correct} + multiset(rest);
    assert multiset(options)[correct] == 1;
    assert |options| == |base| by {
      assert |multiset(options)| == |multiset(base)|;
    }
    forall o | o in options
      ensures o == correct || o in rest
    {
      assert o in multiset(options);
      assert o in multiset(base);
    }
  }

  /** `pickRandomOptions`: three other attendees after a shuffle, then the author's option added
      and the whole list shuffled again. The shuffles are any permutation. */
  method PickOptions(attendees: seq<Attendee>, correctId: string) returns (options: seq<FactOption>)
    ensures ValidOptions(attendees, correctId, options)
    ensures |options| <= 4
  {
    var chosen := ChooseSome(Others(attendees, correctId), 3);
    options := Shuffle([CorrectOption(attendees, correctId)] + OptionsOf(chosen));
    ShuffledOptionsValid(attendees, correctId, chosen, options);
  }

  // ---------------------------------------------------------------------------
  // The controls
  // ---------------------------------------------------------------------------

  class Controls {
    const programId: string
    const attendees: seq<Attendee>
    const store: Store
    const channel: Channel
    var facts: seq<FactSubmission>
    var currentFactIndex: int

    constructor (programId: string, attendees: seq<Attendee>, store: Store, channel: Channel)
      ensures this.programId == programId && this.attendees == attendees
      ensures this.store == store && this.channel == channel
      ensures facts == [] && currentFactIndex == 0
    {
      this.programId := programId;
      this.attendees := attendees;
      this.store := store;
      this.channel := channel;
      facts := [];
      currentFactIndex := 0;
    }

    /** `loadFacts`: the selected rows, mapped and shuffled; a failed query (no data) keeps the
        facts loaded before. */
    method LoadFacts(rows: seq<Response>, queryFailed: bool)
      modifies this
      ensures queryFailed ==> facts == old(facts)
      ensures !queryFailed ==> multiset(facts) == multiset(FactRows(rows, programId, attendees))
      ensures currentFactIndex == old(currentFactIndex)
    {
      if queryFailed {
        return;
      }
      facts := Shuffle(FactRows(rows, programId, attendees));
    }

    /** The start-game button is enabled from two loaded facts, so an enabled start always
        has a first fact to show. */
    predicate StartEnabled()
      reads this
      ensures StartEnabled() ==> |facts| > 0
    {
      |facts| >= 2
    }

    method StartCollecting()
      modifies store, channel
      ensures store.State() == old(store.State()).(phase := Collecting, myVote := None)
      ensures channel.connected == old(channel.connected)
      ensures channel.sent == Emit(channel.connected, old(channel.sent), "start_collecting", NoData)
    {
      channel.SendCommand("start_collecting", NoData);
      store.SetPhase(Collecting);
    }

    /** `showFactAtIndex` over the list of facts the handler was created with: an index outside
        it does nothing; otherwise round idx+1 of the list's length is sent and mirrored. */
    method ShowFactAt(list: seq<FactSubmission>, idx: int)
      modifies this, store, channel
      ensures facts == old(facts)
      ensures channel.connected == old(channel.connected)
      ensures !(0 <= idx < |list|) ==>
        currentFactIndex == old(currentFactIndex) && store.State() == old(store.State()) && channel.sent == old(channel.sent)
      ensures 0 <= idx < |list| ==>
        currentFactIndex == idx && store.currentFact.Some? &&
        store.State() == old(store.State()).(phase := Voting, currentRound := idx + 1, totalRounds := |list|,
                                             currentFact := store.currentFact, votes := [], myVote := None) &&
        store.currentFact.value.fact == list[idx].fact &&
        store.currentFact.value.correctAttendeeId == list[idx].attendeeId &&
        ValidOptions(attendees, list[idx].attendeeId, store.currentFact.value.options) &&
        channel.sent == Emit(channel.connected, old(channel.sent), "show_fact", FactData(idx + 1, |list|, store.currentFact.value))
    {
      if idx < 0 || idx >= |list| {
        return;
      }
      var f := list[idx];
      var options := PickOptions(attendees, f.attendeeId);
      currentFactIndex := idx;
      var data := RoundData(f.fact, f.attendeeId, options);
      channel.SendCommand("show_fact", FactData(idx + 1, |list|, data));
      store.ShowFact(idx + 1, |list|, data);
    }

    /** `handleStartPlaying`: the facts are reloaded, but the continuation still sees the list
        the handler was rendered with; an empty one stops there, otherwise its first fact is
        shown. The button is disabled below two facts (StartEnabled). */
    method StartPlaying(rows: seq<Response>, queryFailed: bool)
      modifies this, store, channel
      ensures queryFailed ==> facts == old(facts)
      ensures !queryFailed ==> multiset(facts) == multiset(FactRows(rows, programId, attendees))
      ensures channel.connected == old(channel.connected)
      ensures old(StartEnabled()) ==> store.phase == Voting && store.totalRounds >= 2
      ensures |old(facts)| == 0 ==>
        currentFactIndex == old(currentFactIndex) && store.State() == old(store.State()) && channel.sent == old(channel.sent)
      ensures |old(facts)| > 0 ==>
        currentFactIndex == 0 && store.currentFact.Some? &&
        store.State() == old(store.State()).(phase := Voting, currentRound := 1, totalRounds := |old(facts)|,
                                             currentFact := store.currentFact, votes := [], myVote := None) &&
        store.currentFact.value.fact == old(facts)[0].fact &&
        store.currentFact.value.correctAttendeeId == old(facts)[0].attendeeId &&
        ValidOptions(attendees, old(facts)[0].attendeeId, store.currentFact.value.options) &&
        channel.sent == Emit(channel.connected, old(channel.sent), "show_fact", FactData(1, |old(facts)|, store.currentFact.value))
    {
      var rendered := facts;
      LoadFacts(rows, queryFailed);
      if |rendered| == 0 {
        return;
      }
      ShowFactAt(rendered, 0);
    }

    /** `handleShowResults`: without a current fact nothing happens; otherwise the author is
        revealed with the current tally. */
    method ShowResults()
      modifies store, channel
      ensures channel.connected == old(channel.connected)
      ensures !(0 <= currentFactIndex < |facts|) ==> store.State() == old(store.State()) && channel.sent == old(channel.sent)
      ensures 0 <= currentFactIndex < |facts| ==>
        store.State() == old(store.State()).(phase := Results) &&
        channel.sent == Emit(channel.connected, old(channel.sent), "show_results",
                             ResultsData(facts[currentFactIndex].attendeeId, old(store.votes)))
    {
      if currentFactIndex < 0 || currentFactIndex >= |facts| {
        return;
      }
      var f := facts[currentFactIndex];
      var votes := store.votes;
      channel.SendCommand("show_results", ResultsData(f.attendeeId, votes));
      store.ShowResults(f.attendeeId, votes);
    }

    /** `handleFinish`. */
    method Finish()
      modifies store, channel
      ensures store.State() == old(store.State()).(phase := Finished, myVote := None)
      ensures channel.connected == old(channel.connected)
      ensures channel.sent == Emit(channel.connected, old(channel.sent), "finish", NoData)
    {
      channel.SendCommand("finish", NoData);
      store.SetPhase(Finished);
    }

    /** `handleNextRound`: the next fact while one remains, otherwise the game finishes. */
    method NextRound()
      requires currentFactIndex >= 0
      modifies this, store, channel
      ensures facts == old(facts) && currentFactIndex >= 0
      ensures channel.connected == old(channel.connected)
      ensures old(currentFactIndex) + 1 < |facts| ==>
        currentFactIndex == old(currentFactIndex) + 1 && store.currentFact.Some? &&
        store.State() == old(store.State()).(phase := Voting, currentRound := currentFactIndex + 1, totalRounds := |facts|,
                                             currentFact := store.currentFact, votes := [], myVote := None) &&
        store.currentFact.value.fact == facts[currentFactIndex].fact &&
        store.currentFact.value.correctAttendeeId == facts[currentFactIndex].attendeeId &&
        ValidOptions(attendees, facts[currentFactIndex].attendeeId, store.currentFact.value.options) &&
        channel.sent == Emit(channel.connected, old(channel.sent), "show_fact",
                             FactData(currentFactIndex + 1, |facts|, store.currentFact.value))
      ensures old(currentFactIndex) + 1 >= |facts| ==>
        currentFactIndex == old(currentFactIndex) &&
        store.State() == old(store.State()).(phase := Finished, myVote := None) &&
        channel.sent == Emit(channel.connected, old(channel.sent), "finish", NoData)
    {
      var next := currentFactIndex + 1;
      if next < |facts| {
        ShowFactAt(facts, next);
      } else {
        Finish();
      }
    }
  }
}

=== FILE: who_am_i_views.dfy ===
/** The player's screens of the "who am I" game: the voting buttons
    (`VotingScreen.tsx`), the results with vote shares (`ResultsScreen.tsx`) and the form that
    submits a fact (`FactCollection.tsx`), all under `src/components/games/who-am-i/`. */
module WhoAmIViews {
  import opened Common
  import opened Db
  import opened GameStore

  // ---------------------------------------------------------------------------
  // Voting
  // ---------------------------------------------------------------------------

  /** The vote a click on `option` sends, if any: the option's attendee id, and only while this
      client has not voted. */
  function ClickVote(myVote: Option<string>, option: FactOption): (v: Option<string>)
    ensures v.Some? <==> myVote.None?
    ensures v.Some? ==> v.value == option.attendeeId
  {
    if myVote.None? then Some(option.attendeeId) else None
  }

  datatype OptionButton = OptionButton(option: FactOption, selected: bool, disabled: bool)

  datatype VotingView = VotingView(round: int, total: int, fact: string, buttons: seq<OptionButton>)

  /** The voting screen: nothing without a fact; otherwise one button per option in order, the
      one matching our vote selected and all of them disabled once we voted. */
  function VotingScreen(s: GameState): (v: Option<VotingView>)
    ensures v.None? <==> s.currentFact.None?
    ensures v.Some? ==> var options := s.currentFact.value.options;
      v.value.round == s.currentRound && v.value.total == s.totalRounds && v.value.fact == s.currentFact.value.fact &&
      |v.value.buttons| == |options| &&
      forall i :: 0 <= i < |options| ==>
        v.value.buttons[i].option == options[i] &&
        (v.value.buttons[i].selected <==> s.myVote == Some(options[i].attendeeId)) &&
        (v.value.buttons[i].disabled <==> s.myVote.Some?)
  {
    match s.currentFact
    case None => None
    case Some(f) =>
      Some(VotingView(s.currentRound, s.totalRounds, f.fact,
        seq(|f.options|, i requires 0 <= i < |f.options| =>
          OptionButton(f.options[i], s.myVote == Some(f.options[i].attendeeId), s.myVote.Some?))))
  }

  /** Once a vote is recorded, no click sends another and the voted option is the one shown as
      selected. */
  lemma VoteOnce(s: GameState, voted: FactOption, other: FactOption)
    requires s.currentFact.Some? && s.myVote.None?
    requires ClickVote(s.myVote, voted).Some?
    ensures var s' := s.(myVote := ClickVote(s.myVote, voted));
      ClickVote(s'.myVote, other).None? &&
      forall i :: 0 <= i < |VotingScreen(s').value.buttons| ==>
        VotingScreen(s').value.buttons[i].disabled &&
        (VotingScreen(s').value.buttons[i].selected <==> VotingScreen(s').value.buttons[i].option.attendeeId == voted.attendeeId)
  {
  }

  // ---------------------------------------------------------------------------
  // Results
  // ---------------------------------------------------------------------------

  /** The options by descending vote count; equal counts keep their order. */
  function SortedOptions(options: seq<FactOption>, votes: Record): (r: seq<FactOption>)
    ensures |r| == |options| && multiset(r) == multiset(options)
    ensures forall i, j :: 0 <= i < j < |r| ==> GetOr0(votes, r[i].attendeeId) >= GetOr0(votes, r[j].attendeeId)
  {
    var key := (o: FactOption) => 0 - GetOr0(votes, o.attendeeId);
    var r := SortByKey(options, key);
    assert forall i, j :: 0 <= i < j < |r| ==> key(r[i]) <= key(r[j]);
    r
  }

  /** The name of the option whose id is the correct one (the first such), or "???". */
  function CorrectName(fact: RoundData): (n: string)
    ensures (forall o | o in fact.options :: o.attendeeId != fact.correctAttendeeId) ==> n == "???"
    ensures (exists o | o in fact.options :: o.attendeeId == fact.correctAttendeeId) ==>
              exists o | o in fact.options :: o.attendeeId == fact.correctAttendeeId && o.name == n
  {
    FirstNameOf(fact.options, fact.correctAttendeeId)
  }

  function FirstNameOf(options: seq<FactOption>, id: string): (n: string)
    ensures (forall o | o in options :: o.attendeeId != id) ==> n == "???"
    ensures (exists o | o in options :: o.attendeeId == id) ==>
              exists o | o in options :: o.attendeeId == id && o.name == n
  {
    if options == [] then "???"
    else if options[0].attendeeId == id then options[0].name
    else FirstNameOf(options[1..], id)
  }

  datatype ResultRow = ResultRow(option: FactOption, count: int, percent: int, isCorrect: bool)

  datatype ResultsView = ResultsView(fact: string, correctName: string, rows: seq<ResultRow>)

  /** One row per option, in the given order. */
  function ResultRows(options: seq<FactOption>, votes: Record, correctId: string): (rows: seq<ResultRow>)
    ensures |rows| == |options|
    ensures forall i :: 0 <= i < |rows| ==>
      rows[i].option == options[i] &&
      rows[i].count == GetOr0(votes, options[i].attendeeId) &&
      rows[i].percent == Percent(rows[i].count, TotalVotes(votes)) &&
      (rows[i].isCorrect <==> options[i].attendeeId == correctId)
  {
    seq(|options|, i requires 0 <= i < |options| =>
      ResultRow(options[i], GetOr0(votes, options[i].attendeeId),
                Percent(GetOr0(votes, options[i].attendeeId), TotalVotes(votes)),
                options[i].attendeeId == correctId))
  }

  function OptionsOfRows(rows: seq<ResultRow>): (r: seq<FactOption>)
    ensures |r| == |rows| && forall i :: 0 <= i < |rows| ==> r[i] == rows[i].option
  {
    seq(|rows|, i requires 0 <= i < |rows| => rows[i].option)
  }

  /** The results screen: nothing without a fact; otherwise the correct name and one row per
      option, most votes first, each with its count, its share and whether it is the answer. */
  function ResultsScreen(s: GameState): (v: Option<ResultsView>)
    ensures v.None? <==> s.currentFact.None?
    ensures v.Some? ==> v.value.correctName == CorrectName(s.currentFact.value)
    ensures v.Some? ==> multiset(OptionsOfRows(v.value.rows)) == multiset(s.currentFact.value.options)
    ensures v.Some? ==> forall i :: 0 <= i < |v.value.rows| ==>
      v.value.rows[i].count == GetOr0(s.votes, v.value.rows[i].option.attendeeId) &&
      v.value.rows[i].percent == Percent(v.value.rows[i].count, TotalVotes(s.votes)) &&
      (v.value.rows[i].isCorrect <==> v.value.rows[i].option.attendeeId == s.currentFact.value.correctAttendeeId)
    ensures v.Some? ==> forall i, j :: 0 <= i < j < |v.value.rows| ==> v.value.rows[i].count >= v.value.rows[j].count
  {
    match s.currentFact
    case None => None
    case Some(f) =>
      var sorted := SortedOptions(f.options, s.votes);
      var rows := ResultRows(sorted, s.votes, f.correctAttendeeId);
      assert OptionsOfRows(rows) == sorted;
      Some(ResultsView(f.fact, CorrectName(f), rows))
  }

  // ---------------------------------------------------------------------------
  // Submitting a fact
  // ---------------------------------------------------------------------------

  /** The row a submission inserts: this player's trimmed fact for round 0. */
  function FactResponse(programId: string, attendeeId: string, fact: string): (r: Response)
    ensures r.responseType == "fact_submission" && r.roundNumber == 0
    ensures r.payload == FactPayload(Trim(fact))
    ensures r.programId == programId && r.attendeeId == attendeeId
  {
    Response(programId, attendeeId, "fact_submission", FactPayload(Trim(fact)), 0)
  }

  /** The form shows the confirmation instead of the input once the store says the fact is in. */
  function ShowsConfirmation(s: GameState): bool {
    s.myFactSubmitted
  }

  /** The fact form. The submit handler is split at its `await`: `BeginSubmit` runs the guard and
      marks the request in flight, `FinishSubmit` takes the outcome of the insert. */
  class FactForm {
    const programId: string
    const attendeeId: string
    const store: Store
    const db: Database
    var fact: string
    var submitting: bool

    constructor (programId: string, attendeeId: string, store: Store, db: Database)
      ensures this.programId == programId && this.attendeeId == attendeeId
      ensures this.store == store && this.db == db
      ensures fact == "" && !submitting
    {
      this.programId := programId;
      this.attendeeId := attendeeId;
      this.store := store;
      this.db := db;
      fact := "";
      submitting := false;
    }

    method SetFact(text: string)
      modifies this
      ensures fact == text && submitting == old(submitting)
    {
      fact := text;
    }

    /** A blank fact, or a submit already in flight, is ignored; otherwise the insert of the
        trimmed fact starts. */
    method BeginSubmit() returns (request: Option<Response>)
      modifies this
      ensures fact == old(fact)
      ensures request.Some? <==> Trim(old(fact)) != [] && !old(submitting)
      ensures request.Some? ==> request.value == FactResponse(programId, attendeeId, fact)
      ensures submitting == (old(submitting) || request.Some?)
    {
      if Trim(fact) == [] || submitting {
        return None;
      }
      submitting := true;
      request := Some(FactResponse(programId, attendeeId, fact));
    }

    /** The insert's outcome: the row is stored and the store flag set only when it succeeded. */
    method FinishSubmit(request: Response, failed: bool)
      modifies this, db`responses, store
      ensures !submitting && fact == old(fact)
      ensures failed ==> db.responses == old(db.responses) && store.State() == old(store.State())
      ensures !failed ==>
        db.responses == old(db.responses) + [request] &&
        store.State() == old(store.State()).(myFactSubmitted := true) &&
        ShowsConfirmation(store.State())
    {
      submitting := false;
      if !failed {
        db.responses := db.responses + [request];
        store.SetMyFactSubmitted(true);
      }
    }
  }
}
